=== FILE: README.md ===
# PostGIS backend of imposm3, modelled in Dafny

This project models the PostGIS backend of the imposm3 import tool (the
`kucjac/imposm3` fork). The backend writes OpenStreetMap features into
PostgreSQL/PostGIS and derives simplified "generalized" tables from them.

The model covers:

- **Column types**: the four column type variants (scalar, geometry,
  validated geometry, H3 geometry), the process-wide type registry, and the
  SQL each variant renders. Variants render a type token, an insert
  placeholder `$i[::Geometry]` and a generalization projection.
- **H3 resolutions**: the parser for an H3 column's `resolutions` argument,
  with its clamping to 0..15 and its `int8` conversion.
- **Table specifications**: base tables (`TableSpec`) and generalized tables
  (`GeneralizedTableSpec`), their construction from configuration, and the
  SQL templates built from them. The templates are `CREATE TABLE`,
  `INSERT`, `COPY`, `DELETE` and the single-row replay into a generalized
  table.
- **Schema set-up**: `Init` (schema and base tables), `Finish` (geometry,
  H3 and identifier indexes), and `Optimize` (geohash clustering and
  `ANALYSE`).
- **The generalized-table graph**:
  - binding each generalized table's source name;
  - the fixpoint loop that binds every table to the root base table its
    chain ends in;
  - the reverse `generalizations` lists;
  - `sortedGeneralizedTables`.
- **Materialization**: the statements of one `generalizeTable` transaction,
  and the wave loop of `Generalize`.
- **The update path**: the `Insert*` methods and `Delete` with their
  transaction-router calls, the identifiers recorded for generalized tables,
  and their replay by `GeneralizeUpdates`.
- **The connection string**: how `New` turns it into driver parameters.

## How the model is built

- Go pointers between specs become names: maps from table name to spec.
- The H3 variant's resolution list is shared by every H3 column in the
  source. Here it is explicit state (`Columns.Registry`), passed from call
  to call.
- Go map iteration order is unspecified. Every loop over a map takes its
  visiting order as a parameter (`Seqs.Visits` or `Seqs.Enumerates`), and
  the properties hold for every order.
- Database statements are values (`Ddl.Statement`) collected in order.
- What the database answers is an input:
  - whether a schema exists;
  - whether the H3 extension is installed;
  - the PostGIS version string;
  - which generalized tables fail to materialize;
  - which tables the transaction router rejects.
- The worker pool becomes a sequential run of all jobs in submission order,
  reporting the first error in that order.
- Each wave of `Generalize` is dispatched against the tables created before
  the wave began.
- Where the backend's documented behaviour and its code disagree, the
  model follows the code:
  - A numeric-string resolution is not clamped
    (`Resolutions.StringResolutionNotClamped`).
  - Once sources are resolved, `sortedGeneralizedTables` is a single pass in
    map order, with no parent-before-child guarantee
    (`Graph.SortedGeneralizedTables`).
  - A base table's `generalizations` list holds every generalized table
    rooted at it, not only the direct ones (`Graph.RootEdges`).
  - On a cycle of generalized tables, source resolution loops forever rather
    than failing.
  - `Delete` records no identifier for a later replay. With tracking on, it
    deletes from the generalized tables directly (`Updates.DeleteRows`).
  - `GeneralizeUpdates` never clears the recorded identifiers
    (`Updates.GeneralizeUpdates`).

## Model

| member | source | states |
|---|---|---|
| Columns.RegistryGeometryToken | database/postgis/columns.go:71-86 | In the registry, a type's name is the `GEOMETRY` token exactly when it is one of the three geometry kinds; scalars keep their SQL type names. |
| Columns.PlaceholderRoundTrip | database/postgis/columns.go:24-44 | An insert placeholder parses back to exactly the argument number it was built for. It carries the geometry cast exactly for the geometry kinds. |
| Columns.ProjectionKeepsColumnName | database/postgis/columns.go:28-64 | Every variant's projection yields a result column named after the source column: the bare quoted column or an expression aliased to it. |
| Columns.ProjectionVariants | database/postgis/columns.go:46-69 | The H3 variant projects exactly like plain geometry. The validated variant wraps the same simplification in a zero-width `ST_Buffer` and keeps the alias. Scalar projections do not depend on the tolerance. |
| Resolutions.CheckResolution | database/postgis/spec.go:161-171 | The result lies in 0..15, is the nearest such value to the input, and is the input itself when that is already valid. |
| Resolutions.ClampAll | database/postgis/spec.go:191-196 | A `[]int` argument yields one clamped resolution per value, in order. |
| Resolutions.AppendAnyList | database/postgis/spec.go:181-190 | A mixed list succeeds iff every element is an integer, and then appends one value per element. On failure the values before the first non-integer stay appended, and the error is the not-an-integer error. Every appended value is the clamped element. |
| Resolutions.AppendResolutions | database/postgis/spec.go:173-213 | Parsing succeeds exactly for the accepted argument shapes, and only ever extends the shared list. An absent argument appends the default 5. An integer, a float (truncated toward zero) and a `[]int` append their values clamped by `checkResolution`, in order. Every branch except the numeric string appends values in 0..15. A numeric string appends its value modulo 256. |
| Resolutions.StringResolutionNotClamped | database/postgis/spec.go:197-205 | The numeric-string branch does not clamp: "16" stays 16 and "200" becomes -56, while the integer 200 becomes 15. |
| Resolutions.StringResolutionsUnclamped | database/postgis/spec.go:197-205 | For every numeric string with a value from 16 to 127, that value enters the shared list unclamped. |
| Text.ToInt8 | database/postgis/spec.go:188 | The `int8` conversion agrees with its argument modulo 256 and keeps every value in -128..127. |
| Text.AtoiOfIntToString | database/postgis/spec.go:201 | `strconv.Atoi` reads back every decimal rendering of a 64-bit integer. |
| Text.TrimSpaceSlice | database/postgis/postgis.go:651 | `strings.TrimSpace` returns a contiguous slice of its input. |
| Text.TrimSpaceRemovesSpace | database/postgis/postgis.go:651 | Only whitespace lies before and after the slice that `strings.TrimSpace` keeps. |
| Spec.AnyNamed | database/postgis/spec.go:48-54 | The id-column scan finds a column named `id` exactly when one exists. |
| Spec.ColumnDefinitions | database/postgis/spec.go:63-68 | The CREATE TABLE column definitions are the non-geometry columns, in order, each rendered as `"name" TYPE`. |
| Spec.CreateTableColumns | database/postgis/spec.go:47-69 | The serial `id` column leads the list exactly when no column is named `id`. After it come exactly the non-geometry definitions. When some column is named `id`, the list is exactly those definitions. |
| Spec.QuotedNames | database/postgis/spec.go:81-84 | One quoted column name per column, in declared order. |
| Spec.PlaceholderAt | database/postgis/spec.go:85-86 | Placeholder k of the INSERT is column k's placeholder for argument `first + k`. |
| Spec.InsertPlaceholdersNumbered | database/postgis/spec.go:80-96 | The k-th placeholder of an INSERT binds argument k+1. It is cast to geometry exactly for geometry columns. |
| Spec.CopyAndInsertNameSameColumns | database/postgis/spec.go:80-111 | The INSERT and the COPY statement of a table name the same column list in the same order, so the two transports are interchangeable. |
| Spec.IdColumnName | database/postgis/spec.go:113-124 | The identifier column is the first column whose field type is `id`. A table without one, or whose first one has an empty name, is an error where the code panics. |
| Spec.DeleteSQL | database/postgis/spec.go:113-131 | A DELETE template exists exactly when the table has an identifier column. It deletes from the table's `"schema"."fullName"` and filters on that column's `$1`. |
| Spec.IdNotionsDiffer | database/postgis/spec.go:48-124 | CREATE TABLE recognises the identifier by column name and DELETE by field type. A column named `id` of another field type suppresses the serial column, yet leaves no DELETE template. |
| Spec.IdNameWithoutIdField | database/postgis/spec.go:48-124 | For every table with a column named `id` and no `id`-typed column, the CREATE list holds no serial column and there is no DELETE template. |
| Spec.ProjectionList | database/postgis/spec.go:268-271 | One projection per source column, in order, each that column type's generalization expression. |
| Spec.GeneralizedDeleteSQL | database/postgis/spec.go:235-253 | The DELETE of a generalized table exists exactly when its root source has an identifier column. It targets the generalized table and filters on the root source's first `id`-typed column. |
| Spec.ReplayShape | database/postgis/spec.go:273-281 | The replay statement contains the row selection. It ends with the `AND (filter)` clause exactly when the table has a filter. |
| Spec.GeneralizedInsertSQL | database/postgis/spec.go:255-284 | The replay statement exists exactly when the source has an identifier column. It inserts into the generalized table's schema-qualified full name, selects the projection list from the root source, filtered by identifier, and ends with the table's filter exactly when there is one. |
| Spec.AnyListShift | database/postgis/spec.go:180-190 | Parsing a mixed list into a non-empty shared list appends exactly what parsing into an empty one yields, with the same error. |
| Spec.ResolutionsShift | database/postgis/spec.go:173-213 | The same holds for every argument shape, so columns' resolutions concatenate in the shared list. |
| Spec.BuildColumns | database/postgis/spec.go:149-219 | The column loop keeps the type map and only extends the shared resolution list. It yields one column per configured column when it succeeds. |
| Spec.BuildColumnEffect | database/postgis/spec.go:149-218 | One column is accepted exactly when the mapping layer resolved it, its Go type is registered, and (for H3) its resolutions parse. It then carries its registered type and appends only its own contribution. |
| Spec.BuildColumnsAccepts | database/postgis/spec.go:149-219 | The loop succeeds exactly when every configured column is accepted. |
| Spec.BuildColumnsContents | database/postgis/spec.go:217-218 | A successful loop keeps every column, in order, with its name, field type and registered type. |
| Spec.BuildColumnsResolutions | database/postgis/spec.go:173-218 | A successful loop appends every H3 column's resolutions to the shared list, in column order. |
| Spec.NewTableSpec | database/postgis/spec.go:133-221 | A table is built exactly when all its columns are accepted. It keeps the configured name, gets the prefixed full name, the import schema, the configured SRID and no generalizations. Each column keeps its configured name and made field type, with its registered PostgreSQL type, in order. Relation-member tables get the `geometry` type, and any other table its configured type. The shared resolution list grows by the table's contributions. |
| Spec.ResolutionsAccumulateAcrossTables | database/postgis/spec.go:173-213 | Building two tables one after the other leaves both tables' resolutions, in order, in the one list every H3 column is indexed with. |
| Spec.NewGeneralizedTableSpec | database/postgis/spec.go:223-233 | A new generalized table is unresolved, not materialized and has no generalizations. It keeps its configured name, source name, tolerance and SQL filter, lives in the import schema and gets the prefixed full name. |
| Ddl.CreateSchema | database/postgis/postgis.go:112-138 | Nothing is issued for `public`. Otherwise the existence probe comes first, and a CREATE SCHEMA for exactly that schema is issued iff the schema was not found. |
| Ddl.GeometryTypeArg | database/postgis/postgis.go:74-77 | The type argument is the configured type upper-cased character by character. When that is `POLYGON`, in whatever casing it was configured, it is `GEOMETRY` instead. It adds no quote. |
| Ddl.AddGeometryColumnRoundTrip | database/postgis/postgis.go:78-79 | Split at its quotes, the AddGeometryColumn call reads back as the schema, table, column, SRID and type it was built from, provided no name holds a quote. |
| Ddl.AddGeometryColumn | database/postgis/postgis.go:61-87 | A registration is issued exactly when the table has a GEOMETRY column and the first such column's name is not empty. It names that column. |
| Ddl.CreateTable | database/postgis/postgis.go:39-59 | The table is dropped, then created. A third statement follows exactly when `addGeometryColumn` yields one, and it is that statement. |
| Ddl.CreateTableRegisters | database/postgis/postgis.go:39-87 | `createTable` issues a third statement exactly when the table's first geometry column has a non-empty name. That statement is a query, so nothing after the drop drops anything. |
| Ddl.CreateTableRegistersFirstGeometry | database/postgis/postgis.go:39-87 | When the first geometry column's name is not empty, the registration statement of `createTable` names that column, its SRID and its geometry type argument. |
| Ddl.CreateTables | database/postgis/postgis.go:151-155 | Exactly the visited tables are dropped, and every visited table is created. |
| Ddl.CreateTablesFlatten | database/postgis/postgis.go:151-155 | The table loop emits each visited table's `createTable` statements as one whole block, the blocks in visiting order, and nothing else. |
| Ddl.Init | database/postgis/postgis.go:141-162 | The schema statements come first, then every base table is dropped and created. |
| Ddl.InitBlocks | database/postgis/postgis.go:141-162 | `Init` is exactly the schema statements followed by the `createTable` blocks of the tables in visiting order. |
| Ddl.InitTableBlock | database/postgis/postgis.go:150-155 | Each table's drop, CREATE and registration form one block of `Init`. In front of it are the schema statements and exactly the blocks of the tables visited earlier; behind it are exactly the blocks of the tables visited later. |
| Ddl.H3Indexes | database/postgis/postgis.go:220-240 | One functional H3 index per resolution, in order. |
| Ddl.GeometryIndex | database/postgis/postgis.go:209-251 | A geometry column is indexed without error exactly when it is plain, or it is H3 with the extension installed and the SRID 4326 or 3857. On error it reports the missing extension before the SRID. An empty H3 list gets the default resolution, and the indexes issued are exactly that column's. |
| Ddl.IndexColumn | database/postgis/postgis.go:207-263 | The same for any column, adding the B-tree index of an identifier column. |
| Ddl.CreateIndex | database/postgis/postgis.go:206-266 | A table's columns index without error exactly when each can be indexed. An error is that of the first column that cannot. The statements are exactly the columns' indexes. The shared list is touched only by defaulting an empty one. |
| Ddl.Jobs | database/postgis/postgis.go:173-188 | One index job per base table, then one per generalized table. A generalized table is indexed with its root source's columns and SRID. |
| Ddl.Finish | database/postgis/postgis.go:164-196 | `Finish` succeeds exactly when every column of every job can be indexed. An error is that of the first failing job's first unindexable column. On success the statements are exactly the jobs' indexes. |
| Ddl.ClusterTable | database/postgis/postgis.go:429-463 | With a geometry column: a geohash index on the first one, a CLUSTER, then ANALYSE. Without: only ANALYSE. |
| Ddl.ClusterUsesCreatedIndex | database/postgis/postgis.go:433-443 | The CLUSTER names the index created just before it, on the same table in the import schema. |
| Ddl.Optimize | database/postgis/postgis.go:396-427 | Every job is analysed. Two more statements are issued per job with a geometry column. |
| Ddl.OptimizeFlatten | database/postgis/postgis.go:396-463 | `Optimize` is exactly each job's `clusterTable` statements (geohash index, CLUSTER, ANALYSE) as one whole block, the blocks in job order. |
| Graph.BindSources | database/postgis/postgis.go:683-692 | Binding succeeds exactly when every visited source name exists. A base table of that name wins over a generalized one. An error names the first visited table whose source is missing. |
| Graph.BindAllTables | database/postgis/postgis.go:683-692 | In any order that visits all tables, binding succeeds iff every source name exists, and it then binds every table. |
| Graph.ResolvePass | database/postgis/postgis.go:696-704 | A pass keeps every bound root. `filled` reports exactly whether it met a table without one. |
| Graph.PassesResolve | database/postgis/postgis.go:695-705 | Given enough passes over all tables, the loop ends with every table bound to the root its chain of source names ends in. |
| Graph.ResolveRoots | database/postgis/postgis.go:694-706 | Whatever the visiting orders, every generalized table ends bound to the root base table its chain ends in. Nothing else changes. |
| Graph.DerivedShareRoot | database/postgis/postgis.go:698-701 | A table derived from a generalized table ends with the same root as that table. |
| Graph.PrepareGeneralizations | database/postgis/postgis.go:709-716 | Only `generalizations` lists change. Each base table's list gains, in visiting order, the tables rooted at it. Each generalized table's list gains the tables whose source name names it. |
| Graph.RootEdges | database/postgis/postgis.go:710-711 | A base table's list gains exactly the generalized tables rooted at it, directly or through other generalized tables, each once. |
| Graph.ParentEdges | database/postgis/postgis.go:712-714 | A generalized table's list gains exactly the tables directly derived from it, each once. |
| Graph.GeneralizedFromMatches | database/postgis/postgis.go:568-575 | The fan-out holds exactly the tables in some matched base table's list. |
| Graph.SortPass | database/postgis/postgis.go:582-589 | A pass only appends, and what it appends was visited and not added before. |
| Graph.SortPassAdmitsAll | database/postgis/postgis.go:582-589 | Once every root is bound, a pass appends every fresh visited table, in visiting order. |
| Graph.SortLoopFirstPass | database/postgis/postgis.go:581-590 | Once every root is bound, the loop ends after its first pass. |
| Graph.SortedGeneralizedTables | database/postgis/postgis.go:577-592 | After source resolution the result is the first pass's iteration order: each generalized table exactly once, in map order, with no parent-before-child guarantee. |
| Generalize.CreateAsShape | database/postgis/postgis.go:345-369 | The CREATE TABLE AS statement creates the generalized table and contains the projection `SELECT ... FROM`. It ends with ` WHERE filter)` exactly when the table has a filter. |
| Generalize.CreateAsReadsFrom | database/postgis/postgis.go:361-369 | The statement reads from the table it is given. |
| Generalize.GeneralizeTable | database/postgis/postgis.go:335-393 | The transaction drops, then creates the table under its schema-qualified full name from the generalized source if there is one (the root base table otherwise), then probes the version. The CREATE ends in a WHERE clause carrying the table's filter exactly when it has one. Unless the reported version starts with `2.` (so also on PostGIS 3) it registers the geometry column under the root's schema. |
| Generalize.ReplayProjects | database/postgis/spec.go:268-281 | The single-row replay selects through the projection list. |
| Generalize.SameProjectionAtBothSites | database/postgis/postgis.go:349-369 | Materialization and replay of a generalized table use the very same projection list over the root's columns. |
| Generalize.FirstWave | database/postgis/postgis.go:290-301 | The first wave holds exactly the tables not derived from a generalized table, without repeats. |
| Generalize.NextWave | database/postgis/postgis.go:314-326 | A later wave holds exactly the uncreated tables whose generalized source was created before the wave, without repeats. |
| Generalize.RunWaveOrder | database/postgis/postgis.go:289-305 | A wave appends exactly its non-failing tables to the log, in wave order. |
| Generalize.RunWave | database/postgis/postgis.go:289-305 | Every wave table is run. Exactly the non-failing ones are created and logged, and the wave fails iff one of its tables fails. The error names a failing wave table. |
| Generalize.WaveConsistent | database/postgis/postgis.go:313-330 | A wave whose tables' sources already exist logs each table once, after its generalized source. |
| Generalize.FirstWaveOutcome | database/postgis/postgis.go:289-305 | Without failure, the first wave creates every table not derived from a generalized table. A failure names a failing table. |
| Generalize.WaveOutcome | database/postgis/postgis.go:313-330 | A later wave keeps the log consistent and only adds tables. A wave that neither fails nor creates leaves no creatable table. |
| Generalize.WavesOutcome | database/postgis/postgis.go:307-331 | The later waves keep each table logged once, after its source. If they end without error, no table whose generalized source exists is left uncreated. An error names a failing table. |
| Generalize.Generalize | database/postgis/postgis.go:280-333 | A successful run creates every table not derived from a generalized table, and leaves no table whose generalized source exists uncreated. Each table is created once, after its source. An error names a failing table. |
| Generalize.GeneralizeCreatesDescendants | database/postgis/postgis.go:287-333 | A successful run creates exactly the tables whose chain reaches a table not derived from a generalized table. A table on a cycle is never created, yet the run reports success. |
| Updates.RouteRows | database/postgis/postgis.go:495-501 | Rows are handed over in order until the first rejected one, which is handed over too. The error names that table, and there is none iff no table is rejected. |
| Updates.InsertUntracked | database/postgis/postgis.go:494-502 | `InsertPoint` and `InsertRelationMember` log one insert per match up to and including the first rejected one. They record no identifier. |
| Updates.InsertTracked | database/postgis/postgis.go:504-523 | `InsertLineString` and `InsertPolygon` route like the untracked inserts. Only when all rows were accepted and tracking is on, the identifier is appended once per occurrence of each table in the fan-out. |
| Updates.TrackedInsertRecords | database/postgis/postgis.go:511-521 | A tracked insert records the identifier for a generalized table exactly when some matched base table lists it. |
| Updates.Record | database/postgis/postgis.go:515-518 | Appending to the recorded identifiers adds the identifier once per occurrence of each table and changes nothing else. |
| Updates.DeleteRows | database/postgis/postgis.go:556-566 | Only deletes of this identifier are added. A table is targeted exactly when it is matched, or tracking is on and a matched base table lists it. No identifier is recorded. |
| Updates.Replays | database/postgis/postgis.go:270-276 | The replay inserts exactly the recorded identifiers of the sorted tables. |
| Updates.GeneralizeUpdates | database/postgis/postgis.go:268-278 | Every added call is an insert of a bare identifier. Each generalized table receives exactly one insert per record, in record order, and other tables receive none. Tables are replayed one after another in the sorted order. The records are kept. |
| Updates.ReplayedOncePerRecord | database/postgis/postgis.go:268-278 | A generalized table receives as many inserts of an identifier as it holds records of it. |
| Updates.TrackedRowsReplayed | database/postgis/postgis.go:504-523 | A row inserted with tracking on is re-derived, by the next `GeneralizeUpdates`, in every generalized table listed by a matched table. |
| Connection.Canonical | database/postgis/postgis.go:633-639 | A `postgis:` string continues as `postgres:` with the same remainder, and any other string is unchanged. |
| Connection.ConnectionParams | database/postgis/postgis.go:641-652 | The parameters are a URL exactly when the rewritten string starts with `postgres://`, and the URL is that string. Otherwise they are a parameter list without surrounding blanks, taken from inside the configured string. |
| Connection.AliasEquivalent | database/postgis/postgis.go:633-640 | Any connection string means the same with the `postgis` scheme as with `postgres`. |
| Connection.ParamListOf | database/postgis/postgis.go:649-652 | After `postgres:`, anything that does not continue as a URL is the parameter list with blanks around it removed. |
| Connection.UrlOf | database/postgis/postgis.go:643-648 | A `postgres://` string is passed on whole as a URL. |

## Left out

- **Database I/O.**
  - Opening the database, pinging it, `Close`, transactions, commit and rollback are not modelled.
  - Every statement's own execution error is not modelled.
  - The database's answers are inputs, as described above.
- **Concurrency.**
  - The worker pool's goroutines, channel and worker count are not modelled, nor the mutex around the recorded identifiers.
  - Jobs run sequentially in submission order, and the first error in that order is reported. The pool itself reports whichever error a worker hit first.
- **The transaction router** (`TxRouter`, bulk and transactional) is not modelled. `Begin`, `BeginBulk`, `Abort` and `End` only create or close it.
  - Insert and delete calls are kept as a log, and rejection is an input set.
  - As in the code, the router's errors are ignored by `Delete` and `GeneralizeUpdates`.
- **Rows.** The values `match.Row` and `match.MemberRow` build are abstract, apart from the identifier a replay inserts.
- **Logging and warnings.** Log output is dropped, including the validated-geometry warning for non-polygon tables.
- **`New` as a whole.** Its pieces are modelled: the connection string, `NewTableSpec` with the shared registry passed from table to table, `NewGeneralizedTableSpec`, and source resolution. Left out are:
  - its loop over the configured tables, with its wrapped errors;
  - `pq.ParseURL`: the URL variant is passed on, and its parse error is not modelled;
  - `disableDefaultSsl` and `stripPrefixFromConnectionParams`, which are not part of this model. The table prefix is a setting instead.
- **`dropTableIfExists`** is not part of this model; its statement is kept as an opaque value.
- **`mapping.MakeColumnType`** is an input: each configured column carries its result or its error.
- **Floating point.** The `%f` tolerance is held as an integer number of millionths and rendered with six decimals. A YAML float resolution is given by its truncation.
- **Case mapping.** `strings.ToUpper` on the geometry type is modelled on ASCII letters only.
- **Table names.** Generalized tables are keyed by their name, which is assumed to equal their configuration key.
- Graph.ResolveRoots: requires every chain to end at a bound base table, because on a cycle the source loop does not terminate.
- Generalize.Generalize: requires one visiting order per wave, with more orders than there are tables plus one, which bounds the number of waves the loop can take.
- Graph.SortedGeneralizedTables: requires every root to be bound, because before that the source loop can spin without end. This is the only state in which the backend calls it.
- Graph.GeneralizedFromMatches: requires every matched table to be a base table, because any other is a nil dereference in the source. Updates.InsertTracked, Updates.DeleteRows and Updates.TrackedRowsReplayed inherit this.
- Generalize.RunWave: a failing table leaves no trace, because its transaction rolls back whole. The exact failure point inside the transaction is not modelled.
- Connection.ConnectionParams: for a parameter list it states no surrounding blanks and that it comes from the configured string. The exact value is stated by Connection.ParamListOf.
- Ddl.Optimize: its own contract states the ANALYSE per job and the statement count. The geohash index, CLUSTER and per-job order are stated by Ddl.OptimizeFlatten over Ddl.ClusterTable.

=== FILE: columns.dfy ===
/** The column type variants of the PostGIS backend: how each renders its
    SQL type token, its insert placeholder and its generalization
    projection, and the process-wide registry they are looked up in. */
module Columns {
  import opened Results
  import opened Text

  /** One scalar variant and three geometry-kind variants. The validated and
      H3 variants embed the plain geometry behaviour; the H3 variant's
      indexed resolutions live in the shared `Registry`, because every H3
      column points at the same registry object. */
  datatype ColumnType =
    | Simple(typeName: string)
    | Geometry(typeName: string)
    | ValidatedGeometry(typeName: string)
    | H3Geometry(typeName: string)

  /** The token `CreateTableSQL`, `createIndex`, `clusterTable` and
      `addGeometryColumn` compare column type names against. */
  const GeometryToken: string := "GEOMETRY"

  function Name(t: ColumnType): string {
    t.typeName
  }

  predicate IsGeometryKind(t: ColumnType) {
    !t.Simple?
  }

  /** The registry of Go type names, as initialised at start-up. */
  const PgTypes: map<string, ColumnType> := map[
    "string" := Simple("VARCHAR"),
    "bool" := Simple("BOOL"),
    "int8" := Simple("SMALLINT"),
    "int32" := Simple("INT"),
    "int64" := Simple("BIGINT"),
    "float32" := Simple("REAL"),
    "hstore_string" := Simple("HSTORE"),
    "geometry" := Geometry(GeometryToken),
    "validated_geometry" := ValidatedGeometry(GeometryToken),
    "h3geometry" := H3Geometry(GeometryToken)
  ]

  const DefaultH3Resolution: Int8 := 5

  /** The registry as explicit state: the type map and the indexed
      resolutions of the one H3 variant every H3 column shares. */
  datatype Registry = Registry(types: map<string, ColumnType>, h3Resolutions: seq<Int8>)

  const InitialRegistry: Registry := Registry(PgTypes, [])

  /** In the registry, a type renders the geometry token exactly when it is
      one of the three geometry-kind variants; that is what lets the DDL
      code recognise geometry columns by name. */
  lemma RegistryGeometryToken(goType: string)
    requires goType in PgTypes
    ensures Name(PgTypes[goType]) == GeometryToken <==> IsGeometryKind(PgTypes[goType])
    ensures goType == "string" ==> Name(PgTypes[goType]) == "VARCHAR"
    ensures goType == "int64" ==> Name(PgTypes[goType]) == "BIGINT"
  {
  }

  // ---------------------------------------------------------------------
  // Insert placeholders

  const GeometryCast: string := "::Geometry"

  /** `PrepareInsertSql(i)`: `$i` for scalars, `$i::Geometry` for every
      geometry kind (the validated and H3 variants inherit it). */
  function PrepareInsertSql(t: ColumnType, i: nat): string {
    if t.Simple? then "$" + NatToString(i) else "$" + NatToString(i) + GeometryCast
  }

  /** What a placeholder denotes: the positional argument it binds and
      whether it is cast to geometry. */
  datatype Placeholder = Placeholder(argument: nat, geometryCast: bool)

  /** Reads a placeholder back: `$` followed by decimal digits, optionally
      followed by the geometry cast. */
  function ParsePlaceholder(s: string): Option<Placeholder> {
    if |s| < 2 || s[0] != '$' then None
    else
      var body := s[1..];
      if HasSuffix(body, GeometryCast) && |body| > |GeometryCast|
         && AllDigits(body[..|body| - |GeometryCast|])
      then Some(Placeholder(DigitsValue(body[..|body| - |GeometryCast|]), true))
      else if AllDigits(body) then Some(Placeholder(DigitsValue(body), false))
      else None
  }

  /** Every placeholder binds exactly its own argument number, and carries
      the geometry cast exactly for the geometry kinds. */
  lemma PlaceholderRoundTrip(t: ColumnType, i: nat)
    ensures ParsePlaceholder(PrepareInsertSql(t, i)) == Some(Placeholder(i, IsGeometryKind(t)))
  {
    var digits := NatToString(i);
    NatToStringRoundTrip(i);
    var s := PrepareInsertSql(t, i);
    if t.Simple? {
      assert s[1..] == digits;
    } else {
      var body := s[1..];
      assert body == digits + GeometryCast;
      assert body[|body| - |GeometryCast|..] == GeometryCast;
      assert body[..|body| - |GeometryCast|] == digits;
    }
  }

  // ---------------------------------------------------------------------
  // Generalization projections

  const SimplifyOpen: string := "ST_SimplifyPreserveTopology("
  const BufferOpen: string := "ST_Buffer("
  const BufferClose: string := ", 0)"
  const AsKeyword: string := " as "

  /** `ST_SimplifyPreserveTopology("<col>", <tolerance>)`. */
  function Simplify(column: string, toleranceMicros: int): string {
    SimplifyOpen + Quote(column) + ", " + FormatMicros(toleranceMicros) + ")"
  }

  /** ` as "<col>"`: names a projected expression after the column. */
  function Alias(column: string): string {
    AsKeyword + Quote(column)
  }

  /** `GeneralizeSql`: the projection used both when a generalized table is
      materialized and when a single updated row is replayed into it. */
  function GeneralizeSql(t: ColumnType, column: string, toleranceMicros: int): string {
    match t
    case Simple(_) => Quote(column)
    case Geometry(_) => Simplify(column, toleranceMicros) + Alias(column)
    case ValidatedGeometry(_) => (BufferOpen + Simplify(column, toleranceMicros) + BufferClose) + Alias(column)
    case H3Geometry(_) => Simplify(column, toleranceMicros) + Alias(column)
  }

  /** A projection yields a result column named `column`: either the bare
      quoted column or an expression aliased to it. */
  predicate ProjectsAs(projection: string, column: string) {
    projection == Quote(column) || HasSuffix(projection, Alias(column))
  }

  /** Every projection yields a result column with the column's own name. */
  lemma ProjectionKeepsColumnName(t: ColumnType, column: string, toleranceMicros: int)
    ensures ProjectsAs(GeneralizeSql(t, column, toleranceMicros), column)
  {
    var p := GeneralizeSql(t, column, toleranceMicros);
    var alias := Alias(column);
    if !t.Simple? {
      assert p[|p| - |alias|..] == alias;
    }
  }

  /** The H3 variant projects exactly like the plain geometry; the validated
      variant wraps the very same simplification in a zero-width buffer and
      keeps the same alias; scalar projections ignore the tolerance. */
  lemma ProjectionVariants(name: string, column: string, toleranceMicros: int, other: int)
    ensures GeneralizeSql(H3Geometry(name), column, toleranceMicros)
         == GeneralizeSql(Geometry(name), column, toleranceMicros)
    ensures var simplify := Simplify(column, toleranceMicros);
      && HasPrefix(GeneralizeSql(Geometry(name), column, toleranceMicros), simplify)
      && GeneralizeSql(ValidatedGeometry(name), column, toleranceMicros)
         == BufferOpen + simplify + BufferClose + GeneralizeSql(Geometry(name), column, toleranceMicros)[|simplify|..]
    ensures GeneralizeSql(Simple(name), column, toleranceMicros) == GeneralizeSql(Simple(name), column, other)
  {
    var simplify := Simplify(column, toleranceMicros);
    assert (simplify + Alias(column))[|simplify|..] == Alias(column);
  }
}

=== FILE: connection.dfy ===
/** How `New` turns the configured connection string into the parameters
    handed to the driver: `postgis` is accepted as an alias of the
    `postgres` scheme, a `postgres://` URL is left to the driver's URL
    parser, and anything else is a parameter list after `postgres:`. */
module Connection {
  import opened Text

  const AliasName: string := "postgis"
  const SchemeName: string := "postgres"
  const AliasScheme: string := "postgis:"
  const Scheme: string := "postgres:"
  const UrlScheme: string := "postgres://"

  /** What `New` passes on: a URL for `pq.ParseURL`, or a parameter list
      used as it is. */
  datatype Params = Url(url: string) | ParamList(params: string)

  /** `strings.Replace(s, old, new, 1)` on a string that starts with `old`
      replaces that leading occurrence. */
  lemma ReplaceFirstAtStart(s: string, target: string, replacement: string)
    requires |target| > 0 && HasPrefix(s, target)
    ensures ReplaceFirst(s, target, replacement) == replacement + s[|target|..]
  {
  }

  /** The alias rewrite: a `postgis:` string continues as a `postgres:`
      string with the same remainder; any other string is kept. */
  function Canonical(conn: string): (r: string)
    ensures HasPrefix(conn, AliasScheme) ==> r == Scheme + conn[|AliasScheme|..]
    ensures !HasPrefix(conn, AliasScheme) ==> r == conn
  {
    if HasPrefix(conn, AliasScheme) then
      ReplaceFirstAtStart(conn, AliasName, SchemeName);
      assert conn[|AliasName|..] == ":" + conn[|AliasScheme|..];
      ReplaceFirst(conn, AliasName, SchemeName)
    else conn
  }

  /** The connection parameters `New` derives from the configuration. */
  function ConnectionParams(conn: string): (r: Params)
    ensures r.Url? <==> HasPrefix(Canonical(conn), UrlScheme)
    ensures r.Url? ==> r.url == Canonical(conn)
    ensures r.ParamList? ==> |r.params| == 0 || (!IsSpace(r.params[0]) && !IsSpace(r.params[|r.params| - 1]))
    ensures r.ParamList? ==> IsInfix(r.params, conn)
  {
    var c := Canonical(conn);
    if HasPrefix(c, UrlScheme) then Url(c)
    else
      var params := TrimSpace(TrimPrefix(c, Scheme));
      ParamsInfix(conn, params);
      ParamList(params)
  }

  lemma ParamsInfix(conn: string, params: string)
    requires params == TrimSpace(TrimPrefix(Canonical(conn), Scheme))
    ensures IsInfix(params, conn)
  {
    var k := BodyIsSuffix(conn);
    TrimmedSuffixInfix(conn, k, TrimPrefix(Canonical(conn), Scheme));
  }

  /** Trimming blanks off a suffix leaves an infix. */
  lemma TrimmedSuffixInfix(conn: string, k: nat, body: string)
    requires k <= |conn| && body == conn[k..]
    ensures IsInfix(TrimSpace(body), conn)
  {
    var i := TrimSpaceSlice(body);
    InfixOfSuffixSlice(conn, k, body, i, TrimSpace(body));
  }

  /** What remains after the scheme is a suffix of the configured string. */
  lemma BodyIsSuffix(conn: string) returns (k: nat)
    ensures k <= |conn| && TrimPrefix(Canonical(conn), Scheme) == conn[k..]
  {
    var c := Canonical(conn);
    if HasPrefix(conn, AliasScheme) {
      k := |AliasScheme|;
      assert c[|Scheme|..] == conn[k..];
    } else if HasPrefix(conn, Scheme) {
      k := |Scheme|;
    } else {
      k := 0;
    }
  }

  lemma InfixOfSuffixSlice(s: string, k: nat, body: string, a: nat, sub: string)
    requires k <= |s| && body == s[k..]
    requires a + |sub| <= |body| && sub == body[a..a + |sub|]
    ensures IsInfix(sub, s)
  {
    SliceOfSuffix(s, k, body, a, sub);
    InfixOfSlice(s, sub, k + a, k + a + |sub|);
  }

  lemma SliceOfSuffix(s: string, k: nat, body: string, a: nat, sub: string)
    requires k <= |s| && body == s[k..]
    requires a + |sub| <= |body| && sub == body[a..a + |sub|]
    ensures k + a + |sub| <= |s| && sub == s[k + a..k + a + |sub|]
  {
  }

  lemma InfixOfSlice(s: string, sub: string, a: nat, b: nat)
    requires a <= b <= |s| && sub == s[a..b]
    ensures IsInfix(sub, s)
  {
    assert s == s[..a] + s[a..b] + s[b..];
    InfixOfConcat(s[..a], s[a..b], s[b..]);
  }

  /** `postgis` and `postgres` name the same database: a connection string
      means the same with either scheme. */
  lemma AliasEquivalent(rest: string)
    ensures ConnectionParams(AliasScheme + rest) == ConnectionParams(Scheme + rest)
  {
    var alias := AliasScheme + rest;
    assert HasPrefix(alias, AliasScheme);
    assert alias[|AliasScheme|..] == rest;
    assert !HasPrefix(Scheme + rest, AliasScheme) by {
      assert (Scheme + rest)[5] != AliasScheme[5];
    }
  }

  /** Whatever follows `postgres:` is a parameter list, blanks around it
      removed, unless it continues as a URL. */
  lemma ParamListOf(s: string)
    requires !HasPrefix(s, "//")
    ensures ConnectionParams(Scheme + s) == ParamList(TrimSpace(s))
  {
    var conn := Scheme + s;
    assert !HasPrefix(conn, AliasScheme) by {
      assert conn[5] != AliasScheme[5];
    }
    assert !HasPrefix(conn, UrlScheme) by {
      if |s| >= 2 {
        assert conn[9] == s[0] && conn[10] == s[1];
        assert !(s[0] == '/' && s[1] == '/') by {
          assert s[..2] == [s[0], s[1]];
        }
      }
    }
    assert conn[|Scheme|..] == s;
  }

  /** A URL is passed on whole, with the `postgres` scheme. */
  lemma UrlOf(rest: string)
    ensures ConnectionParams(Scheme + "//" + rest) == Url(UrlScheme + rest)
  {
    var conn := Scheme + "//" + rest;
    assert conn == UrlScheme + rest;
    assert !HasPrefix(conn, AliasScheme) by {
      assert conn[5] != AliasScheme[5];
    }
  }
}

=== FILE: ddl.dfy ===
/** The DDL of the backend: the import schema, the tables with their
    geometry column, the indexes of `Finish` and the clustering of
    `Optimize`. Statements go to an abstract sink; what the database
    answers (whether the schema exists, whether the H3 extension is
    installed) is an input. */
module Ddl {
  import opened Results
  import opened Text
  import opened Seqs
  import opened Columns
  import opened Spec

  /** A statement handed to the database: an `Exec`, a `QueryRow` whose row
      is scanned, or the `dropTableIfExists` helper (whose SQL is not part
      of this model). */
  datatype Statement =
    | Exec(sql: string)
    | Query(sql: string)
    | DropTableIfExists(schema: string, table: string)

  // ---------------------------------------------------------------------
  // createSchema

  const PublicSchema: string := "public"
  const SchemaExistsHead: string := "SELECT EXISTS(SELECT schema_name FROM information_schema.schemata WHERE schema_name = '"
  const CreateSchemaHead: string := "CREATE SCHEMA "

  function SchemaExistsSQL(schema: string): string {
    SchemaExistsHead + schema + "');"
  }

  function CreateSchemaSQL(schema: string): string {
    CreateSchemaHead + Quote(schema)
  }

  /** The schema a `CREATE SCHEMA "<name>"` statement creates. */
  function SchemaCreated(sql: string): Option<string> {
    var head := CreateSchemaHead + "\"";
    if |sql| >= |head| + 1 && HasPrefix(sql, head) && sql[|sql| - 1] == '"' then Some(sql[|head|..|sql| - 1])
    else None
  }

  /** `createSchema`: nothing for the public schema; otherwise a query for
      the schema, and `CREATE SCHEMA` when the answer `found` is no. */
  function CreateSchema(schema: string, found: bool): (r: seq<Statement>)
    ensures r == [] <==> schema == PublicSchema
    ensures schema != PublicSchema ==> r[0] == Query(SchemaExistsSQL(schema))
    ensures (exists i :: 0 <= i < |r| && r[i].Exec?) <==> schema != PublicSchema && !found
    ensures forall i :: 0 <= i < |r| && r[i].Exec? ==> SchemaCreated(r[i].sql) == Some(schema)
  {
    if schema == PublicSchema then []
    else if found then [Query(SchemaExistsSQL(schema))]
    else
      var create := CreateSchemaSQL(schema);
      assert create[|CreateSchemaHead + "\""|..|create| - 1] == schema;
      var r := [Query(SchemaExistsSQL(schema)), Exec(create)];
      assert r[1].Exec?;
      r
  }

  // ---------------------------------------------------------------------
  // addGeometryColumn and createTable

  /** The geometry type `AddGeometryColumn` is given: the configured type in
      upper case, with `POLYGON` widened to `GEOMETRY` so that a column can
      also hold multipolygons. */
  function GeometryTypeArg(geometryType: string): (r: string)
    ensures r != "POLYGON"
    ensures forall i :: 0 <= i < |r| ==> !('a' <= r[i] <= 'z')
    ensures r != "GEOMETRY" ==> |r| == |geometryType|
    ensures ToUpper(geometryType) == "POLYGON" ==> r == "GEOMETRY"
    ensures ToUpper(geometryType) != "POLYGON" ==> |r| == |geometryType| && forall i :: 0 <= i < |r| ==> r[i] == UpperChar(geometryType[i])
    ensures '\'' !in geometryType ==> '\'' !in r
  {
    var upper := ToUpper(geometryType);
    if upper == "POLYGON" then "GEOMETRY"
    else
      assert forall m :: 0 <= m < |upper| ==> upper[m] == UpperChar(geometryType[m]);
      upper
  }

  /** `SELECT AddGeometryColumn('<schema>', '<table>', '<column>', '<srid>',
      '<type>', 2);`: every argument between single quotes. */
  function AddGeometryColumnSQL(schema: string, table: string, column: string, srid: int, geometryType: string): string {
    Join(AddGeometryColumnParts(schema, table, column, IntToString(srid), geometryType), "'")
  }

  const AddGeometryColumnHead: string := "SELECT AddGeometryColumn("
  const AddGeometryColumnTail: string := ", 2);"

  /** The text between the quotes of an `AddGeometryColumn` statement. */
  function AddGeometryColumnParts(schema: string, table: string, column: string, srid: string, geometryType: string): seq<string> {
    [AddGeometryColumnHead, schema, ", ", table, ", ", column, ", ", srid, ", ", geometryType, AddGeometryColumnTail]
  }

  datatype GeometryColumnArgs = GeometryColumnArgs(schema: string, table: string, column: string, srid: string, geometryType: string)

  /** The arguments of an `AddGeometryColumn` statement, read back by
      splitting it on its quotes. */
  function ParseAddGeometryColumn(sql: string): Option<GeometryColumnArgs> {
    var p := Split(sql, '\'');
    if && |p| == 11 && p[0] == AddGeometryColumnHead
       && p[2] == ", " && p[4] == ", " && p[6] == ", " && p[8] == ", " && p[10] == AddGeometryColumnTail
    then Some(GeometryColumnArgs(p[1], p[3], p[5], p[7], p[9]))
    else None
  }

  /** The statement reads back as the arguments it was built from, as long
      as no name holds a single quote; the SRID reads back as its value. */
  lemma AddGeometryColumnRoundTrip(schema: string, table: string, column: string, srid: int, geometryType: string)
    requires '\'' !in schema && '\'' !in table && '\'' !in column && '\'' !in geometryType
    requires Int64Min <= srid <= Int64Max
    ensures var args := ParseAddGeometryColumn(AddGeometryColumnSQL(schema, table, column, srid, geometryType));
      && args == Some(GeometryColumnArgs(schema, table, column, IntToString(srid), geometryType))
      && Atoi(args.value.srid) == Some(srid)
  {
    AddGeometryColumnSplits(schema, table, column, IntToString(srid), geometryType);
    AtoiOfIntToString(srid);
  }

  lemma AddGeometryColumnSplits(schema: string, table: string, column: string, srid: string, geometryType: string)
    requires '\'' !in schema && '\'' !in table && '\'' !in column && '\'' !in geometryType
    requires AllDigits(srid) || (|srid| > 0 && srid[0] == '-' && AllDigits(srid[1..]))
    ensures Split(Join(AddGeometryColumnParts(schema, table, column, srid, geometryType), "'"), '\'')
         == AddGeometryColumnParts(schema, table, column, srid, geometryType)
  {
    var parts := AddGeometryColumnParts(schema, table, column, srid, geometryType);
    assert '\'' !in srid by {
      if !AllDigits(srid) {
        assert srid == [srid[0]] + srid[1..];
      }
    }
    assert forall i :: 0 <= i < |parts| ==> '\'' !in parts[i];
    SplitJoin(parts, '\'');
  }

  /** Column `i` is the first GEOMETRY column of `columns`. */
  predicate FirstGeometryAt(columns: seq<ColumnSpec>, i: int) {
    && 0 <= i < |columns| && IsGeometryColumn(columns[i])
    && forall j :: 0 <= j < i ==> !IsGeometryColumn(columns[j])
  }

  /** A table has at most one first GEOMETRY column. */
  lemma FirstGeometryUnique(columns: seq<ColumnSpec>, i: int)
    requires FirstGeometryAt(columns, i)
    ensures forall j :: FirstGeometryAt(columns, j) ==> j == i
  {
  }

  /** `addGeometryColumn`: registers the first GEOMETRY column of the table;
      nothing when it has none, or when that column's name is empty (the
      column name doubles as the "not found" marker). */
  function AddGeometryColumn(spec: TableSpec): (r: Option<Statement>)
    ensures r.None? <==>
      || (forall i :: 0 <= i < |spec.columns| ==> !IsGeometryColumn(spec.columns[i]))
      || (exists i :: FirstGeometryAt(spec.columns, i) && spec.columns[i].name == "")
    ensures r.Some? <==> exists i :: FirstGeometryAt(spec.columns, i) && spec.columns[i].name != ""
    ensures r.Some? ==> r.value.Query?
    ensures r.Some? ==> exists i :: (
      && FirstGeometryAt(spec.columns, i) && spec.columns[i].name != ""
      && r.value.sql == AddGeometryColumnSQL(spec.schema, spec.fullName, spec.columns[i].name, spec.srid, GeometryTypeArg(spec.geometryType)))
  {
    match FirstIndex(spec.columns, IsGeometryColumn)
    case None => None
    case Some(i) =>
      assert FirstGeometryAt(spec.columns, i);
      FirstGeometryUnique(spec.columns, i);
      if spec.columns[i].name == "" then None
      else Some(Query(AddGeometryColumnSQL(spec.schema, spec.fullName, spec.columns[i].name, spec.srid, GeometryTypeArg(spec.geometryType))))
  }

  /** The registration names the first GEOMETRY column, once it is known. */
  lemma AddGeometryColumnOf(spec: TableSpec, i: int)
    requires FirstGeometryAt(spec.columns, i) && spec.columns[i].name != ""
    ensures AddGeometryColumn(spec)
         == Some(Query(AddGeometryColumnSQL(spec.schema, spec.fullName, spec.columns[i].name, spec.srid, GeometryTypeArg(spec.geometryType))))
  {
    FirstGeometryUnique(spec.columns, i);
  }

  /** `createTable`: drop, create, then register the geometry column. */
  function CreateTable(spec: TableSpec): (r: seq<Statement>)
    ensures 2 <= |r| <= 3
    ensures r[0] == DropTableIfExists(spec.schema, spec.fullName)
    ensures r[1] == Exec(CreateTableSQL(spec))
    ensures |r| == 3 <==> AddGeometryColumn(spec).Some?
    ensures |r| == 3 ==> r[2] == AddGeometryColumn(spec).value
  {
    TwoThenOptional(DropTableIfExists(spec.schema, spec.fullName), Exec(CreateTableSQL(spec)), AddGeometryColumn(spec))
  }

  /** `createTable` issues its third statement, a registration query,
      exactly when the table's first GEOMETRY column has a non-empty name:
      nothing after the drop drops anything. */
  lemma CreateTableRegisters(spec: TableSpec)
    ensures var r := CreateTable(spec);
      && (|r| == 3 <==> exists i :: FirstGeometryAt(spec.columns, i) && spec.columns[i].name != "")
      && (|r| == 3 ==> r[2].Query?)
  {
  }

  /** Only the first statement of `createTable` drops a table. */
  lemma CreateTableDropsFirst(spec: TableSpec)
    ensures var r := CreateTable(spec); forall k :: 1 <= k < |r| ==> !r[k].DropTableIfExists?
  {
    OnlyHeadDrops(CreateTable(spec), DropTableIfExists(spec.schema, spec.fullName), Exec(CreateTableSQL(spec)), AddGeometryColumn(spec));
  }

  /** A drop, a statement that is no drop and an optional query: only the
      first of them drops a table. */
  lemma OnlyHeadDrops(r: seq<Statement>, drop: Statement, create: Statement, register: Option<Statement>)
    requires r == TwoThenOptional(drop, create, register)
    requires !create.DropTableIfExists? && (register.Some? ==> register.value.Query?)
    ensures forall k :: 1 <= k < |r| ==> !r[k].DropTableIfExists?
  {
  }

  /** The geometry column registered by `createTable` is the table's first
      GEOMETRY column, under the table's full name, with the widened type. */
  lemma CreateTableRegistersFirstGeometry(spec: TableSpec, i: nat)
    requires FirstGeometryAt(spec.columns, i) && spec.columns[i].name != ""
    requires '\'' !in spec.schema && '\'' !in spec.fullName && '\'' !in spec.columns[i].name && '\'' !in spec.geometryType
    requires Int64Min <= spec.srid <= Int64Max
    ensures var r := CreateTable(spec);
      && |r| == 3 && r[2].Query?
      && ParseAddGeometryColumn(r[2].sql) == Some(GeometryColumnArgs(spec.schema, spec.fullName, spec.columns[i].name,
                                                                     IntToString(spec.srid), GeometryTypeArg(spec.geometryType)))
  {
    AddGeometryColumnOf(spec, i);
    var t := GeometryTypeArg(spec.geometryType);
    AddGeometryColumnRoundTrip(spec.schema, spec.fullName, spec.columns[i].name, spec.srid, t);
  }

  /** The tables of `Init`, in visiting order. */
  function CreateTables(tables: Tables, order: seq<string>): (r: seq<Statement>)
    requires forall i :: 0 <= i < |order| ==> order[i] in tables
    ensures forall s, n :: DropTableIfExists(s, n) in r <==>
      exists i :: 0 <= i < |order| && tables[order[i]].schema == s && tables[order[i]].fullName == n
    ensures forall i :: 0 <= i < |order| ==> Exec(CreateTableSQL(tables[order[i]])) in r
  {
    if |order| == 0 then []
    else
      var first := CreateTable(tables[order[0]]);
      var rest := CreateTables(tables, order[1..]);
      CreateTablesStep(tables, order, first, rest);
      first + rest
  }

  /** The `createTable` statements of every visited table, in visiting
      order. */
  function TableBlocks(tables: Tables, order: seq<string>): (blocks: seq<seq<Statement>>)
    requires forall k :: 0 <= k < |order| ==> order[k] in tables
    ensures |blocks| == |order|
    ensures forall i :: 0 <= i < |order| ==> blocks[i] == CreateTable(tables[order[i]])
  {
    seq(|order|, i requires 0 <= i < |order| => CreateTable(tables[order[i]]))
  }

  /** `CreateTables` emits the `createTable` statements of every visited
      table as one contiguous block, the blocks in visiting order, and
      nothing else. */
  lemma {:induction false} CreateTablesFlatten(tables: Tables, order: seq<string>)
    requires forall k :: 0 <= k < |order| ==> order[k] in tables
    ensures CreateTables(tables, order) == Flatten(TableBlocks(tables, order))
  {
    if |order| > 0 {
      CreateTablesFlatten(tables, order[1..]);
      assert TableBlocks(tables, order)[1..] == TableBlocks(tables, order[1..]);
    }
  }

  lemma CreateTablesStep(tables: Tables, order: seq<string>, first: seq<Statement>, rest: seq<Statement>)
    requires |order| > 0 && forall i :: 0 <= i < |order| ==> order[i] in tables
    requires first == CreateTable(tables[order[0]])
    requires forall s, n :: DropTableIfExists(s, n) in rest <==>
      exists i :: 0 <= i < |order| - 1 && tables[order[1..][i]].schema == s && tables[order[1..][i]].fullName == n
    requires forall i :: 0 <= i < |order| - 1 ==> Exec(CreateTableSQL(tables[order[1..][i]])) in rest
    ensures forall s, n :: DropTableIfExists(s, n) in first + rest <==>
      exists i :: 0 <= i < |order| && tables[order[i]].schema == s && tables[order[i]].fullName == n
    ensures forall i :: 0 <= i < |order| ==> Exec(CreateTableSQL(tables[order[i]])) in first + rest
  {
    forall s, n ensures DropTableIfExists(s, n) in first + rest <==>
      exists i :: 0 <= i < |order| && tables[order[i]].schema == s && tables[order[i]].fullName == n
    {
      CreateTablesDropStep(tables, order, first, rest, s, n);
    }
    forall i | 0 <= i < |order| ensures Exec(CreateTableSQL(tables[order[i]])) in first + rest {
      if i == 0 {
        assert (first + rest)[1] == Exec(CreateTableSQL(tables[order[0]]));
      } else {
        assert order[1..][i - 1] == order[i];
      }
    }
  }

  lemma CreateTablesDropStep(tables: Tables, order: seq<string>, first: seq<Statement>, rest: seq<Statement>, s: string, n: string)
    requires |order| > 0 && forall i :: 0 <= i < |order| ==> order[i] in tables
    requires first == CreateTable(tables[order[0]])
    requires DropTableIfExists(s, n) in rest <==>
      exists i :: 0 <= i < |order| - 1 && tables[order[1..][i]].schema == s && tables[order[1..][i]].fullName == n
    ensures DropTableIfExists(s, n) in first + rest <==>
      exists i :: 0 <= i < |order| && tables[order[i]].schema == s && tables[order[i]].fullName == n
  {
    DropStepFound(tables, order, first, rest, s, n);
    DropStepPlaced(tables, order, first, rest, s, n);
  }

  lemma DropStepFound(tables: Tables, order: seq<string>, first: seq<Statement>, rest: seq<Statement>, s: string, n: string)
    requires |order| > 0 && forall i :: 0 <= i < |order| ==> order[i] in tables
    requires first == CreateTable(tables[order[0]])
    requires DropTableIfExists(s, n) in rest ==>
      exists i :: 0 <= i < |order| - 1 && tables[order[1..][i]].schema == s && tables[order[1..][i]].fullName == n
    ensures DropTableIfExists(s, n) in first + rest ==>
      exists i :: 0 <= i < |order| && tables[order[i]].schema == s && tables[order[i]].fullName == n
  {
    var d := DropTableIfExists(s, n);
    if d in first {
      CreateTableDropsFirst(tables[order[0]]);
      assert d == first[0];
      assert tables[order[0]].schema == s && tables[order[0]].fullName == n;
    } else if d in rest {
      var i :| 0 <= i < |order| - 1 && tables[order[1..][i]].schema == s && tables[order[1..][i]].fullName == n;
      assert order[1..][i] == order[i + 1];
    }
  }

  lemma DropStepPlaced(tables: Tables, order: seq<string>, first: seq<Statement>, rest: seq<Statement>, s: string, n: string)
    requires |order| > 0 && forall i :: 0 <= i < |order| ==> order[i] in tables
    requires first == CreateTable(tables[order[0]])
    requires (exists i :: 0 <= i < |order| - 1 && tables[order[1..][i]].schema == s && tables[order[1..][i]].fullName == n)
      ==> DropTableIfExists(s, n) in rest
    ensures (exists i :: 0 <= i < |order| && tables[order[i]].schema == s && tables[order[i]].fullName == n)
      ==> DropTableIfExists(s, n) in first + rest
  {
    var d := DropTableIfExists(s, n);
    if exists i :: 0 <= i < |order| && tables[order[i]].schema == s && tables[order[i]].fullName == n {
      var i :| 0 <= i < |order| && tables[order[i]].schema == s && tables[order[i]].fullName == n;
      if i == 0 {
        assert (first + rest)[0] == d;
      } else {
        assert order[1..][i - 1] == order[i];
        assert d in rest;
      }
    }
  }

  /** `Init`: the import schema, then every table. */
  function Init(schema: string, found: bool, tables: Tables, order: seq<string>): (r: seq<Statement>)
    requires Enumerates(order, tables.Keys)
    ensures CreateSchema(schema, found) <= r
    ensures forall t :: t in tables ==> DropTableIfExists(tables[t].schema, tables[t].fullName) in r
    ensures forall t :: t in tables ==> Exec(CreateTableSQL(tables[t])) in r
  {
    var head := CreateSchema(schema, found);
    var rest := CreateTables(tables, order);
    InitMembers(tables, order, head, rest);
    head + rest
  }

  lemma InitMembers(tables: Tables, order: seq<string>, head: seq<Statement>, rest: seq<Statement>)
    requires Enumerates(order, tables.Keys)
    requires forall s, n ::
      (exists i :: 0 <= i < |order| && tables[order[i]].schema == s && tables[order[i]].fullName == n) ==> DropTableIfExists(s, n) in rest
    requires forall i :: 0 <= i < |order| ==> Exec(CreateTableSQL(tables[order[i]])) in rest
    ensures forall t :: t in tables ==> DropTableIfExists(tables[t].schema, tables[t].fullName) in head + rest
    ensures forall t :: t in tables ==> Exec(CreateTableSQL(tables[t])) in head + rest
  {
    forall t | t in tables
      ensures DropTableIfExists(tables[t].schema, tables[t].fullName) in head + rest
      ensures Exec(CreateTableSQL(tables[t])) in head + rest
    {
      var i :| 0 <= i < |order| && order[i] == t;
      var s, n := tables[t].schema, tables[t].fullName;
      assert exists j :: 0 <= j < |order| && tables[order[j]].schema == s && tables[order[j]].fullName == n;
      assert Exec(CreateTableSQL(tables[order[i]])) in rest;
    }
  }

  /** `Init` is the schema statements followed by every visited table's
      `createTable` block, in visiting order, and nothing else. */
  lemma InitBlocks(schema: string, found: bool, tables: Tables, order: seq<string>)
    requires Enumerates(order, tables.Keys)
    ensures Init(schema, found, tables, order) == CreateSchema(schema, found) + Flatten(TableBlocks(tables, order))
  {
    var head := CreateSchema(schema, found);
    var r := Init(schema, found, tables, order);
    CreateTablesFlatten(tables, order);
    assert r == head + r[|head|..];
  }

  /** In the output of `Init`, the `i`-th visited table's `createTable`
      statements (its drop, its CREATE and its registration, in that order)
      form one block, with the schema statements and exactly the blocks of
      the tables visited before it in front, and exactly the blocks of those
      visited after it behind. */
  lemma InitTableBlock(schema: string, found: bool, tables: Tables, order: seq<string>, i: int)
    requires Enumerates(order, tables.Keys) && 0 <= i < |order|
    ensures Init(schema, found, tables, order)
         == CreateSchema(schema, found) + Flatten(TableBlocks(tables, order)[..i])
            + CreateTable(tables[order[i]]) + Flatten(TableBlocks(tables, order)[i + 1..])
  {
    InitBlocks(schema, found, tables, order);
    FlattenAround(CreateSchema(schema, found), TableBlocks(tables, order), i, CreateTable(tables[order[i]]));
  }


  // ---------------------------------------------------------------------
  // createIndex

  /** What every index of one table shares: the import schema, the
      configured SRID, the table's full name and whether the H3 extension
      answered the probe. */
  datatype IndexEnv = IndexEnv(schema: string, srid: int, table: string, h3Installed: bool)

  const H3ProbeSQL: string := "SELECT h3_ext_version();"

  /** The SRIDs an H3 index can be computed in. */
  predicate SupportedSrid(srid: int) {
    srid == 4326 || srid == 3857
  }

  const CreateIndexHead: string := "CREATE INDEX "
  const UsingGist: string := " USING GIST ("
  const UsingBtree: string := " USING BTREE ("
  const H3IndexWgs84: string := "(h3_geo_to_h3index("
  const H3IndexWebMercator: string := "(h3_geo_to_h3index(ST_TRANSFORM(ST_SetSRID("

  /** `"<name>" ON "<schema>"."<table>"`. */
  function IndexClause(schema: string, table: string, name: string): string {
    Quote(name) + " ON " + Qualified(schema, table)
  }

  /** `CREATE INDEX "<name>" ON "<schema>"."<table>"`. */
  function IndexOn(schema: string, table: string, name: string): string {
    CreateIndexHead + IndexClause(schema, table, name)
  }

  function GistIndexSQL(env: IndexEnv, column: string): string {
    IndexOn(env.schema, env.table, env.table + "_geom") + UsingGist + Quote(column) + ")"
  }

  function IdIndexSQL(env: IndexEnv, column: string): string {
    IndexOn(env.schema, env.table, env.table + "_" + column + "_idx") + UsingBtree + Quote(column) + ")"
  }

  function H3IndexName(table: string, res: Int8): string {
    table + "_h3_geom_" + IntToString(res)
  }

  /** An H3 cell index at one resolution: directly on WGS 84 geometries,
      after reprojection on Web Mercator ones. */
  function H3IndexSQL(env: IndexEnv, column: string, res: Int8): string
    requires SupportedSrid(env.srid)
  {
    IndexOn(env.schema, env.table, H3IndexName(env.table, res)) + " "
    + if env.srid == 4326 then H3IndexWgs84 + column + ", " + IntToString(res) + "))"
      else H3IndexWebMercator + column + ",3857),4326)," + IntToString(res) + "))"
  }

  predicate IsH3Column(col: ColumnSpec) {
    IsGeometryColumn(col) && col.colType.H3Geometry?
  }

  /** A column `createIndex` can index: anything but an H3 column, which
      needs the extension and a supported SRID. */
  predicate Indexable(env: IndexEnv, col: ColumnSpec) {
    IsH3Column(col) ==> env.h3Installed && SupportedSrid(env.srid)
  }

  /** The geometry indexes a column receives when the H3 variant indexes
      `resolutions`: one GIST index on a plain geometry column, one per
      resolution on an H3 column. */
  predicate GeometryIndexOf(env: IndexEnv, col: ColumnSpec, resolutions: seq<Int8>, sql: string) {
    || (IsGeometryColumn(col) && !IsH3Column(col) && sql == GistIndexSQL(env, col.name))
    || (IsH3Column(col) && SupportedSrid(env.srid) && exists k :: 0 <= k < |resolutions| && sql == H3IndexSQL(env, col.name, resolutions[k]))
  }

  /** Every index a column receives: its geometry indexes, and one BTREE
      index on a column of the `id` field type. */
  predicate IndexOf(env: IndexEnv, col: ColumnSpec, resolutions: seq<Int8>, sql: string) {
    GeometryIndexOf(env, col, resolutions, sql) || (IsIdField(col) && sql == IdIndexSQL(env, col.name))
  }

  /** The error `createIndex` reports for a column it cannot index: the
      extension is missing, or the SRID has no H3 index template. */
  function IndexError(env: IndexEnv, col: ColumnSpec): PgError {
    if env.h3Installed then InvalidSrid(env.srid) else H3ExtensionMissing(env.table, col.name)
  }

  /** Column `i` is the first one that cannot be indexed. */
  predicate FirstUnindexable(env: IndexEnv, cols: seq<ColumnSpec>, i: int) {
    && 0 <= i < |cols| && !Indexable(env, cols[i])
    && forall j :: 0 <= j < i ==> Indexable(env, cols[j])
  }

  /** The statements `createIndex` has issued, the registry after it, and
      the error that ended it, if any. */
  datatype Indexing = Indexing(statements: seq<Statement>, registry: Registry, error: Option<PgError>)

  /** The registry change `createIndex` may make: an empty resolution list
      becomes the default one; a non-empty one is left alone. */
  predicate RegistryStep(before: Registry, after: Registry) {
    && after.types == before.types
    && (after.h3Resolutions == before.h3Resolutions
        || (before.h3Resolutions == [] && after.h3Resolutions == [DefaultH3Resolution]))
  }

  function H3Indexes(env: IndexEnv, column: string, resolutions: seq<Int8>): (r: seq<Statement>)
    requires SupportedSrid(env.srid)
    ensures |r| == |resolutions|
    ensures forall k :: 0 <= k < |r| ==> r[k] == Exec(H3IndexSQL(env, column, resolutions[k]))
  {
    if |resolutions| == 0 then [] else [Exec(H3IndexSQL(env, column, resolutions[0]))] + H3Indexes(env, column, resolutions[1..])
  }

  /** The geometry part of the loop body of `createIndex` for one column. */
  function GeometryIndex(env: IndexEnv, col: ColumnSpec, reg: Registry): (r: Indexing)
    requires IsGeometryColumn(col)
    ensures RegistryStep(reg, r.registry)
    ensures IsH3Column(col) && env.h3Installed ==> r.registry.h3Resolutions != []
    ensures !IsH3Column(col) ==> r.registry == reg
    ensures r.error.None? <==> Indexable(env, col)
    ensures r.error.Some? ==> r.error == Some(IndexError(env, col))
    ensures r.error.None? ==> forall s :: Exec(s) in r.statements <==> GeometryIndexOf(env, col, r.registry.h3Resolutions, s)
  {
    if !IsH3Column(col) then Indexing([Exec(GistIndexSQL(env, col.name))], reg, None)
    else if !env.h3Installed then Indexing([Query(H3ProbeSQL)], reg, Some(H3ExtensionMissing(env.table, col.name)))
    else
      var reg' := if |reg.h3Resolutions| == 0 then reg.(h3Resolutions := [DefaultH3Resolution]) else reg;
      if !SupportedSrid(env.srid) then Indexing([Query(H3ProbeSQL)], reg', Some(InvalidSrid(env.srid)))
      else
        var indexes := H3Indexes(env, col.name, reg'.h3Resolutions);
        H3IndexesAfterProbe(env, col.name, reg'.h3Resolutions);
        Indexing([Query(H3ProbeSQL)] + indexes, reg', None)
  }

  /** After the probe query, the H3 branch executes exactly one index
      statement per resolution. */
  lemma H3IndexesAfterProbe(env: IndexEnv, column: string, resolutions: seq<Int8>)
    requires SupportedSrid(env.srid)
    ensures forall s :: (Exec(s) in [Query(H3ProbeSQL)] + H3Indexes(env, column, resolutions)
      <==> exists k :: 0 <= k < |resolutions| && s == H3IndexSQL(env, column, resolutions[k]))
  {
    var sqls := seq(|resolutions|, k requires 0 <= k < |resolutions| => H3IndexSQL(env, column, resolutions[k]));
    ExecsAfterProbe(H3Indexes(env, column, resolutions), sqls);
  }

  /** A probe query followed by one `Exec` per statement of `sqls` executes
      exactly `sqls`. */
  lemma ExecsAfterProbe(indexes: seq<Statement>, sqls: seq<string>)
    requires |indexes| == |sqls|
    requires forall k :: 0 <= k < |sqls| ==> indexes[k] == Exec(sqls[k])
    ensures forall s :: Exec(s) in [Query(H3ProbeSQL)] + indexes <==> s in sqls
  {
    var all := [Query(H3ProbeSQL)] + indexes;
    forall s | Exec(s) in all
      ensures s in sqls
    {
      var k :| 0 <= k < |all| && all[k] == Exec(s);
      assert indexes[k - 1] == Exec(s);
    }
    forall k | 0 <= k < |sqls|
      ensures Exec(sqls[k]) in all
    {
      assert all[k + 1] == Exec(sqls[k]);
    }
  }

  /** The loop body of `createIndex` for one column: its geometry indexes,
      then its id index. */
  function IndexColumn(env: IndexEnv, col: ColumnSpec, reg: Registry): (r: Indexing)
    ensures RegistryStep(reg, r.registry)
    ensures IsH3Column(col) && env.h3Installed ==> r.registry.h3Resolutions != []
    ensures !IsH3Column(col) ==> r.registry == reg
    ensures r.error.None? <==> Indexable(env, col)
    ensures r.error.Some? ==> r.error == Some(IndexError(env, col))
    ensures r.error.None? ==> forall s :: Exec(s) in r.statements <==> IndexOf(env, col, r.registry.h3Resolutions, s)
  {
    var geometry := if IsGeometryColumn(col) then GeometryIndex(env, col, reg) else Indexing([], reg, None);
    if geometry.error.Some? || !IsIdField(col) then geometry
    else
      var r := geometry.(statements := geometry.statements + [Exec(IdIndexSQL(env, col.name))]);
      assert forall s :: Exec(s) in r.statements <==> Exec(s) in geometry.statements || s == IdIndexSQL(env, col.name);
      r
  }

  /** `createIndex`: the indexes of every column in order, until the first
      column that cannot be indexed. */
  function CreateIndex(env: IndexEnv, cols: seq<ColumnSpec>, reg: Registry): (r: Indexing)
    ensures r.registry.types == reg.types
    ensures reg.h3Resolutions != [] ==> r.registry.h3Resolutions == reg.h3Resolutions
    ensures r.registry.h3Resolutions == reg.h3Resolutions || r.registry.h3Resolutions == [DefaultH3Resolution]
    ensures (forall i :: 0 <= i < |cols| ==> !IsH3Column(cols[i])) ==> r.registry == reg
    ensures r.error.None? <==> forall i :: 0 <= i < |cols| ==> Indexable(env, cols[i])
    ensures r.error.Some? ==> exists i :: FirstUnindexable(env, cols, i) && r.error == Some(IndexError(env, cols[i]))
    ensures r.error.None? && (exists i :: 0 <= i < |cols| && IsH3Column(cols[i])) ==> r.registry.h3Resolutions != []
    ensures r.error.None? ==> forall s :: Exec(s) in r.statements <==>
      exists i :: 0 <= i < |cols| && IndexOf(env, cols[i], r.registry.h3Resolutions, s)
    decreases |cols|
  {
    if |cols| == 0 then Indexing([], reg, None)
    else
      var first := IndexColumn(env, cols[0], reg);
      if first.error.Some? then
        assert FirstUnindexable(env, cols, 0);
        first
      else
        var rest := CreateIndex(env, cols[1..], first.registry);
        assert forall i :: 1 <= i < |cols| ==> cols[1..][i - 1] == cols[i];
        assert IsH3Column(cols[0]) ==> rest.registry.h3Resolutions == first.registry.h3Resolutions;
        if rest.error.None? then
          CreateIndexStep(env, cols, first, rest);
          Indexing(first.statements + rest.statements, rest.registry, rest.error)
        else
          var i :| FirstUnindexable(env, cols[1..], i) && rest.error == Some(IndexError(env, cols[1..][i]));
          assert FirstUnindexable(env, cols, i + 1);
          Indexing(first.statements + rest.statements, rest.registry, rest.error)
  }

  /** The indexes of the first column and of the others make up the
      indexes of all columns. */
  lemma CreateIndexStep(env: IndexEnv, cols: seq<ColumnSpec>, first: Indexing, rest: Indexing)
    requires |cols| > 0 && first.error.None? && rest.error.None?
    requires forall s :: Exec(s) in first.statements <==> IndexOf(env, cols[0], first.registry.h3Resolutions, s)
    requires IsH3Column(cols[0]) ==> rest.registry.h3Resolutions == first.registry.h3Resolutions
    requires forall s :: Exec(s) in rest.statements <==>
      exists i :: 0 <= i < |cols| - 1 && IndexOf(env, cols[1..][i], rest.registry.h3Resolutions, s)
    ensures forall s :: Exec(s) in first.statements + rest.statements <==>
      exists i :: 0 <= i < |cols| && IndexOf(env, cols[i], rest.registry.h3Resolutions, s)
  {
    forall s ensures Exec(s) in first.statements + rest.statements <==>
      exists i :: 0 <= i < |cols| && IndexOf(env, cols[i], rest.registry.h3Resolutions, s)
    {
      // the first column's indexes do not depend on the registry unless it
      // is an H3 column, and then the registry no longer changes
      assert IndexOf(env, cols[0], first.registry.h3Resolutions, s) <==> IndexOf(env, cols[0], rest.registry.h3Resolutions, s);
      if Exec(s) in rest.statements {
        var i :| 0 <= i < |cols| - 1 && IndexOf(env, cols[1..][i], rest.registry.h3Resolutions, s);
        assert cols[1..][i] == cols[i + 1];
      }
      if exists i :: 0 <= i < |cols| && IndexOf(env, cols[i], rest.registry.h3Resolutions, s) {
        var i :| 0 <= i < |cols| && IndexOf(env, cols[i], rest.registry.h3Resolutions, s);
        if i > 0 {
          assert cols[1..][i - 1] == cols[i];
        }
      }
    }
  }

  // ---------------------------------------------------------------------
  // Finish and Optimize

  /** One table's share of `Finish` and `Optimize`: its full name, and the
      SRID and columns of the table its rows come from. */
  datatype TableJob = TableJob(table: string, srid: int, columns: seq<ColumnSpec>)

  /** The jobs of `Finish` and `Optimize`: every base table, then every
      generalized table, which is indexed and clustered on the columns and
      SRID of its root source table. */
  function Jobs(tables: Tables, gens: Generalized, tableOrder: seq<string>, genOrder: seq<string>): (jobs: seq<TableJob>)
    requires forall i :: 0 <= i < |tableOrder| ==> tableOrder[i] in tables
    requires forall i :: 0 <= i < |genOrder| ==> (genOrder[i] in gens
      && gens[genOrder[i]].source.Some? && gens[genOrder[i]].source.value in tables)
    ensures |jobs| == |tableOrder| + |genOrder|
    ensures forall i :: 0 <= i < |tableOrder| ==> var t := tables[tableOrder[i]];
      jobs[i] == TableJob(t.fullName, t.srid, t.columns)
    ensures forall i :: 0 <= i < |genOrder| ==> var g := gens[genOrder[i]];
      jobs[|tableOrder| + i] == TableJob(g.fullName, tables[g.source.value].srid, tables[g.source.value].columns)
  {
    seq(|tableOrder|, i requires 0 <= i < |tableOrder| =>
          TableJob(tables[tableOrder[i]].fullName, tables[tableOrder[i]].srid, tables[tableOrder[i]].columns))
    + seq(|genOrder|, i requires 0 <= i < |genOrder| =>
          var g := gens[genOrder[i]];
          TableJob(g.fullName, tables[g.source.value].srid, tables[g.source.value].columns))
  }

  function JobEnv(schema: string, srid: int, h3Installed: bool, job: TableJob): IndexEnv {
    IndexEnv(schema, srid, job.table, h3Installed)
  }

  /** Every column of a job can be indexed. */
  predicate JobIndexable(schema: string, srid: int, h3Installed: bool, job: TableJob) {
    forall i :: 0 <= i < |job.columns| ==> Indexable(JobEnv(schema, srid, h3Installed, job), job.columns[i])
  }

  /** Job `j` is the first that fails, and `e` is its error: the one for its
      first column that cannot be indexed. */
  predicate FirstFailingJob(schema: string, srid: int, h3Installed: bool, jobs: seq<TableJob>, j: int, e: PgError) {
    && 0 <= j < |jobs|
    && (forall k :: 0 <= k < j ==> JobIndexable(schema, srid, h3Installed, jobs[k]))
    && var env := JobEnv(schema, srid, h3Installed, jobs[j]);
       exists i :: 0 <= i < |jobs[j].columns| && FirstUnindexable(env, jobs[j].columns, i) && e == IndexError(env, jobs[j].columns[i])
  }

  /** `Finish`: the indexes of every job. Every job runs; the error of the
      first failing job is reported. The H3 registry passes from job to
      job. */
  function Finish(schema: string, srid: int, h3Installed: bool, jobs: seq<TableJob>, reg: Registry): (r: Indexing)
    ensures r.registry.types == reg.types
    ensures reg.h3Resolutions != [] ==> r.registry.h3Resolutions == reg.h3Resolutions
    ensures r.registry.h3Resolutions == reg.h3Resolutions || r.registry.h3Resolutions == [DefaultH3Resolution]
    ensures r.error.None? <==> forall j, i :: 0 <= j < |jobs| && 0 <= i < |jobs[j].columns| ==>
      Indexable(JobEnv(schema, srid, h3Installed, jobs[j]), jobs[j].columns[i])
    ensures r.error.Some? ==> exists j :: FirstFailingJob(schema, srid, h3Installed, jobs, j, r.error.value)
    ensures r.error.None? && (exists j, i :: 0 <= j < |jobs| && 0 <= i < |jobs[j].columns| && IsH3Column(jobs[j].columns[i])) ==>
      r.registry.h3Resolutions != []
    ensures r.error.None? ==> forall s :: Exec(s) in r.statements <==>
      exists j, i :: 0 <= j < |jobs| && 0 <= i < |jobs[j].columns|
        && IndexOf(JobEnv(schema, srid, h3Installed, jobs[j]), jobs[j].columns[i], r.registry.h3Resolutions, s)
    decreases |jobs|
  {
    if |jobs| == 0 then Indexing([], reg, None)
    else
      var first := CreateIndex(JobEnv(schema, srid, h3Installed, jobs[0]), jobs[0].columns, reg);
      var rest := Finish(schema, srid, h3Installed, jobs[1..], first.registry);
      assert forall j :: 1 <= j < |jobs| ==> jobs[1..][j - 1] == jobs[j];
      if first.error.None? && rest.error.None? then
        FinishStep(schema, srid, h3Installed, jobs, first, rest);
        Indexing(first.statements + rest.statements, rest.registry, None)
      else if first.error.Some? then
        assert FirstFailingJob(schema, srid, h3Installed, jobs, 0, first.error.value);
        Indexing(first.statements + rest.statements, rest.registry, first.error)
      else
        LaterJobFails(schema, srid, h3Installed, jobs, rest.error.value);
        Indexing(first.statements + rest.statements, rest.registry, rest.error)
  }

  lemma LaterJobFails(schema: string, srid: int, h3Installed: bool, jobs: seq<TableJob>, e: PgError)
    requires |jobs| > 0 && JobIndexable(schema, srid, h3Installed, jobs[0])
    requires exists j :: FirstFailingJob(schema, srid, h3Installed, jobs[1..], j, e)
    ensures exists j :: FirstFailingJob(schema, srid, h3Installed, jobs, j, e)
  {
    var j :| FirstFailingJob(schema, srid, h3Installed, jobs[1..], j, e);
    FailingJobShift(schema, srid, h3Installed, jobs, j, e);
  }

  lemma FailingJobShift(schema: string, srid: int, h3Installed: bool, jobs: seq<TableJob>, j: int, e: PgError)
    requires |jobs| > 0 && JobIndexable(schema, srid, h3Installed, jobs[0])
    requires FirstFailingJob(schema, srid, h3Installed, jobs[1..], j, e)
    ensures FirstFailingJob(schema, srid, h3Installed, jobs, j + 1, e)
  {
    assert jobs[1..][j] == jobs[j + 1];
    forall k | 0 <= k < j + 1 ensures JobIndexable(schema, srid, h3Installed, jobs[k]) {
      if k > 0 {
        assert jobs[1..][k - 1] == jobs[k];
      }
    }
  }

  lemma FinishStep(schema: string, srid: int, h3Installed: bool, jobs: seq<TableJob>, first: Indexing, rest: Indexing)
    requires |jobs| > 0 && first.error.None? && rest.error.None?
    requires forall s :: Exec(s) in first.statements <==>
      exists i :: 0 <= i < |jobs[0].columns| && IndexOf(JobEnv(schema, srid, h3Installed, jobs[0]), jobs[0].columns[i], first.registry.h3Resolutions, s)
    requires (exists i :: 0 <= i < |jobs[0].columns| && IsH3Column(jobs[0].columns[i])) ==> first.registry.h3Resolutions != []
    requires first.registry.h3Resolutions != [] ==> rest.registry.h3Resolutions == first.registry.h3Resolutions
    requires forall s :: Exec(s) in rest.statements <==>
      exists j, i :: 0 <= j < |jobs| - 1 && 0 <= i < |jobs[1..][j].columns|
        && IndexOf(JobEnv(schema, srid, h3Installed, jobs[1..][j]), jobs[1..][j].columns[i], rest.registry.h3Resolutions, s)
    ensures forall s :: Exec(s) in first.statements + rest.statements <==>
      exists j, i :: 0 <= j < |jobs| && 0 <= i < |jobs[j].columns|
        && IndexOf(JobEnv(schema, srid, h3Installed, jobs[j]), jobs[j].columns[i], rest.registry.h3Resolutions, s)
  {
    var env := JobEnv(schema, srid, h3Installed, jobs[0]);
    forall s ensures Exec(s) in first.statements + rest.statements <==>
      exists j, i :: 0 <= j < |jobs| && 0 <= i < |jobs[j].columns|
        && IndexOf(JobEnv(schema, srid, h3Installed, jobs[j]), jobs[j].columns[i], rest.registry.h3Resolutions, s)
    {
      if Exec(s) in first.statements {
        var i :| 0 <= i < |jobs[0].columns| && IndexOf(env, jobs[0].columns[i], first.registry.h3Resolutions, s);
        assert IndexOf(env, jobs[0].columns[i], rest.registry.h3Resolutions, s);
      }
      if Exec(s) in rest.statements {
        var j, i :| 0 <= j < |jobs| - 1 && 0 <= i < |jobs[1..][j].columns|
          && IndexOf(JobEnv(schema, srid, h3Installed, jobs[1..][j]), jobs[1..][j].columns[i], rest.registry.h3Resolutions, s);
        assert jobs[1..][j] == jobs[j + 1];
      }
      if exists j, i :: (0 <= j < |jobs| && 0 <= i < |jobs[j].columns|
        && IndexOf(JobEnv(schema, srid, h3Installed, jobs[j]), jobs[j].columns[i], rest.registry.h3Resolutions, s))
      {
        var j, i :| 0 <= j < |jobs| && 0 <= i < |jobs[j].columns|
          && IndexOf(JobEnv(schema, srid, h3Installed, jobs[j]), jobs[j].columns[i], rest.registry.h3Resolutions, s);
        if j == 0 {
          assert IndexOf(env, jobs[0].columns[i], first.registry.h3Resolutions, s);
        } else {
          assert jobs[1..][j - 1] == jobs[j];
        }
      }
    }
  }

  const GeohashOpen: string := " (ST_GeoHash(ST_Transform(ST_SetSRID(Box2D("

  function GeohashIndexName(table: string): string {
    table + "_geom_geohash"
  }

  function GeohashIndexSQL(schema: string, table: string, column: string, srid: int): string {
    IndexOn(schema, table, GeohashIndexName(table)) + (GeohashOpen + column + "), " + IntToString(srid) + "), 4326)))")
  }

  function ClusterSQL(schema: string, table: string): string {
    "CLUSTER " + IndexClause(schema, table, GeohashIndexName(table))
  }

  function AnalyseSQL(schema: string, table: string): string {
    "ANALYSE " + Qualified(schema, table)
  }

  predicate HasGeometryColumn(job: TableJob) {
    exists i :: 0 <= i < |job.columns| && IsGeometryColumn(job.columns[i])
  }

  /** `clusterTable`: a geohash index on the first GEOMETRY column and a
      CLUSTER on it, then, with or without one, ANALYSE. */
  function ClusterTable(schema: string, job: TableJob): (r: seq<Statement>)
    ensures |r| == if HasGeometryColumn(job) then 3 else 1
    ensures r[|r| - 1] == Exec(AnalyseSQL(schema, job.table))
    ensures |r| == 3 ==> exists i :: (
      && 0 <= i < |job.columns| && IsGeometryColumn(job.columns[i])
      && (forall k :: 0 <= k < i ==> !IsGeometryColumn(job.columns[k]))
      && r[0] == Exec(GeohashIndexSQL(schema, job.table, job.columns[i].name, job.srid)))
    ensures |r| == 3 ==> r[1] == Exec(ClusterSQL(schema, job.table))
  {
    match FirstIndex(job.columns, IsGeometryColumn)
    case None => [Exec(AnalyseSQL(schema, job.table))]
    case Some(i) =>
      [Exec(GeohashIndexSQL(schema, job.table, job.columns[i].name, job.srid)), Exec(ClusterSQL(schema, job.table)),
       Exec(AnalyseSQL(schema, job.table))]
  }

  /** The table is clustered on the index created just before, and both
      name the table in the import schema. */
  lemma ClusterUsesCreatedIndex(schema: string, job: TableJob)
    requires HasGeometryColumn(job)
    ensures var r := ClusterTable(schema, job);
      var index := IndexClause(schema, job.table, GeohashIndexName(job.table));
      && HasPrefix(r[0].sql, CreateIndexHead + index)
      && r[1].sql == "CLUSTER " + index
  {
    var r := ClusterTable(schema, job);
    var i :| 0 <= i < |job.columns| && IsGeometryColumn(job.columns[i])
      && r[0] == Exec(GeohashIndexSQL(schema, job.table, job.columns[i].name, job.srid));
    var head := IndexOn(schema, job.table, GeohashIndexName(job.table));
    var tail := GeohashOpen + job.columns[i].name + "), " + IntToString(job.srid) + "), 4326)))";
    assert (head + tail)[..|head|] == head;
  }

  /** `Optimize`: every job clustered, in order. */
  function Optimize(schema: string, jobs: seq<TableJob>): (r: seq<Statement>)
    ensures |r| == |jobs| + 2 * Count(jobs, HasGeometryColumn)
    ensures forall j :: 0 <= j < |jobs| ==> Exec(AnalyseSQL(schema, jobs[j].table)) in r
  {
    if |jobs| == 0 then []
    else
      var first := ClusterTable(schema, jobs[0]);
      var rest := Optimize(schema, jobs[1..]);
      assert forall j :: 1 <= j < |jobs| ==> jobs[1..][j - 1] == jobs[j];
      assert first[|first| - 1] in first + rest;
      assert forall x :: x in rest ==> x in first + rest;
      first + rest
  }

  /** The clustering statements of each job, one block per job. */
  function ClusterBlocks(schema: string, jobs: seq<TableJob>): (blocks: seq<seq<Statement>>)
    ensures |blocks| == |jobs|
    ensures forall j :: 0 <= j < |jobs| ==> blocks[j] == ClusterTable(schema, jobs[j])
  {
    seq(|jobs|, j requires 0 <= j < |jobs| => ClusterTable(schema, jobs[j]))
  }

  /** `Optimize` issues each job's `clusterTable` statements (its geohash
      index, CLUSTER and ANALYSE) as one whole block, the blocks in job
      order, and nothing else. */
  lemma {:induction false} OptimizeFlatten(schema: string, jobs: seq<TableJob>)
    ensures Optimize(schema, jobs) == Flatten(ClusterBlocks(schema, jobs))
  {
    if |jobs| > 0 {
      OptimizeFlatten(schema, jobs[1..]);
      assert ClusterBlocks(schema, jobs)[1..] == ClusterBlocks(schema, jobs[1..]);
    }
  }
}

=== FILE: generalize.dfy ===
/** Materializing the generalized tables: the statements of one
    `generalizeTable` transaction, and the waves of `Generalize`, which
    materialize a table only once the generalized table it is derived from
    exists. Database execution is a list of statements handed to an
    abstract sink; what the database answers is an input. */
module Generalize {
  import opened Results
  import opened Text
  import opened Seqs
  import opened Spec
  import opened Graph
  import opened Ddl

  // ---------------------------------------------------------------------
  // One generalized table

  const VersionQuery: string := "SELECT PostGIS_lib_version();"

  /** `isPostGIS2`: the version the library reports starts with `2.`. */
  predicate IsPostGIS2(version: string) {
    HasPrefix(version, "2.")
  }

  /** `populateGeometryColumn`: registers the geometry column of a table
      created with `CREATE TABLE ... AS`, done unless the reported version
      starts with `2.` (so also on PostGIS 3 and later). */
  function PopulateGeometryColumnSQL(schema: string, table: string): string {
    "SELECT Populate_Geometry_Columns('" + schema + "." + table + "'::regclass);"
  }

  /** The generalized tables a statement set needs: every table has its root
      base table bound, and its generalized source, if any, exists. */
  predicate Materializable(tables: Tables, gens: Generalized, n: string) {
    && n in gens
    && gens[n].source.Some? && gens[n].source.value in tables
    && (gens[n].sourceGeneralized.Some? ==> gens[n].sourceGeneralized.value in gens)
  }

  /** The table `generalizeTable` reads from: the generalized source when
      there is one, the root base table otherwise. */
  function ReadFrom(tables: Tables, gens: Generalized, n: string): string
    requires Materializable(tables, gens, n)
  {
    match gens[n].sourceGeneralized
    case Some(p) => gens[p].fullName
    case None => tables[gens[n].source.value].fullName
  }

  const CreateTableHead: string := "CREATE TABLE "
  const AsOpen: string := " AS ("

  /** The optional filter of the materialization statement. */
  function CreateFilter(where: string): string {
    if where != "" then WhereKeyword + where else ""
  }

  /** `CREATE TABLE "schema"."full" AS (SELECT <projections> FROM
      "schema"."from"[ WHERE <filter>])`. */
  function CreateAsSQL(schema: string, gen: GeneralizedTableSpec, source: TableSpec, from: string): string {
    (CreateTableHead + Qualified(schema, gen.fullName) + AsOpen)
    + Selection(source, gen)
    + (Qualified(schema, from) + CreateFilter(gen.where) + Close)
  }

  /** The materialization statement creates the generalized table, reads
      through the same projection list as the replay of a single row, and
      ends with the filter exactly when the table has one. */
  lemma CreateAsShape(schema: string, gen: GeneralizedTableSpec, source: TableSpec, from: string)
    ensures var sql := CreateAsSQL(schema, gen, source, from);
      && IsInfix(Selection(source, gen), sql)
      && HasPrefix(sql, CreateTableHead + Qualified(schema, gen.fullName) + AsOpen)
      && (gen.where != "" <==> HasSuffix(sql, WhereKeyword + gen.where + Close))
  {
    var head := CreateTableHead + Qualified(schema, gen.fullName) + AsOpen;
    var select := Selection(source, gen);
    var tail := Qualified(schema, from) + CreateFilter(gen.where) + Close;
    var sql := head + select + tail;
    InfixOfConcat(head, select, tail);
    var suffix := WhereKeyword + gen.where + Close;
    if gen.where != "" {
      assert sql[|sql| - |suffix|..] == suffix;
    } else {
      assert sql[|sql| - 2] == '"';
    }
  }

  /** The materialization statement reads from the given table. */
  lemma CreateAsReadsFrom(schema: string, gen: GeneralizedTableSpec, source: TableSpec, from: string)
    ensures IsInfix(FromKeyword + Qualified(schema, from), CreateAsSQL(schema, gen, source, from))
  {
    var head := CreateTableHead + Qualified(schema, gen.fullName) + AsOpen + (SelectKeyword + SelectList(source, gen));
    var read := FromKeyword + Qualified(schema, from);
    var tail := CreateFilter(gen.where) + Close;
    assert CreateAsSQL(schema, gen, source, from) == head + read + tail;
    InfixOfConcat(head, read, tail);
  }

  /** The statements of one successful `generalizeTable` transaction: drop
      the old table, create the new one from its source, ask for the PostGIS
      version and, unless the reported version starts with `2.` (so also on
      PostGIS 3), register the geometry column under the root base table's
      schema. */
  function GeneralizeTable(schema: string, tables: Tables, gens: Generalized, n: string, version: string)
    : (stmts: seq<Statement>)
    requires Materializable(tables, gens, n)
    ensures |stmts| == (if IsPostGIS2(version) then 3 else 4)
    ensures stmts[0] == DropTableIfExists(schema, gens[n].fullName)
    ensures stmts[1].Exec? && IsInfix(FromKeyword + Qualified(schema, ReadFrom(tables, gens, n)), stmts[1].sql)
    ensures stmts[1].Exec? && IsInfix(Selection(tables[gens[n].source.value], gens[n]), stmts[1].sql)
    ensures HasPrefix(stmts[1].sql, CreateTableHead + Qualified(schema, gens[n].fullName) + AsOpen)
    ensures gens[n].where != "" <==> HasSuffix(stmts[1].sql, WhereKeyword + gens[n].where + Close)
    ensures stmts[2] == Query(VersionQuery)
    ensures !IsPostGIS2(version) ==>
      stmts[3] == Query(PopulateGeometryColumnSQL(tables[gens[n].source.value].schema, gens[n].fullName))
  {
    var gen := gens[n];
    var source := tables[gen.source.value];
    var from := ReadFrom(tables, gens, n);
    CreateAsShape(schema, gen, source, from);
    CreateAsReadsFrom(schema, gen, source, from);
    [DropTableIfExists(schema, gen.fullName), Exec(CreateAsSQL(schema, gen, source, from)), Query(VersionQuery)]
    + (if IsPostGIS2(version) then [] else [Query(PopulateGeometryColumnSQL(source.schema, gen.fullName))])
  }

  /** The replay of a single row reads through the projection list. */
  lemma ReplayProjects(gen: GeneralizedTableSpec, source: TableSpec)
    requires IdColumnName(source.columns).Ok?
    ensures GeneralizedInsertSQL(gen, source).Ok?
    ensures IsInfix(Selection(source, gen), GeneralizedInsertSQL(gen, source).value)
  {
    var select := Selection(source, gen);
    var rest := RowKey(source.schema, source.fullName, IdColumnName(source.columns).value) + IdParam;
    InfixOfConcat("", select, rest);
    assert "" + select + rest == select + RowKey(source.schema, source.fullName, IdColumnName(source.columns).value) + IdParam;
    InfixTransitive(select, "" + select + rest, GeneralizedInsertSQL(gen, source).value);
  }

  /** Materialization and replay of a generalized table project the very
      same list over the root base table's columns; only the table they read
      from differs. */
  lemma SameProjectionAtBothSites(schema: string, tables: Tables, gens: Generalized, n: string, version: string)
    requires Materializable(tables, gens, n)
    requires IdColumnName(tables[gens[n].source.value].columns).Ok?
    ensures var source := tables[gens[n].source.value];
      && GeneralizedInsertSQL(gens[n], source).Ok?
      && IsInfix(Selection(source, gens[n]), GeneralizedInsertSQL(gens[n], source).value)
      && IsInfix(Selection(source, gens[n]), GeneralizeTable(schema, tables, gens, n, version)[1].sql)
  {
    ReplayProjects(gens[n], tables[gens[n].source.value]);
  }

  // ---------------------------------------------------------------------
  // Waves

  /** Each generalized table's generalized source: the part of the tables
      the waves look at. */
  type Parents = map<string, Option<string>>

  function ParentsOf(gens: Generalized): (parents: Parents)
    ensures parents.Keys == gens.Keys
  {
    map n | n in gens :: gens[n].sourceGeneralized
  }

  /** The first wave: the tables not derived from a generalized table, in
      visiting order. */
  function FirstWave(parents: Parents, order: seq<string>): (wave: seq<string>)
    requires forall i :: 0 <= i < |order| ==> order[i] in parents
    ensures forall x :: x in wave <==> x in order && parents[x].None?
    ensures NoDuplicates(order) ==> NoDuplicates(wave)
  {
    if |order| == 0 then []
    else
      var rest := FirstWave(parents, order[1..]);
      assert NoDuplicates(order) ==> order[0] !in order[1..] && NoDuplicates(order[1..]);
      if parents[order[0]].None? then [order[0]] + rest else rest
  }

  /** A later wave: the tables not created yet whose generalized source was
      created before the wave began, in visiting order. */
  function NextWave(parents: Parents, created: set<string>, order: seq<string>): (wave: seq<string>)
    requires forall i :: 0 <= i < |order| ==> order[i] in parents
    ensures forall x :: x in wave <==> x in order && x !in created && parents[x].Some? && parents[x].value in created
    ensures NoDuplicates(order) ==> NoDuplicates(wave)
  {
    if |order| == 0 then []
    else
      var rest := NextWave(parents, created, order[1..]);
      var n := order[0];
      assert NoDuplicates(order) ==> n !in order[1..] && NoDuplicates(order[1..]);
      if n !in created && parents[n].Some? && parents[n].value in created then [n] + rest else rest
  }

  /** The tables created so far, in the order they were materialized, and
      the error that ended the run, if any. */
  datatype Progress = Progress(created: set<string>, log: seq<string>, error: Option<PgError>)

  /** Runs the tables of one wave, each in its own transaction. A table in
      `failing` rolls back and leaves no trace; the wave still runs the
      others, and the first failure is reported once the wave is over. */
  function RunWave(failing: set<string>, wave: seq<string>, p: Progress): (r: Progress)
    ensures p.log <= r.log
    ensures forall x :: x in r.log[|p.log|..] <==> x in wave && x !in failing
    ensures forall x :: x in r.created <==> x in p.created || (x in wave && x !in failing)
    ensures r.error.None? <==> p.error.None? && forall i :: 0 <= i < |wave| ==> wave[i] !in failing
    ensures p.error.Some? ==> r.error == p.error
    ensures r.error.Some? && p.error.None? ==>
      exists i :: 0 <= i < |wave| && wave[i] in failing && r.error == Some(GeneralizeFailed(wave[i]))
    decreases |wave|
  {
    if |wave| == 0 then p
    else
      var n := wave[0];
      var next := RunOne(failing, n, p);
      var r := RunWave(failing, wave[1..], next);
      assert forall i :: 1 <= i < |wave| ==> wave[1..][i - 1] == wave[i];
      assert n !in failing ==> r.log[|p.log|] == n;
      assert forall x :: x in r.log[|p.log|..] <==> (n !in failing && x == n) || x in r.log[|next.log|..];
      r
  }

  /** Runs one table of a wave: a failing table only records the wave's
      first error, any other is created and logged. */
  function RunOne(failing: set<string>, n: string, p: Progress): Progress {
    if n in failing then p.(error := if p.error.None? then Some(GeneralizeFailed(n)) else p.error)
    else Progress(p.created + {n}, p.log + [n], p.error)
  }

  /** A wave logs its non-failing tables in wave order. */
  lemma {:induction false} RunWaveOrder(failing: set<string>, wave: seq<string>, p: Progress)
    ensures RunWave(failing, wave, p).log == p.log + Filter(wave, x => x !in failing)
    decreases |wave|
  {
    if |wave| > 0 {
      var next := RunOne(failing, wave[0], p);
      RunWaveOrder(failing, wave[1..], next);
      RunWaveUnfold(failing, wave, p);
      FilterUnfold(wave, x => x !in failing);
      var kept := if wave[0] in failing then [] else [wave[0]];
      AppendThen(p.log, kept, next.log, Filter(wave[1..], x => x !in failing),
                 Filter(wave, x => x !in failing), RunWave(failing, wave, p).log);
    }
  }

  /** A wave runs its first table, then the rest of the wave. */
  lemma RunWaveUnfold(failing: set<string>, wave: seq<string>, p: Progress)
    requires |wave| > 0
    ensures RunWave(failing, wave, p).log == RunWave(failing, wave[1..], RunOne(failing, wave[0], p)).log
  {
  }

  /** The materialization log records each created table once, after its
      generalized source. */
  ghost predicate Consistent(parents: Parents, p: Progress) {
    && NoDuplicates(p.log)
    && (forall x :: x in p.created <==> x in p.log)
    && ParentsEarlier(parents, p.log)
  }

  /** Every logged table is known, and its generalized source is logged
      before it. */
  ghost predicate ParentsEarlier(parents: Parents, log: seq<string>) {
    forall i :: 0 <= i < |log| ==>
      log[i] in parents && (parents[log[i]].Some? ==> parents[log[i]].value in log[..i])
  }

  /** Creating one more table, not created yet and whose generalized source
      was, keeps the log consistent. */
  lemma StepConsistent(parents: Parents, p: Progress, n: string, error: Option<PgError>)
    requires Consistent(parents, p) && n in parents && n !in p.created
    requires parents[n].Some? ==> parents[n].value in p.created
    ensures Consistent(parents, Progress(p.created + {n}, p.log + [n], error))
  {
    assert n !in p.log;
    AppendFreshNoDuplicates(p.log, n);
    StepParentsEarlier(parents, p.log, n);
  }

  /** Logging a known table whose generalized source is already logged keeps
      every source before its table. */
  lemma StepParentsEarlier(parents: Parents, log: seq<string>, n: string)
    requires ParentsEarlier(parents, log) && n in parents
    requires parents[n].Some? ==> parents[n].value in log
    ensures ParentsEarlier(parents, log + [n])
  {
    var next := log + [n];
    forall i | 0 <= i < |next|
      ensures next[i] in parents && (parents[next[i]].Some? ==> parents[next[i]].value in next[..i])
    {
      if i < |log| {
        assert next[i] == log[i] && next[..i] == log[..i];
      } else {
        assert next[i] == n && next[..i] == log;
      }
    }
  }

  /** A wave of tables not created yet, each of whose generalized source was
      created before, keeps the log consistent. */
  lemma {:induction false} WaveConsistent(parents: Parents, failing: set<string>, wave: seq<string>, p: Progress)
    requires Consistent(parents, p) && NoDuplicates(wave)
    requires forall i :: 0 <= i < |wave| ==> wave[i] in parents && wave[i] !in p.created
    requires forall i :: 0 <= i < |wave| ==> parents[wave[i]].Some? ==> parents[wave[i]].value in p.created
    ensures Consistent(parents, RunWave(failing, wave, p))
    decreases |wave|
  {
    if |wave| > 0 {
      var n := wave[0];
      var next := RunOne(failing, n, p);
      assert RunWave(failing, wave, p) == RunWave(failing, wave[1..], next);
      if n !in failing {
        StepConsistent(parents, p, n, p.error);
      }
      assert forall i :: 0 <= i < |wave| - 1 ==> wave[1..][i] == wave[i + 1] && wave[i + 1] != n;
      WaveConsistent(parents, failing, wave[1..], next);
    }
  }

  /** Every table not derived from a generalized table is created. */
  predicate FirstWaveDone(parents: Parents, created: set<string>) {
    forall n :: n in parents && parents[n].None? ==> n in created
  }

  /** No table is left whose generalized source exists: the state in which
      a wave creates nothing. */
  predicate Closed(parents: Parents, created: set<string>) {
    forall n :: n in parents && n !in created ==> parents[n].Some? && parents[n].value !in created
  }

  /** The later waves of `Generalize`: wave k visits the tables in
      `orders[k]`. The loop ends after a wave that failed or created
      nothing. */
  function Waves(parents: Parents, failing: set<string>, p: Progress, orders: seq<seq<string>>): Progress
    requires forall k :: 0 <= k < |orders| ==> Visits(orders[k], parents.Keys)
    decreases |orders|
  {
    if |orders| == 0 then p
    else
      assert Visits(orders[0], parents.Keys);
      var q := RunWave(failing, NextWave(parents, p.created, orders[0]), p);
      assert forall k :: 1 <= k < |orders| ==> orders[1..][k - 1] == orders[k];
      if q.error.Some? || q.created == p.created then q
      else Waves(parents, failing, q, orders[1..])
  }

  lemma {:induction false} SubsetCard(a: set<string>, b: set<string>)
    requires a <= b
    ensures |a| <= |b|
    decreases |a|
  {
    if a != {} {
      var y :| y in a;
      SubsetCard(a - {y}, b - {y});
    }
  }

  /** One more table created leaves fewer to create. */
  lemma FewerLeft(keys: set<string>, before: set<string>, after: set<string>, x: string)
    requires before <= after && after <= keys && x in after && x !in before
    ensures |keys - after| < |keys - before|
  {
    SubsetCard(keys - after, (keys - before) - {x});
  }

  /** The first wave keeps the log consistent, and creates every table not
      derived from a generalized table unless one of them fails. */
  lemma FirstWaveOutcome(parents: Parents, failing: set<string>, order: seq<string>)
    requires Enumerates(order, parents.Keys)
    ensures var p := RunWave(failing, FirstWave(parents, order), Progress({}, [], None));
      && Consistent(parents, p) && p.created <= parents.Keys
      && (p.error.None? ==> FirstWaveDone(parents, p.created))
      && (p.error.Some? ==> exists n :: n in failing && n in parents && p.error == Some(GeneralizeFailed(n)))
  {
    var wave := FirstWave(parents, order);
    forall i | 0 <= i < |wave| ensures wave[i] in order && wave[i] in parents {
      assert wave[i] in wave;
    }
    WaveConsistent(parents, failing, wave, Progress({}, [], None));
    FirstWaveRoots(parents, failing, order);
    FirstWaveFailure(parents, failing, order);
  }

  /** A first wave without failure creates every table not derived from a
      generalized table. */
  lemma FirstWaveRoots(parents: Parents, failing: set<string>, order: seq<string>)
    requires Enumerates(order, parents.Keys)
    ensures var p := RunWave(failing, FirstWave(parents, order), Progress({}, [], None));
      p.error.None? ==> FirstWaveDone(parents, p.created)
  {
    var wave := FirstWave(parents, order);
    var p := RunWave(failing, wave, Progress({}, [], None));
    if p.error.None? {
      forall n | n in parents && parents[n].None? ensures n in p.created {
        assert n in order;
        assert n in wave;
      }
    }
  }

  /** A failing first wave names a failing table. */
  lemma FirstWaveFailure(parents: Parents, failing: set<string>, order: seq<string>)
    requires Enumerates(order, parents.Keys)
    ensures var p := RunWave(failing, FirstWave(parents, order), Progress({}, [], None));
      p.error.Some? ==> exists n :: n in failing && n in parents && p.error == Some(GeneralizeFailed(n))
  {
    var wave := FirstWave(parents, order);
    var p := RunWave(failing, wave, Progress({}, [], None));
    if p.error.Some? {
      var i :| 0 <= i < |wave| && wave[i] in failing && p.error == Some(GeneralizeFailed(wave[i]));
      assert wave[i] in order;
    }
  }

  /** A later wave keeps the log consistent and only adds tables; a wave
      that neither fails nor creates anything leaves the tables closed. */
  lemma WaveOutcome(parents: Parents, failing: set<string>, p: Progress, order: seq<string>, q: Progress)
    requires Consistent(parents, p) && p.created <= parents.Keys && Enumerates(order, parents.Keys)
    requires FirstWaveDone(parents, p.created)
    requires q == RunWave(failing, NextWave(parents, p.created, order), p)
    ensures Consistent(parents, q) && p.created <= q.created <= parents.Keys
    ensures q.error.Some? && p.error.None? ==> exists n :: n in failing && n in parents && q.error == Some(GeneralizeFailed(n))
    ensures q.error.None? && q.created == p.created ==> Closed(parents, q.created)
  {
    var wave := NextWave(parents, p.created, order);
    assert NoDuplicates(order) && forall i :: 0 <= i < |order| ==> order[i] in parents;
    assert forall i :: 0 <= i < |wave| ==>
      (wave[i] in order && wave[i] !in p.created && parents[wave[i]].Some? && parents[wave[i]].value in p.created);
    WaveConsistent(parents, failing, wave, p);
    if q.error.Some? && p.error.None? {
      var i :| 0 <= i < |wave| && wave[i] in failing && q.error == Some(GeneralizeFailed(wave[i]));
    }
    if q.error.None? && q.created == p.created {
      forall n | n in parents && n !in q.created
        ensures parents[n].Some? && parents[n].value !in q.created
      {
      }
    }
  }

  lemma OrdersVisit(orders: seq<seq<string>>, keys: set<string>)
    requires forall k :: 0 <= k < |orders| ==> Enumerates(orders[k], keys)
    ensures forall k :: 0 <= k < |orders| ==> Visits(orders[k], keys)
  {
    forall k | 0 <= k < |orders| ensures Visits(orders[k], keys) {
      assert Enumerates(orders[k], keys);
    }
  }

  lemma EnumeratesTail(orders: seq<seq<string>>, keys: set<string>)
    requires |orders| > 0 && forall k :: 0 <= k < |orders| ==> Enumerates(orders[k], keys)
    ensures forall k :: 0 <= k < |orders| - 1 ==> Enumerates(orders[1..][k], keys)
  {
    assert forall k :: 0 <= k < |orders| - 1 ==> orders[1..][k] == orders[k + 1];
  }

  /** How a run of waves can end: a consistent log of created tables that
      includes the first wave, closed when no error occurred, and otherwise
      an error naming a table whose materialization failed. */
  ghost predicate SettledOutcome(parents: Parents, failing: set<string>, r: Progress) {
    && Consistent(parents, r) && r.created <= parents.Keys && FirstWaveDone(parents, r.created)
    && (r.error.None? ==> Closed(parents, r.created))
    && (r.error.Some? ==> exists n :: n in failing && n in parents && r.error == Some(GeneralizeFailed(n)))
  }

  /** A wave that fails or creates nothing settles the run. */
  lemma WaveStops(parents: Parents, failing: set<string>, p: Progress, q: Progress)
    requires Consistent(parents, q) && p.created <= q.created <= parents.Keys
    requires FirstWaveDone(parents, p.created)
    requires q.error.Some? ==> exists n :: n in failing && n in parents && q.error == Some(GeneralizeFailed(n))
    requires q.error.None? ==> Closed(parents, q.created)
    ensures SettledOutcome(parents, failing, q)
  {
  }

  /** Every later wave keeps the log consistent; a run that ends without an
      error leaves no table whose generalized source exists uncreated, and
      an error names a table whose materialization failed. */
  lemma {:induction false} WavesOutcome(parents: Parents, failing: set<string>, p: Progress, orders: seq<seq<string>>)
    requires Consistent(parents, p) && p.error.None? && p.created <= parents.Keys
    requires FirstWaveDone(parents, p.created)
    requires forall k :: 0 <= k < |orders| ==> Enumerates(orders[k], parents.Keys)
    requires |orders| > |parents.Keys - p.created|
    ensures forall k :: 0 <= k < |orders| ==> Visits(orders[k], parents.Keys)
    ensures SettledOutcome(parents, failing, Waves(parents, failing, p, orders))
    decreases |orders|
  {
    OrdersVisit(orders, parents.Keys);
    var order := orders[0];
    var q := RunWave(failing, NextWave(parents, p.created, order), p);
    WaveOutcome(parents, failing, p, order, q);
    if q.error.Some? || q.created == p.created {
      WavesStop(parents, failing, p, orders, q);
      WaveStops(parents, failing, p, q);
    } else {
      WavesGoOn(parents, failing, p, orders, q);
      WavesOutcome(parents, failing, q, orders[1..]);
    }
  }

  /** The run ends with the wave that failed or created nothing. */
  lemma WavesStop(parents: Parents, failing: set<string>, p: Progress, orders: seq<seq<string>>, q: Progress)
    requires |orders| > 0 && forall k :: 0 <= k < |orders| ==> Visits(orders[k], parents.Keys)
    requires forall i :: 0 <= i < |orders[0]| ==> orders[0][i] in parents
    requires q == RunWave(failing, NextWave(parents, p.created, orders[0]), p)
    requires q.error.Some? || q.created == p.created
    ensures Waves(parents, failing, p, orders) == q
  {
  }

  /** A wave that created a table without failing hands over to the next,
      with fewer tables left to create. */
  lemma WavesGoOn(parents: Parents, failing: set<string>, p: Progress, orders: seq<seq<string>>, q: Progress)
    requires |orders| > 0 && forall k :: 0 <= k < |orders| ==> Enumerates(orders[k], parents.Keys)
    requires forall k :: 0 <= k < |orders| ==> Visits(orders[k], parents.Keys)
    requires |orders| > |parents.Keys - p.created|
    requires forall i :: 0 <= i < |orders[0]| ==> orders[0][i] in parents
    requires q == RunWave(failing, NextWave(parents, p.created, orders[0]), p)
    requires p.created <= q.created <= parents.Keys
    requires q.error.None? && q.created != p.created
    ensures forall k :: 0 <= k < |orders| - 1 ==> Enumerates(orders[1..][k], parents.Keys)
    ensures |orders[1..]| > |parents.Keys - q.created|
    ensures Waves(parents, failing, p, orders) == Waves(parents, failing, q, orders[1..])
  {
    var x :| x in q.created && x !in p.created;
    FewerLeft(parents.Keys, p.created, q.created, x);
    EnumeratesTail(orders, parents.Keys);
  }

  /** `Generalize`: the first wave materializes the tables not derived from
      a generalized table, the later waves those whose generalized source
      was created in an earlier wave, until a wave creates nothing. Wave k
      visits the tables in `orders[k]`; a wave is dispatched against the
      tables created before it began. */
  function Generalize(parents: Parents, failing: set<string>, orders: seq<seq<string>>): (r: Progress)
    requires |orders| > |parents| + 1 && forall k :: 0 <= k < |orders| ==> Enumerates(orders[k], parents.Keys)
    ensures Consistent(parents, r)
    ensures r.error.None? ==> FirstWaveDone(parents, r.created) && Closed(parents, r.created)
    ensures r.error.Some? ==> exists n :: n in failing && n in parents && r.error == Some(GeneralizeFailed(n))
  {
    FirstWaveOutcome(parents, failing, orders[0]);
    var p := RunWave(failing, FirstWave(parents, orders[0]), Progress({}, [], None));
    if p.error.Some? then p
    else
      assert forall k :: 1 <= k < |orders| ==> orders[1..][k - 1] == orders[k];
      SubsetCard(parents.Keys - p.created, parents.Keys);
      WavesOutcome(parents, failing, p, orders[1..]);
      Waves(parents, failing, p, orders[1..])
  }

  // ---------------------------------------------------------------------
  // Which tables get created

  /** `n` descends, through at most `fuel` generalized sources, from a table
      not derived from a generalized table: its chain of generalized sources
      is not a cycle and reaches no missing table. */
  predicate Descends(parents: Parents, n: string, fuel: nat)
    decreases fuel
  {
    n in parents && (parents[n].None? || (fuel > 0 && Descends(parents, parents[n].value, fuel - 1)))
  }

  lemma {:induction false} DescendsFuel(parents: Parents, n: string, f: nat, f': nat)
    requires f <= f' && Descends(parents, n, f)
    ensures Descends(parents, n, f')
    decreases f
  {
    if parents[n].Some? {
      DescendsFuel(parents, parents[n].value, f - 1, f' - 1);
    }
  }

  /** Once the first wave is done and the tables are closed, every table
      that descends from the first wave is created. */
  lemma {:induction false} ClosedCreatesDescendants(parents: Parents, created: set<string>, n: string, fuel: nat)
    requires FirstWaveDone(parents, created) && Closed(parents, created)
    requires Descends(parents, n, fuel)
    ensures n in created
    decreases fuel
  {
    if parents[n].Some? {
      ClosedCreatesDescendants(parents, created, parents[n].value, fuel - 1);
    }
  }

  /** Every logged table descends from the first wave within its position
      in the log. */
  lemma {:induction false} LoggedDescends(parents: Parents, log: seq<string>, i: nat)
    requires ParentsEarlier(parents, log) && i < |log|
    ensures Descends(parents, log[i], i)
    decreases i
  {
    var n := log[i];
    assert n in parents;
    if parents[n].Some? {
      var j := EarlierParent(parents, log, i);
      LoggedDescends(parents, log, j);
      DescendsFuel(parents, log[j], j, i - 1);
      DescendsStep(parents, n, i);
    }
  }

  /** A table whose generalized source descends within one step less
      descends itself. */
  lemma DescendsStep(parents: Parents, n: string, fuel: nat)
    requires n in parents && parents[n].Some? && fuel > 0
    requires Descends(parents, parents[n].value, fuel - 1)
    ensures Descends(parents, n, fuel)
  {
  }

  /** A logged table's generalized source is logged before it. */
  lemma EarlierParent(parents: Parents, log: seq<string>, i: nat) returns (j: nat)
    requires ParentsEarlier(parents, log) && i < |log|
    requires log[i] in parents && parents[log[i]].Some?
    ensures j < i && log[j] == parents[log[i]].value
  {
    var prefix := log[..i];
    assert parents[log[i]].value in prefix;
    j :| 0 <= j < i && prefix[j] == parents[log[i]].value;
  }

  /** A consistent log holds each table at most once, so it is no longer
      than the number of tables. */
  lemma LogBound(parents: Parents, p: Progress)
    requires Consistent(parents, p)
    ensures |p.log| <= |parents|
  {
    var logged := set i | 0 <= i < |p.log| :: p.log[i];
    assert logged <= parents.Keys;
    SubsetCard(logged, parents.Keys);
    DistinctCard(p.log);
  }

  lemma {:induction false} DistinctCard(s: seq<string>)
    requires NoDuplicates(s)
    ensures |set i | 0 <= i < |s| :: s[i]| == |s|
    decreases |s|
  {
    if |s| > 0 {
      var tail := s[..|s| - 1];
      assert NoDuplicates(tail);
      DistinctCard(tail);
      assert (set i | 0 <= i < |s| :: s[i]) == (set i | 0 <= i < |tail| :: tail[i]) + {s[|s| - 1]};
    }
  }

  /** A run of `Generalize` that ends without error has created exactly the
      tables whose chain of generalized sources reaches a table not derived
      from a generalized table; a table on a cycle is never created, and
      the run still reports success. */
  lemma GeneralizeCreatesDescendants(parents: Parents, failing: set<string>, orders: seq<seq<string>>, n: string)
    requires |orders| > |parents| + 1 && forall k :: 0 <= k < |orders| ==> Enumerates(orders[k], parents.Keys)
    requires Generalize(parents, failing, orders).error.None?
    ensures n in Generalize(parents, failing, orders).created <==> Descends(parents, n, |parents|)
  {
    var r := Generalize(parents, failing, orders);
    if n in r.created {
      var i :| 0 <= i < |r.log| && r.log[i] == n;
      LoggedDescends(parents, r.log, i);
      LogBound(parents, r);
      DescendsFuel(parents, n, i, |parents|);
    }
    if Descends(parents, n, |parents|) {
      ClosedCreatesDescendants(parents, r.created, n, |parents|);
    }
  }
}

=== FILE: graph.dfy ===
/** The dependency graph between generalized tables: binding each one's
    source name, resolving the root base table every chain of generalized
    tables ends in, and the reverse `generalizations` lists. Tables are keyed
    by name, which is how the backend's maps key them; a Go pointer to a
    table becomes that table's name. */
module Graph {
  import opened Results
  import opened Seqs
  import opened Spec

  // ---------------------------------------------------------------------
  // Binding source names

  /** The binding of one generalized table whose source name exists: the
      base-table link when there is such a base table (a base table wins
      over a generalized table of the same name), the generalized link
      otherwise. */
  function BindOne(tables: Tables, g: GeneralizedTableSpec): GeneralizedTableSpec {
    if g.sourceName in tables then g.(source := Some(g.sourceName))
    else g.(sourceGeneralized := Some(g.sourceName))
  }

  predicate SourceExists(tables: Tables, gens: Generalized, n: string)
    requires n in gens
  {
    gens[n].sourceName in tables || gens[n].sourceName in gens
  }

  /** `prepareGeneralizedTableSources`, first loop, visiting the tables in
      `order`: a source name that names a base table binds `source`,
      otherwise one that names a generalized table binds
      `sourceGeneralized`. The first table visited whose source names
      neither is an error. */
  function BindSources(tables: Tables, gens: Generalized, order: seq<string>): (r: Result<Generalized, PgError>)
    requires forall i :: 0 <= i < |order| ==> order[i] in gens
    ensures r.Ok? <==> forall i :: 0 <= i < |order| ==> SourceExists(tables, gens, order[i])
    ensures r.Ok? ==> forall n :: n in r.value <==> n in order
    ensures r.Ok? ==> forall n :: n in r.value ==> r.value[n] == BindOne(tables, gens[n])
    ensures r.Err? ==> exists i :: FirstMissingAt(tables, gens, order, i) && r.error == MissingSource(gens[order[i]].sourceName, order[i])
  {
    if |order| == 0 then Ok(map[])
    else if !SourceExists(tables, gens, order[0]) then Err(MissingSource(gens[order[0]].sourceName, order[0]))
    else
      var rest := BindSources(tables, gens, order[1..]);
      if rest.Err? then
        var i :| FirstMissingAt(tables, gens, order[1..], i) && rest.error == MissingSource(gens[order[1..][i]].sourceName, order[1..][i]);
        FirstMissingShift(tables, gens, order, i);
        rest
      else Ok(rest.value[order[0] := BindOne(tables, gens[order[0]])])
  }

  /** `order[i]` is the first visited table whose source name is missing. */
  predicate FirstMissingAt(tables: Tables, gens: Generalized, order: seq<string>, i: int)
    requires forall k :: 0 <= k < |order| ==> order[k] in gens
  {
    && 0 <= i < |order| && !SourceExists(tables, gens, order[i])
    && forall j :: 0 <= j < i ==> SourceExists(tables, gens, order[j])
  }

  lemma FirstMissingShift(tables: Tables, gens: Generalized, order: seq<string>, i: int)
    requires forall k :: 0 <= k < |order| ==> order[k] in gens
    requires |order| > 0 && SourceExists(tables, gens, order[0])
    requires FirstMissingAt(tables, gens, order[1..], i)
    ensures FirstMissingAt(tables, gens, order, i + 1) && order[1..][i] == order[i + 1]
  {
    assert forall j :: 1 <= j < i + 1 ==> order[j] == order[1..][j - 1];
  }

  /** Binding in any order that visits all the tables succeeds exactly when
      every source name exists, and then binds every table. */
  lemma BindAllTables(tables: Tables, gens: Generalized, order: seq<string>)
    requires Visits(order, gens.Keys)
    ensures BindSources(tables, gens, order).Ok? <==> forall n :: n in gens ==> SourceExists(tables, gens, n)
    ensures BindSources(tables, gens, order).Ok? ==> BindSources(tables, gens, order).value.Keys == gens.Keys
  {
  }

  // ---------------------------------------------------------------------
  // Chains of generalized tables

  /** The base-table link of every generalized table (`source`), the part of
      the tables the second loop changes, and every table's source name. */
  type Links = map<string, Option<string>>
  type SourceNames = map<string, string>

  function LinksOf(b: Generalized): (links: Links)
    ensures links.Keys == b.Keys
  {
    map n | n in b :: b[n].source
  }

  function SourceNamesOf(b: Generalized): (names: SourceNames)
    ensures names.Keys == b.Keys
  {
    map n | n in b :: b[n].sourceName
  }

  /** Where a chain of generalized tables ends: how many source-name links
      lead from a table to one with a bound base table, and that base
      table. */
  datatype Chain = Chain(depth: nat, root: string)

  /** Follows source names from `n` through generalized tables without a
      bound base table, for at most `fuel` links. */
  function ChainEnd(names: SourceNames, links: Links, n: string, fuel: nat): (c: Option<Chain>)
    ensures c.Some? ==> n in links && c.value.depth <= fuel
    decreases fuel
  {
    if n !in links || n !in names then None
    else if links[n].Some? then Some(Chain(0, links[n].value))
    else if fuel == 0 then None
    else match ChainEnd(names, links, names[n], fuel - 1)
      case None => None
      case Some(c) => Some(Chain(c.depth + 1, c.root))
  }

  /** Every chain of source names ends at a table with a bound base table:
      no chain runs in a cycle (a chain longer than the number of tables
      repeats a table). */
  predicate Grounded(names: SourceNames, links: Links) {
    && names.Keys == links.Keys
    && forall n {:trigger ChainEnd(names, links, n, |links|)} :: n in links ==> ChainEnd(names, links, n, |links|).Some?
  }

  /** More fuel does not change a chain that already ended. */
  lemma {:induction false} ChainFuel(names: SourceNames, links: Links, n: string, f: nat, f': nat)
    requires f <= f' && ChainEnd(names, links, n, f).Some?
    ensures ChainEnd(names, links, n, f') == ChainEnd(names, links, n, f)
    decreases f
  {
    if links[n].None? {
      ChainFuel(names, links, names[n], f - 1, f' - 1);
    }
  }

  /** A root and a depth for every table that respect every source link:
      a table with a bound base table is its own chain's end, any other one
      shares its source's root and lies one link further. */
  predicate ChainLabels(names: SourceNames, links: Links, root: map<string, string>, depth: map<string, nat>) {
    && names.Keys == links.Keys
    && root.Keys == links.Keys
    && depth.Keys == links.Keys
    && forall n {:trigger links[n]} :: n in links ==>
         if links[n].Some? then root[n] == links[n].value && depth[n] == 0
         else names[n] in links && root[n] == root[names[n]] && depth[n] == depth[names[n]] + 1
  }

  /** The chain ends of grounded links label them, with depths bounded by
      the number of tables. */
  lemma GroundedLabels(names: SourceNames, links: Links)
    requires Grounded(names, links)
    ensures ChainLabels(names, links,
                        map n | n in links :: ChainEnd(names, links, n, |links|).value.root,
                        map n | n in links :: ChainEnd(names, links, n, |links|).value.depth)
    ensures forall n :: n in links ==> ChainEnd(names, links, n, |links|).value.depth <= |links|
  {
    forall n | n in links && links[n].None?
      ensures names[n] in links
      ensures ChainEnd(names, links, n, |links|).value.root == ChainEnd(names, links, names[n], |links|).value.root
      ensures ChainEnd(names, links, n, |links|).value.depth == ChainEnd(names, links, names[n], |links|).value.depth + 1
    {
      ChainFuel(names, links, names[n], |links| - 1, |links|);
    }
  }

  /** Every chain of a generalized table ends at a bound base table. */
  predicate GroundedTables(b: Generalized) {
    Grounded(SourceNamesOf(b), LinksOf(b))
  }

  /** The base table a generalized table ultimately derives from. */
  function Root(b: Generalized, n: string): string
    requires n in b && GroundedTables(b)
  {
    ChainEnd(SourceNamesOf(b), LinksOf(b), n, |b|).value.root
  }

  // ---------------------------------------------------------------------
  // Resolving roots

  /** Every filled-in link is the labelled root. */
  predicate Resolving(root: map<string, string>, links: Links) {
    && links.Keys == root.Keys
    && forall n :: n in links && links[n].Some? ==> links[n] == Some(root[n])
  }

  datatype Pass = Pass(links: Links, filled: bool)

  /** One pass of the second loop, visiting the tables in `order`: a table
      without a base table takes its source's, if that one has it by then;
      `filled` reports whether the pass met a table without one. */
  function ResolvePass(names: SourceNames, links: Links, order: seq<string>): (p: Pass)
    requires links.Keys == names.Keys
    requires forall i :: 0 <= i < |order| ==> order[i] in links
    ensures p.links.Keys == links.Keys
    ensures forall n :: n in links && links[n].Some? ==> p.links[n] == links[n]
    ensures p.filled <==> exists i :: 0 <= i < |order| && links[order[i]].None?
  {
    if |order| == 0 then Pass(links, false)
    else
      var n := order[0];
      var next := if links[n].None? && names[n] in links && links[names[n]].Some? then links[n := links[names[n]]] else links;
      var rest := ResolvePass(names, next, order[1..]);
      assert forall i :: 1 <= i < |order| ==> order[1..][i - 1] == order[i];
      Pass(rest.links, links[n].None? || rest.filled)
  }

  /** A pass keeps every filled-in link correct, and after it every visited
      table at most one link further than the tables already resolved is
      resolved. */
  lemma {:induction false} PassProgress(names: SourceNames, links0: Links, root: map<string, string>,
                                        depth: map<string, nat>, covered: nat, links: Links, order: seq<string>)
    requires ChainLabels(names, links0, root, depth) && Resolving(root, links)
    requires forall i :: 0 <= i < |order| ==> order[i] in links
    requires forall n :: n in links && depth[n] <= covered ==> links[n].Some?
    ensures Resolving(root, ResolvePass(names, links, order).links)
    ensures forall i :: 0 <= i < |order| && depth[order[i]] <= covered + 1 ==>
      ResolvePass(names, links, order).links[order[i]].Some?
    decreases |order|
  {
    if |order| > 0 {
      var n := order[0];
      var next := if links[n].None? && names[n] in links && links[names[n]].Some? then links[n := links[names[n]]] else links;
      assert depth[n] <= covered + 1 ==> next[n].Some?;
      PassProgress(names, links0, root, depth, covered, next, order[1..]);
      forall i | 0 <= i < |order| && depth[order[i]] <= covered + 1
        ensures ResolvePass(names, links, order).links[order[i]].Some?
      {
        if i > 0 {
          assert order[i] == order[1..][i - 1];
        }
      }
    }
  }

  /** The passes of the second loop, the k-th visiting the tables in
      `orders[k]`, until a pass meets no table without a base table. */
  function RepeatPasses(names: SourceNames, links: Links, orders: seq<seq<string>>): (r: Links)
    requires links.Keys == names.Keys
    requires forall k :: 0 <= k < |orders| ==> Visits(orders[k], links.Keys)
    ensures r.Keys == links.Keys
    decreases |orders|
  {
    if |orders| == 0 then links
    else
      assert Visits(orders[0], links.Keys);
      var p := ResolvePass(names, links, orders[0]);
      assert forall k :: 1 <= k < |orders| ==> orders[1..][k - 1] == orders[k];
      if p.filled then RepeatPasses(names, p.links, orders[1..]) else p.links
  }

  /** A pass over all tables resolves every table one link further than
      those already resolved; if it met an unresolved table, some chain was
      longer than what was already covered. */
  lemma PassAdvances(names: SourceNames, links0: Links, root: map<string, string>,
                     depth: map<string, nat>, covered: nat, links: Links, order: seq<string>)
    requires ChainLabels(names, links0, root, depth) && Resolving(root, links)
    requires forall n :: n in links ==> depth[n] <= |links|
    requires Visits(order, links.Keys)
    requires forall n :: n in links && depth[n] <= covered ==> links[n].Some?
    ensures Resolving(root, ResolvePass(names, links, order).links)
    ensures forall n :: n in links && depth[n] <= covered + 1 ==> ResolvePass(names, links, order).links[n].Some?
    ensures ResolvePass(names, links, order).filled ==> covered < |links|
  {
    PassProgress(names, links0, root, depth, covered, links, order);
    forall n | n in links && depth[n] <= covered + 1
      ensures ResolvePass(names, links, order).links[n].Some?
    {
      var j :| 0 <= j < |order| && order[j] == n;
    }
    if ResolvePass(names, links, order).filled {
      var i :| 0 <= i < |order| && links[order[i]].None?;
    }
  }

  /** A pass over all tables that meets no unresolved table leaves every
      link at its root. */
  lemma PassCompletes(names: SourceNames, root: map<string, string>, links: Links, order: seq<string>)
    requires Resolving(root, links) && links.Keys == names.Keys
    requires Visits(order, links.Keys)
    requires !ResolvePass(names, links, order).filled
    ensures forall n :: n in links ==> ResolvePass(names, links, order).links[n] == Some(root[n])
  {
    forall n | n in links
      ensures ResolvePass(names, links, order).links[n] == Some(root[n])
    {
      var j :| 0 <= j < |order| && order[j] == n;
    }
  }

  /** Each pass resolves at least one more link of every chain, and a pass
      that meets no unresolved table ends the loop, so no more passes than
      one beyond the longest chain are taken and every link ends resolved. */
  lemma {:induction false} PassesResolve(names: SourceNames, links0: Links, root: map<string, string>,
                                         depth: map<string, nat>, covered: nat, links: Links, orders: seq<seq<string>>)
    requires ChainLabels(names, links0, root, depth) && Resolving(root, links)
    requires forall n :: n in links ==> depth[n] <= |links|
    requires forall k :: 0 <= k < |orders| ==> Visits(orders[k], links.Keys)
    requires covered + |orders| > |links|
    requires forall n :: n in links && depth[n] <= covered ==> links[n].Some?
    ensures forall n :: n in links ==> RepeatPasses(names, links, orders)[n] == Some(root[n])
    decreases |orders|
  {
    if |orders| > 0 {
      var p := ResolvePass(names, links, orders[0]);
      PassAdvances(names, links0, root, depth, covered, links, orders[0]);
      if p.filled {
        assert forall k :: 1 <= k < |orders| ==> orders[1..][k - 1] == orders[k];
        PassesResolve(names, links0, root, depth, covered + 1, p.links, orders[1..]);
      } else {
        PassCompletes(names, root, links, orders[0]);
      }
    }
  }

  /** `prepareGeneralizedTableSources`, second loop: passes over all tables
      copy the base table of a table's source into every table without one,
      until a pass meets no table without one. Pass k visits the tables in
      `orders[k]`; at most one pass more than the number of tables is
      needed. The loop only ends when every chain is grounded: on a cycle it
      does not terminate, hence the precondition. */
  function ResolveRoots(b: Generalized, orders: seq<seq<string>>): (r: Generalized)
    requires GroundedTables(b)
    requires |orders| > |b| && forall k :: 0 <= k < |orders| ==> Visits(orders[k], b.Keys)
    ensures r.Keys == b.Keys
    ensures forall n :: n in b ==> r[n] == b[n].(source := Some(Root(b, n)))
  {
    var links := RepeatPasses(SourceNamesOf(b), LinksOf(b), orders);
    PassesFindRoots(b, orders);
    map n | n in b :: b[n].(source := links[n])
  }

  /** The passes bind every table to the end of its chain. */
  lemma PassesFindRoots(b: Generalized, orders: seq<seq<string>>)
    requires GroundedTables(b)
    requires |orders| > |b| && forall k :: 0 <= k < |orders| ==> Visits(orders[k], b.Keys)
    ensures forall n :: n in b ==> RepeatPasses(SourceNamesOf(b), LinksOf(b), orders)[n] == Some(Root(b, n))
  {
    var names := SourceNamesOf(b);
    var links0 := LinksOf(b);
    var root := map n | n in links0 :: ChainEnd(names, links0, n, |links0|).value.root;
    var depth := map n | n in links0 :: ChainEnd(names, links0, n, |links0|).value.depth;
    GroundedLabels(names, links0);
    PassesResolve(names, links0, root, depth, 0, links0, orders);
  }

  /** A generalized table derived from another one ends up with the same
      base table as its source. */
  lemma DerivedShareRoot(b: Generalized, n: string)
    requires GroundedTables(b) && n in b && b[n].source.None?
    ensures b[n].sourceName in b && Root(b, b[n].sourceName) == Root(b, n)
  {
    GroundedLabels(SourceNamesOf(b), LinksOf(b));
  }

  // ---------------------------------------------------------------------
  // Reverse edges

  /** Every generalized table has its root base table bound, and the root is
      a base table. */
  predicate SourcesResolved(tables: Tables, gens: Generalized) {
    forall n :: n in gens ==> gens[n].source.Some? && gens[n].source.value in tables
  }

  /** The list a table is appended to, per table: its root base table, or
      its generalized source. */
  function RootTargets(tables: Tables, gens: Generalized): (targets: map<string, string>)
    requires SourcesResolved(tables, gens)
    ensures targets.Keys == gens.Keys
  {
    map n | n in gens :: gens[n].source.value
  }

  function ParentTargets(gens: Generalized): (targets: map<string, string>)
    ensures forall n :: n in targets <==> n in gens && gens[n].sourceName in gens
  {
    map n | n in gens && gens[n].sourceName in gens :: gens[n].sourceName
  }

  /** The visited tables that `targets` sends to `t`, in visiting order. */
  function Targeting(order: seq<string>, targets: map<string, string>, t: string): (r: seq<string>)
    ensures forall x :: x in r <==> x in order && x in targets && targets[x] == t
    ensures NoDuplicates(order) ==> NoDuplicates(r)
  {
    if |order| == 0 then []
    else
      var rest := Targeting(order[1..], targets, t);
      assert NoDuplicates(order) ==> order[0] !in order[1..] && NoDuplicates(order[1..]);
      if order[0] in targets && targets[order[0]] == t then [order[0]] + rest else rest
  }

  /** One append followed by the appends of the remaining tables is the
      appends of all of them. */
  lemma AppendStep(lists: map<string, seq<string>>, next: map<string, seq<string>>, rest: map<string, seq<string>>,
                   targets: map<string, string>, order: seq<string>)
    requires |order| > 0 && (order[0] in targets ==> targets[order[0]] in lists)
    requires next == if order[0] in targets then lists[targets[order[0]] := lists[targets[order[0]]] + [order[0]]] else lists
    requires rest.Keys == next.Keys
    requires forall t :: t in next ==> rest[t] == next[t] + Targeting(order[1..], targets, t)
    ensures forall t :: t in lists ==> rest[t] == lists[t] + Targeting(order, targets, t)
  {
    forall t | t in lists
      ensures rest[t] == lists[t] + Targeting(order, targets, t)
    {
      var step: seq<string> := if order[0] in targets && targets[order[0]] == t then [order[0]] else [];
      assert next[t] == lists[t] + step;
      ConcatAssoc(lists[t], step, Targeting(order[1..], targets, t));
    }
  }

  /** Appends every visited table to the list of its target, in visiting
      order. */
  function AppendAll(lists: map<string, seq<string>>, targets: map<string, string>, order: seq<string>)
    : (r: map<string, seq<string>>)
    requires forall n :: n in targets ==> targets[n] in lists
    ensures r.Keys == lists.Keys
    ensures forall t :: t in lists ==> r[t] == lists[t] + Targeting(order, targets, t)
  {
    if |order| == 0 then lists
    else
      var n := order[0];
      var next := if n in targets then lists[targets[n] := lists[targets[n]] + [n]] else lists;
      var rest := AppendAll(next, targets, order[1..]);
      AppendStep(lists, next, rest, targets, order);
      rest
  }

  datatype Prepared = Prepared(tables: Tables, gens: Generalized)

  /** `prepareGeneralizations`, visiting the generalized tables in `order`:
      each is appended to the `generalizations` of its root base table and,
      when its source name names a generalized table, to that table's list
      too. The two appends of one step go to different lists, so they are
      made here in two sweeps over the same order. */
  function PrepareGeneralizations(tables: Tables, gens: Generalized, order: seq<string>): (r: Prepared)
    requires SourcesResolved(tables, gens)
    ensures r.tables.Keys == tables.Keys && r.gens.Keys == gens.Keys
    ensures forall t :: t in tables ==> r.tables[t] == tables[t].(generalizations := r.tables[t].generalizations)
    ensures forall g :: g in gens ==> r.gens[g] == gens[g].(generalizations := r.gens[g].generalizations)
    ensures forall t :: t in tables ==>
      r.tables[t].generalizations == tables[t].generalizations + Targeting(order, RootTargets(tables, gens), t)
    ensures forall g :: g in gens ==>
      r.gens[g].generalizations == gens[g].generalizations + Targeting(order, ParentTargets(gens), g)
  {
    var baseLists := AppendAll(map t | t in tables :: tables[t].generalizations, RootTargets(tables, gens), order);
    var genLists := AppendAll(map g | g in gens :: gens[g].generalizations, ParentTargets(gens), order);
    Prepared(WithTableLists(tables, baseLists), WithGenLists(gens, genLists))
  }

  /** Every base table with its list of generalizations replaced by the
      one in `lists`. */
  function WithTableLists(tables: Tables, lists: map<string, seq<string>>): (r: Tables)
    requires tables.Keys <= lists.Keys
    ensures r.Keys == tables.Keys
    ensures forall t :: t in tables ==> r[t] == tables[t].(generalizations := lists[t])
  {
    map t | t in tables :: tables[t].(generalizations := lists[t])
  }

  /** Every generalized table with its list of generalizations replaced by
      the one in `lists`. */
  function WithGenLists(gens: Generalized, lists: map<string, seq<string>>): (r: Generalized)
    requires gens.Keys <= lists.Keys
    ensures r.Keys == gens.Keys
    ensures forall g :: g in gens ==> r[g] == gens[g].(generalizations := lists[g])
  {
    map g | g in gens :: gens[g].(generalizations := lists[g])
  }

  /** Over an iteration order of the generalized tables, a base table's list
      gains exactly the tables rooted at it, each once. */
  lemma RootEdges(tables: Tables, gens: Generalized, order: seq<string>, t: string)
    requires SourcesResolved(tables, gens) && Enumerates(order, gens.Keys) && t in tables
    ensures var before := tables[t].generalizations;
      var after := PrepareGeneralizations(tables, gens, order).tables[t].generalizations;
      && before <= after
      && NoDuplicates(after[|before|..])
      && forall x :: x in after[|before|..] <==> x in gens && gens[x].source == Some(t)
  {
    var before := tables[t].generalizations;
    var after := PrepareGeneralizations(tables, gens, order).tables[t].generalizations;
    assert after[|before|..] == Targeting(order, RootTargets(tables, gens), t);
  }

  /** Over an iteration order of the generalized tables, a generalized
      table's list gains exactly the tables derived directly from it, each
      once. */
  lemma ParentEdges(tables: Tables, gens: Generalized, order: seq<string>, g: string)
    requires SourcesResolved(tables, gens) && Enumerates(order, gens.Keys) && g in gens
    ensures var before := gens[g].generalizations;
      var after := PrepareGeneralizations(tables, gens, order).gens[g].generalizations;
      && before <= after
      && NoDuplicates(after[|before|..])
      && forall x :: x in after[|before|..] <==> x in gens && gens[x].sourceName == g
  {
    var before := gens[g].generalizations;
    var after := PrepareGeneralizations(tables, gens, order).gens[g].generalizations;
    assert after[|before|..] == Targeting(order, ParentTargets(gens), g);
  }

  // ---------------------------------------------------------------------
  // Fan-out and ordering

  /** `generalizedFromMatches`: the concatenated `generalizations` lists of
      the matched base tables. A matched table that is not a base table is a
      nil dereference in the backend, hence the precondition. */
  function GeneralizedFromMatches(tables: Tables, matches: seq<string>): (r: seq<string>)
    requires forall i :: 0 <= i < |matches| ==> matches[i] in tables
    ensures forall x :: x in r <==> exists i :: 0 <= i < |matches| && x in tables[matches[i]].generalizations
  {
    if |matches| == 0 then []
    else
      var rest := GeneralizedFromMatches(tables, matches[1..]);
      assert forall i :: 1 <= i < |matches| ==> matches[1..][i - 1] == matches[i];
      tables[matches[0]].generalizations + rest
  }

  /** The admission test of `sortedGeneralizedTables`: the table has its
      root base table bound, or its generalized source was added already. */
  predicate Admitted(gens: Generalized, sorted: seq<string>, n: string)
    requires n in gens
  {
    gens[n].source.Some? || (gens[n].sourceGeneralized.Some? && gens[n].sourceGeneralized.value in sorted)
  }

  /** One pass of `sortedGeneralizedTables` in visiting order `order`. */
  function SortPass(gens: Generalized, sorted: seq<string>, order: seq<string>): (r: seq<string>)
    requires forall i :: 0 <= i < |order| ==> order[i] in gens
    ensures sorted <= r
    ensures forall x :: x in r[|sorted|..] ==> x in order && x !in sorted
    decreases |order|
  {
    if |order| == 0 then sorted
    else
      var n := order[0];
      var next := if n !in sorted && Admitted(gens, sorted, n) then sorted + [n] else sorted;
      SortPass(gens, next, order[1..])
  }

  /** Once every root is bound, a pass admits every visited table not added
      yet, in visiting order. */
  lemma {:induction false} SortPassAdmitsAll(gens: Generalized, sorted: seq<string>, order: seq<string>)
    requires forall n :: n in gens ==> gens[n].source.Some?
    requires forall i :: 0 <= i < |order| ==> order[i] in gens
    requires NoDuplicates(order) && forall i :: 0 <= i < |order| ==> order[i] !in sorted
    ensures SortPass(gens, sorted, order) == sorted + order
    decreases |order|
  {
    if |order| > 0 {
      var n, tail := order[0], order[1..];
      assert Admitted(gens, sorted, n);
      SortPassAdmits(gens, sorted, order);
      FreshTail(sorted, order);
      SortPassAdmitsAll(gens, sorted + [n], tail);
      AppendHead(sorted, order);
    }
  }

  /** Appending the head of a sequence and then its tail appends it whole. */
  lemma AppendHead(sorted: seq<string>, order: seq<string>)
    requires |order| > 0
    ensures sorted + [order[0]] + order[1..] == sorted + order
  {
    ConcatAssoc(sorted, [order[0]], order[1..]);
    assert [order[0]] + order[1..] == order;
  }

  /** A pass adds an admitted table it visits that was not added yet. */
  lemma SortPassAdmits(gens: Generalized, sorted: seq<string>, order: seq<string>)
    requires forall i :: 0 <= i < |order| ==> order[i] in gens
    requires |order| > 0 && order[0] !in sorted && Admitted(gens, sorted, order[0])
    ensures SortPass(gens, sorted, order) == SortPass(gens, sorted + [order[0]], order[1..])
  {
  }

  /** The rest of a duplicate-free order, none of it added yet, stays so
      once its head is added. */
  lemma FreshTail(sorted: seq<string>, order: seq<string>)
    requires |order| > 0
    requires NoDuplicates(order) && forall i :: 0 <= i < |order| ==> order[i] !in sorted
    ensures NoDuplicates(order[1..])
    ensures forall i :: 0 <= i < |order| - 1 ==> order[1..][i] !in sorted + [order[0]]
  {
    assert forall i :: 0 <= i < |order| - 1 ==> order[1..][i] == order[i + 1];
  }

  /** The outer loop of `sortedGeneralizedTables`: passes while fewer tables
      were added than there are; pass k visits the tables in `orders[k]`. */
  function SortLoop(gens: Generalized, sorted: seq<string>, orders: seq<seq<string>>): seq<string>
    requires forall k :: 0 <= k < |orders| ==> Visits(orders[k], gens.Keys)
    decreases |orders|
  {
    if |gens| <= |sorted| || |orders| == 0 then sorted
    else
      assert Visits(orders[0], gens.Keys);
      assert forall k :: 1 <= k < |orders| ==> orders[1..][k - 1] == orders[k];
      SortLoop(gens, SortPass(gens, sorted, orders[0]), orders[1..])
  }

  /** The elements of a sequence are no more than its length. */
  lemma {:induction false} ElementsBound<T>(s: seq<T>, keys: set<T>)
    requires forall k :: k in keys ==> k in s
    ensures |keys| <= |s|
    decreases |s|
  {
    if |s| > 0 {
      ElementsBound(s[1..], keys - {s[0]});
    }
  }

  /** Once every root is bound, the loop ends after its first pass, which
      admitted every table. */
  lemma SortLoopFirstPass(gens: Generalized, orders: seq<seq<string>>)
    requires forall n :: n in gens ==> gens[n].source.Some?
    requires forall k :: 0 <= k < |orders| ==> Visits(orders[k], gens.Keys)
    requires |orders| > 0 && NoDuplicates(orders[0])
    ensures SortLoop(gens, [], orders) == orders[0]
  {
    var first := orders[0];
    assert Visits(first, gens.Keys);
    SortPassAdmitsAll(gens, [], first);
    assert [] + first == first;
    ElementsBound(first, gens.Keys);
  }

  /** `sortedGeneralizedTables` once every root is bound: the first pass
      admits every table, so the result is that pass's iteration order, a
      permutation of the tables with no parent-before-child guarantee. */
  function SortedGeneralizedTables(gens: Generalized, orders: seq<seq<string>>): (r: seq<string>)
    requires forall n :: n in gens ==> gens[n].source.Some?
    requires forall k :: 0 <= k < |orders| ==> Visits(orders[k], gens.Keys)
    requires |orders| > 0 && NoDuplicates(orders[0])
    ensures r == orders[0]
    ensures Enumerates(r, gens.Keys)
  {
    SortLoopFirstPass(gens, orders);
    SortLoop(gens, [], orders)
  }
}

=== FILE: resolutions.dfy ===
/** Parsing of an H3 column's `resolutions` argument. Every parsed value is
    appended to the resolution list of the one shared H3 variant, so the
    parser takes that list and returns it extended. */
module Resolutions {
  import opened Results
  import opened Text
  import opened Columns

  /** An element of a YAML list: an integer or any other value. */
  datatype ArgValue = IntValue(v: int) | OtherValue(shown: string)

  /** The dynamic shapes the `resolutions` argument can take. A float is
      given by its truncation toward zero, which is what `int(r)` yields. */
  datatype ResolutionArg =
    | Absent
    | AnyList(items: seq<ArgValue>)
    | IntList(values: seq<int>)
    | IntArg(v: int)
    | StringArg(text: string)
    | FloatArg(truncated: int)
    | OtherArg(typeName: string)

  function Distance(a: int, b: int): nat {
    if a <= b then b - a else a - b
  }

  const MaxResolution: int := 15

  /** `checkResolution`: the nearest valid H3 resolution. */
  function CheckResolution(v: int): (r: int)
    ensures 0 <= r <= MaxResolution
    ensures forall x :: 0 <= x <= MaxResolution ==> Distance(r, v) <= Distance(x, v)
    ensures 0 <= v <= MaxResolution ==> r == v
  {
    if v > MaxResolution then MaxResolution else if v < 0 then 0 else v
  }

  /** The shared resolution list after parsing, and the error that stopped
      the parse, if any. Values appended before an error stay appended. */
  datatype Parsed = Parsed(resolutions: seq<Int8>, error: Option<PgError>)

  /** The list of a `[]int` argument, each value clamped. */
  function ClampAll(values: seq<int>): (r: seq<Int8>)
    ensures |r| == |values|
    ensures forall k :: 0 <= k < |values| ==> r[k] == CheckResolution(values[k])
  {
    if |values| == 0 then [] else [ToInt8(CheckResolution(values[0]))] + ClampAll(values[1..])
  }

  /** The `[]interface{}` branch: appends clamped integers until the first
      element that is not an integer, which is an error. */
  function AppendAnyList(acc: seq<Int8>, items: seq<ArgValue>, column: string): (r: Parsed)
    ensures acc <= r.resolutions
    ensures r.error.None? <==> forall k :: 0 <= k < |items| ==> items[k].IntValue?
    ensures r.error.None? ==> |r.resolutions| == |acc| + |items|
    ensures r.error.Some? ==> r.error == Some(ResolutionNotInteger(column))
    ensures r.error.Some? ==> |r.resolutions| < |acc| + |items| && items[|r.resolutions| - |acc|].OtherValue?
    ensures forall k :: |acc| <= k < |r.resolutions| ==>
      items[k - |acc|].IntValue? && r.resolutions[k] == CheckResolution(items[k - |acc|].v)
    decreases |items|
  {
    if |items| == 0 then Parsed(acc, None)
    else match items[0]
      case OtherValue(_) => Parsed(acc, Some(ResolutionNotInteger(column)))
      case IntValue(v) =>
        var acc' := acc + [ToInt8(CheckResolution(v))];
        var r := AppendAnyList(acc', items[1..], column);
        assert r.resolutions[|acc|] == acc'[|acc|];
        assert forall j :: 0 <= j < |items| - 1 ==> items[1..][j] == items[j + 1];
        r
  }

  /** The shapes that parse without error. */
  predicate WellShaped(arg: ResolutionArg) {
    match arg
    case Absent => true
    case AnyList(items) => forall k :: 0 <= k < |items| ==> items[k].IntValue?
    case IntList(_) => true
    case IntArg(_) => true
    case StringArg(text) => Atoi(text).Some?
    case FloatArg(_) => true
    case OtherArg(_) => false
  }

  /** The H3 branch of `NewTableSpec`: appends the parsed resolutions of one
      column to the shared list `acc`. */
  function AppendResolutions(acc: seq<Int8>, arg: ResolutionArg, column: string): (r: Parsed)
    ensures acc <= r.resolutions
    ensures r.error.None? <==> WellShaped(arg)
    ensures arg.Absent? ==> r.resolutions == acc + [DefaultH3Resolution]
    ensures arg.IntList? ==> r.resolutions == acc + ClampAll(arg.values)
    ensures arg.IntArg? ==> r.resolutions == acc + [CheckResolution(arg.v)]
    ensures arg.FloatArg? ==> r.resolutions == acc + [CheckResolution(arg.truncated)]
    ensures arg.IntArg? || arg.FloatArg? || (arg.StringArg? && r.error.None?) ==> |r.resolutions| == |acc| + 1
    ensures arg.OtherArg? || (arg.StringArg? && r.error.Some?) ==> r.resolutions == acc
    ensures !arg.StringArg? ==> forall k :: |acc| <= k < |r.resolutions| ==> 0 <= r.resolutions[k] <= MaxResolution
    ensures arg.StringArg? && r.error.None? ==> (r.resolutions[|acc|] - Atoi(arg.text).value) % 256 == 0
  {
    match arg
    case Absent => Parsed(acc + [DefaultH3Resolution], None)
    case AnyList(items) => AppendAnyList(acc, items, column)
    case IntList(values) => Parsed(acc + ClampAll(values), None)
    case IntArg(v) => Parsed(acc + [ToInt8(CheckResolution(v))], None)
    case StringArg(text) =>
      (match Atoi(text)
       case None => Parsed(acc, Some(ResolutionNotNumeric(text)))
       case Some(v) => Parsed(acc + [ToInt8(v)], None))
    case FloatArg(truncated) => Parsed(acc + [ToInt8(CheckResolution(truncated))], None)
    case OtherArg(typeName) => Parsed(acc, Some(ResolutionInvalidType(typeName)))
  }

  /** The numeric-string branch is the one branch that does not clamp: "16"
      is kept as 16, and "200" wraps around to -56 in the `int8`
      conversion, where an integer 200 would be clamped to 15. */
  lemma StringResolutionNotClamped()
    ensures AppendResolutions([], StringArg("16"), "geometry").resolutions == [16]
    ensures AppendResolutions([], StringArg("200"), "geometry").resolutions == [-56]
    ensures AppendResolutions([], IntArg(200), "geometry").resolutions == [15]
  {
    assert "16" == IntToString(16);
    AtoiOfIntToString(16);
    assert "200" == IntToString(200);
    AtoiOfIntToString(200);
  }

  /** For every input: a numeric string is stored as its `int8` conversion,
      unclamped, so any value from 16 to 127 enters the list as it is. */
  lemma StringResolutionsUnclamped(acc: seq<Int8>, text: string, column: string)
    requires Atoi(text).Some? && MaxResolution < Atoi(text).value < 128
    ensures AppendResolutions(acc, StringArg(text), column).resolutions == acc + [Atoi(text).value]
    ensures AppendResolutions(acc, StringArg(text), column).resolutions[|acc|] > MaxResolution
  {
  }
}

=== FILE: results.dfy ===
/** Optional values, results and the error taxonomy of the PostGIS backend. */
module Results {

  /** A value that may be missing: the model of a Go nil pointer or a
      failed map lookup. */
  datatype Option<+T> = None | Some(value: T)

  /** A value or an error: the model of Go's `(T, error)` returns. */
  datatype Result<+T, +E> = Ok(value: T) | Err(error: E) {
    predicate IsFailure() {
      Err?
    }

    function PropagateFailure<U>(): Result<U, E>
      requires Err?
    {
      Err(error)
    }

    function Extract(): T
      requires Ok?
    {
      value
    }
  }

  /** The errors the backend reports. `MissingIdColumn` is the model of the
      `panic("missing id column")` of the statement templates. */
  datatype PgError =
    | MappingError(column: string, message: string)
    | UnhandledColumnType(goType: string)
    | ResolutionNotInteger(column: string)
    | ResolutionNotNumeric(text: string)
    | ResolutionInvalidType(typeName: string)
    | MissingSource(source: string, table: string)
    | MissingIdColumn
    | H3ExtensionMissing(table: string, column: string)
    | InvalidSrid(srid: int)
    | GeneralizeFailed(table: string)
    | RouterFailed(table: string)
}

=== FILE: seqs.dfy ===
/** Sequence vocabulary shared by the model: first match, filter, count,
    subsequence and distinctness. */
module Seqs {
  import opened Results

  /** The index of the first element satisfying `p`: the Go idiom of a
      `for range` loop that stops at the first hit with `break`. */
  function FirstIndex<T>(s: seq<T>, p: T -> bool): (r: Option<nat>)
    ensures r.Some? ==> r.value < |s| && p(s[r.value])
    ensures r.Some? ==> forall j :: 0 <= j < r.value ==> !p(s[j])
    ensures r.None? ==> forall j :: 0 <= j < |s| ==> !p(s[j])
  {
    if |s| == 0 then None
    else if p(s[0]) then Some(0)
    else match FirstIndex(s[1..], p)
      case None => None
      case Some(k) => Some(k + 1)
  }

  function Count<T>(s: seq<T>, p: T -> bool): (n: nat)
    ensures n <= |s|
  {
    if |s| == 0 then 0 else (if p(s[0]) then 1 else 0) + Count(s[1..], p)
  }

  lemma ConcatAssoc<T>(a: seq<T>, b: seq<T>, c: seq<T>)
    ensures a + b + c == a + (b + c)
  {
  }

  /** `first` and `second`, followed by `last` when there is one. */
  function TwoThenOptional<T>(first: T, second: T, last: Option<T>): (r: seq<T>)
    ensures 2 <= |r| <= 3 && r[0] == first && r[1] == second
    ensures |r| == 3 <==> last.Some?
    ensures |r| == 3 ==> r[2] == last.value
  {
    match last
    case None => [first, second]
    case Some(x) => [first, second, x]
  }

  /** The blocks of `bs`, one after the other. */
  function Flatten<T>(bs: seq<seq<T>>): seq<T> {
    if |bs| == 0 then [] else bs[0] + Flatten(bs[1..])
  }

  /** Block `i` sits, whole, between the blocks before it and those after. */
  lemma {:induction false} FlattenSplit<T>(bs: seq<seq<T>>, i: int)
    requires 0 <= i < |bs|
    ensures Flatten(bs) == Flatten(bs[..i]) + bs[i] + Flatten(bs[i + 1..])
  {
    if i == 0 {
      assert bs[..0] == [];
      assert bs[1..] == bs[i + 1..];
    } else {
      FlattenSplit(bs[1..], i - 1);
      assert bs[1..][..i - 1] == bs[..i][1..];
      assert bs[1..][i - 1] == bs[i];
      assert bs[1..][i..] == bs[i + 1..];
      assert bs[..i][0] == bs[0];
    }
  }

  /** `FlattenSplit` behind a `head`, with block `i` named `b`. */
  lemma FlattenAround<T>(head: seq<T>, bs: seq<seq<T>>, i: int, b: seq<T>)
    requires 0 <= i < |bs| && bs[i] == b
    ensures head + Flatten(bs) == head + Flatten(bs[..i]) + b + Flatten(bs[i + 1..])
  {
    FlattenSplit(bs, i);
  }

  /** `a` is `b` with some elements left out, order kept. */
  predicate Subsequence<T(==)>(a: seq<T>, b: seq<T>) {
    if |a| == 0 then true
    else if |b| == 0 then false
    else (a[0] == b[0] && Subsequence(a[1..], b[1..])) || Subsequence(a, b[1..])
  }

  /** The elements satisfying `p`, in order. */
  function Filter<T(==)>(s: seq<T>, p: T -> bool): (r: seq<T>)
    ensures Subsequence(r, s)
    ensures forall k :: 0 <= k < |r| ==> p(r[k])
    ensures |r| == Count(s, p)
  {
    if |s| == 0 then []
    else if p(s[0]) then [s[0]] + Filter(s[1..], p)
    else Filter(s[1..], p)
  }

  /** One step of `Filter`: the head kept or dropped, then the rest filtered. */
  lemma FilterUnfold<T>(s: seq<T>, p: T -> bool)
    requires |s| > 0
    ensures Filter(s, p) == (if p(s[0]) then [s[0]] else []) + Filter(s[1..], p)
  {
  }

  /** Appending `kept`, then `tail`, to `log` appends `kept + tail`. */
  lemma AppendThen<T>(log: seq<T>, kept: seq<T>, next: seq<T>, tail: seq<T>, full: seq<T>, whole: seq<T>)
    requires next == log + kept && whole == next + tail && full == kept + tail
    ensures whole == log + full
  {
    ConcatAssoc(log, kept, tail);
  }

  predicate NoDuplicates<T(==)>(s: seq<T>) {
    forall i, j :: 0 <= i < j < |s| ==> s[i] != s[j]
  }

  /** Appending an element not in `s` keeps `s` free of duplicates. */
  lemma AppendFreshNoDuplicates<T>(s: seq<T>, x: T)
    requires NoDuplicates(s) && x !in s
    ensures NoDuplicates(s + [x])
  {
    var t := s + [x];
    forall i, j | 0 <= i < j < |t|
      ensures t[i] != t[j]
    {
      assert t[i] == s[i];
    }
  }

  /** `order` visits every key of `keys`, and nothing else. */
  predicate Visits<T(==)>(order: seq<T>, keys: set<T>) {
    && (forall k :: k in keys ==> k in order)
    && (forall i :: 0 <= i < |order| ==> order[i] in keys)
  }

  /** `order` lists every key of `keys` exactly once: an iteration order of
      a Go map with those keys. */
  predicate Enumerates<T(==)>(order: seq<T>, keys: set<T>) {
    Visits(order, keys) && NoDuplicates(order)
  }

  /** The number of occurrences of `x` in `s`. */
  function Occurrences<T(==)>(s: seq<T>, x: T): nat {
    if |s| == 0 then 0 else (if s[0] == x then 1 else 0) + Occurrences(s[1..], x)
  }

  function Repeat<T>(x: T, n: nat): (r: seq<T>)
    ensures |r| == n && forall k :: 0 <= k < n ==> r[k] == x
  {
    if n == 0 then [] else [x] + Repeat(x, n - 1)
  }
}

=== FILE: spec.dfy ===
/** Table specifications and the SQL statement templates built from them:
    base tables (`TableSpec`) and generalized tables
    (`GeneralizedTableSpec`), and their construction from configuration. */
module Spec {
  import opened Results
  import opened Text
  import opened Seqs
  import opened Columns
  import opened Resolutions

  /** The logical column type the mapping layer resolves a configured column
      to: its field-type name (`id`, `string`, `geometry`, ...) and the Go type
      name the column registry is keyed by. */
  datatype FieldType = FieldType(name: string, goType: string)

  datatype ColumnSpec = ColumnSpec(name: string, fieldType: FieldType, colType: ColumnType)

  /** A base table. `generalizations` holds the names of the generalized
      tables that derive from it, filled in after source resolution. */
  datatype TableSpec = TableSpec(
    name: string,
    fullName: string,
    schema: string,
    columns: seq<ColumnSpec>,
    geometryType: string,
    srid: int,
    generalizations: seq<string>)

  /** A generalized table. `source` names the root base table and
      `sourceGeneralized` the generalized table it is derived from, if any;
      both are unset until source resolution. The tolerance is held in
      millionths. */
  datatype GeneralizedTableSpec = GeneralizedTableSpec(
    name: string,
    fullName: string,
    schema: string,
    sourceName: string,
    source: Option<string>,
    sourceGeneralized: Option<string>,
    toleranceMicros: int,
    where: string,
    created: bool,
    generalizations: seq<string>)

  /** The base and generalized tables of a backend, by name. */
  type Tables = map<string, TableSpec>
  type Generalized = map<string, GeneralizedTableSpec>

  /** The connection-level settings the specs are built with. */
  datatype Settings = Settings(prefix: string, importSchema: string, srid: int)

  /** A configured column: its name, what the mapping layer made of it (or
      the mapping layer's error) and its `resolutions` argument. */
  datatype ColumnConfig = ColumnConfig(name: string, made: Result<FieldType, string>, resolutions: ResolutionArg)

  datatype TableConfig = TableConfig(name: string, tableType: string, columns: seq<ColumnConfig>)

  datatype GeneralizedTableConfig = GeneralizedTableConfig(
    name: string, sourceTableName: string, toleranceMicros: int, sqlFilter: string)

  // ---------------------------------------------------------------------
  // CREATE TABLE

  /** `ColumnSpec.AsSQL`: `"<name>" <type>`. */
  function AsSQL(col: ColumnSpec): string {
    Quote(col.name) + " " + Name(col.colType)
  }

  const SerialIdColumn: string := "id SERIAL PRIMARY KEY"

  predicate IsGeometryColumn(col: ColumnSpec) {
    Name(col.colType) == GeometryToken
  }

  predicate IsPlainColumn(col: ColumnSpec) {
    !IsGeometryColumn(col)
  }

  /** Whether some column is named `name`. */
  function AnyNamed(cols: seq<ColumnSpec>, name: string): (found: bool)
    ensures found <==> exists k :: 0 <= k < |cols| && cols[k].name == name
  {
    if |cols| == 0 then false else cols[0].name == name || AnyNamed(cols[1..], name)
  }

  /** The column definitions of the CREATE TABLE statement: geometry columns
      are skipped (they are added by `AddGeometryColumn`). */
  function ColumnDefinitions(cols: seq<ColumnSpec>): (defs: seq<string>)
    ensures |defs| == Count(cols, IsPlainColumn)
    ensures forall k :: 0 <= k < |defs| ==> defs[k] == AsSQL(Filter(cols, IsPlainColumn)[k])
  {
    if |cols| == 0 then []
    else if IsGeometryColumn(cols[0]) then ColumnDefinitions(cols[1..])
    else [AsSQL(cols[0])] + ColumnDefinitions(cols[1..])
  }

  /** The entries of the CREATE TABLE column list. */
  function CreateTableColumns(cols: seq<ColumnSpec>): (r: seq<string>)
    ensures (|r| > 0 && r[0] == SerialIdColumn) <==> !exists k :: 0 <= k < |cols| && cols[k].name == "id"
    ensures |r| - |ColumnDefinitions(cols)| in {0, 1}
    ensures r[|r| - |ColumnDefinitions(cols)|..] == ColumnDefinitions(cols)
    ensures AnyNamed(cols, "id") ==> r == ColumnDefinitions(cols)
  {
    var defs := ColumnDefinitions(cols);
    var r := (if AnyNamed(cols, "id") then [] else [SerialIdColumn]) + defs;
    assert |defs| > 0 ==> defs[0][0] == '"';
    assert r[|r| - |defs|..] == defs;
    r
  }

  /** The layout of the CREATE TABLE template: a leading line break and
      indentation, one column definition per line. */
  const CreateTableHead: string := "\n        CREATE TABLE IF NOT EXISTS "
  const CreateTableOpen: string := " (\n            "
  const CreateTableClose: string := "\n        );"

  function CreateTableSQL(spec: TableSpec): string {
    CreateTableHead + Qualified(spec.schema, spec.fullName)
    + CreateTableOpen + Join(CreateTableColumns(spec.columns), ",\n") + CreateTableClose
  }

  // ---------------------------------------------------------------------
  // INSERT and COPY

  /** The quoted column names, in declared order. */
  function QuotedNames(cols: seq<ColumnSpec>): (names: seq<string>)
    ensures |names| == |cols|
    ensures forall k :: 0 <= k < |cols| ==> names[k] == Quote(cols[k].name)
  {
    if |cols| == 0 then [] else [Quote(cols[0].name)] + QuotedNames(cols[1..])
  }

  /** The insert placeholders of `cols`, numbered from `first`. */
  function Placeholders(cols: seq<ColumnSpec>, first: nat): (ps: seq<string>)
    ensures |ps| == |cols|
  {
    if |cols| == 0 then [] else [PrepareInsertSql(cols[0].colType, first)] + Placeholders(cols[1..], first + 1)
  }

  /** Placeholder k of a list numbered from `first` is that of column k,
      numbered `first + k`. */
  lemma {:induction false} PlaceholderAt(cols: seq<ColumnSpec>, first: nat, k: nat)
    requires k < |cols|
    ensures Placeholders(cols, first)[k] == PrepareInsertSql(cols[k].colType, first + k)
    decreases k
  {
    if k > 0 {
      var rest := Placeholders(cols[1..], first + 1);
      assert Placeholders(cols, first) == [PrepareInsertSql(cols[0].colType, first)] + rest;
      PlaceholderAt(cols[1..], first + 1, k - 1);
      assert cols[1..][k - 1] == cols[k];
    }
  }

  /** The k-th placeholder of an INSERT binds argument k (counting from one)
      and is cast to geometry exactly for the geometry kinds, so the
      statement takes one argument per column, in declared order. */
  lemma InsertPlaceholdersNumbered(cols: seq<ColumnSpec>)
    ensures |Placeholders(cols, 1)| == |cols|
    ensures forall k :: 0 <= k < |cols| ==>
      ParsePlaceholder(Placeholders(cols, 1)[k]) == Some(Placeholder(k + 1, IsGeometryKind(cols[k].colType)))
  {
    forall k | 0 <= k < |cols|
      ensures ParsePlaceholder(Placeholders(cols, 1)[k]) == Some(Placeholder(k + 1, IsGeometryKind(cols[k].colType)))
    {
      PlaceholderAt(cols, 1, k);
      PlaceholderRoundTrip(cols[k].colType, 1 + k);
    }
  }

  const InsertHead: string := "INSERT INTO "
  const CopyHead: string := "COPY "
  const ListOpen: string := " ("
  const ListClose: string := ") "
  const ValuesOpen: string := "VALUES ("
  const ValuesClose: string := ")"
  const CopyFromStdin: string := "FROM STDIN"
  const ListSeparator: string := ", "
  const DeleteHead: string := "DELETE FROM "
  const SelectKeyword: string := "SELECT "
  const FromKeyword: string := " FROM "
  const WhereKeyword: string := " WHERE "
  const AndOpen: string := " AND ("
  const IdParam: string := " = $1"
  const Close: string := ")"

  /** ` ("a", "b") `: the quoted column names in declared order. */
  function ColumnList(cols: seq<ColumnSpec>): string {
    ListOpen + Join(QuotedNames(cols), ListSeparator) + ListClose
  }

  function InsertSQL(spec: TableSpec): string {
    (InsertHead + Qualified(spec.schema, spec.fullName)) + ColumnList(spec.columns)
    + (ValuesOpen + Join(Placeholders(spec.columns, 1), ListSeparator) + ValuesClose)
  }

  function CopySQL(spec: TableSpec): string {
    (CopyHead + Qualified(spec.schema, spec.fullName)) + ColumnList(spec.columns) + CopyFromStdin
  }

  /** The bulk COPY and the transactional INSERT of a table name the same
      column list, so rows shaped for one fit the other. */
  lemma CopyAndInsertNameSameColumns(spec: TableSpec)
    ensures IsInfix(ColumnList(spec.columns), InsertSQL(spec))
    ensures IsInfix(ColumnList(spec.columns), CopySQL(spec))
  {
    var q := Qualified(spec.schema, spec.fullName);
    InfixOfConcat(InsertHead + q, ColumnList(spec.columns),
      ValuesOpen + Join(Placeholders(spec.columns, 1), ListSeparator) + ValuesClose);
    InfixOfConcat(CopyHead + q, ColumnList(spec.columns), CopyFromStdin);
  }

  // ---------------------------------------------------------------------
  // The identifier column

  predicate IsIdField(col: ColumnSpec) {
    col.fieldType.name == "id"
  }

  predicate NoIdFieldBefore(cols: seq<ColumnSpec>, k: int) {
    forall j :: 0 <= j < k && j < |cols| ==> !IsIdField(cols[j])
  }

  /** The identifier column the DELETE and generalized INSERT templates
      filter on: the first column whose field type is `id`. A table without
      one, or whose first such column has an empty name, is an error. */
  function IdColumnName(cols: seq<ColumnSpec>): (r: Result<string, PgError>)
    ensures r.Ok? <==> exists k :: 0 <= k < |cols| && IsIdField(cols[k]) && NoIdFieldBefore(cols, k) && cols[k].name != ""
    ensures r.Ok? ==> exists k :: 0 <= k < |cols| && IsIdField(cols[k]) && NoIdFieldBefore(cols, k) && cols[k].name == r.value
    ensures r.Err? ==> r.error == MissingIdColumn
  {
    match FirstIndex(cols, IsIdField)
    case None => Err(MissingIdColumn)
    case Some(k) => if cols[k].name == "" then Err(MissingIdColumn) else Ok(cols[k].name)
  }

  /** `TableSpec.DeleteSQL`. */
  function DeleteSQL(spec: TableSpec): (r: Result<string, PgError>)
    ensures r.Ok? <==> IdColumnName(spec.columns).Ok?
    ensures r.Ok? ==> HasPrefix(r.value, DeleteHead + Qualified(spec.schema, spec.fullName))
    ensures r.Ok? ==> HasSuffix(r.value, WhereKeyword + Quote(IdColumnName(spec.columns).value) + IdParam)
  {
    var id :- IdColumnName(spec.columns);
    Ok((DeleteHead + Qualified(spec.schema, spec.fullName)) + (WhereKeyword + Quote(id) + IdParam))
  }

  /** CREATE TABLE recognises the identifier by column name, DELETE by field
      type: a column named `id` of another field type suppresses the serial
      column yet leaves the table without a DELETE template. */
  lemma IdNotionsDiffer(t: ColumnType)
    ensures var cols := [ColumnSpec("id", FieldType("string", "string"), t)];
      && !(|CreateTableColumns(cols)| > 0 && CreateTableColumns(cols)[0] == SerialIdColumn)
      && DeleteSQL(TableSpec("roads", "osm_roads", "import", cols, "linestring", 3857, [])).Err?
  {
    var cols := [ColumnSpec("id", FieldType("string", "string"), t)];
    assert cols[0].name == "id";
  }

  /** For every table: a column named `id` whose field type is not `id`,
      with no `id`-typed column at all, leaves the table with neither a
      serial identifier nor a DELETE template. */
  lemma IdNameWithoutIdField(spec: TableSpec, k: nat)
    requires k < |spec.columns| && spec.columns[k].name == "id"
    requires forall j :: 0 <= j < |spec.columns| ==> !IsIdField(spec.columns[j])
    ensures CreateTableColumns(spec.columns) == ColumnDefinitions(spec.columns)
    ensures SerialIdColumn !in CreateTableColumns(spec.columns)
    ensures DeleteSQL(spec).Err?
  {
    NoSerialBesideIdName(spec.columns, k);
    assert IdColumnName(spec.columns).Err?;
  }

  lemma NoSerialBesideIdName(cols: seq<ColumnSpec>, k: nat)
    requires k < |cols| && cols[k].name == "id"
    ensures CreateTableColumns(cols) == ColumnDefinitions(cols)
    ensures SerialIdColumn !in CreateTableColumns(cols)
  {
    NoSerialDefinition(cols);
  }

  lemma {:induction false} NoSerialDefinition(cols: seq<ColumnSpec>)
    ensures SerialIdColumn !in ColumnDefinitions(cols)
    decreases |cols|
  {
    if |cols| > 0 {
      NoSerialDefinition(cols[1..]);
      AsSQLQuoted(cols[0]);
    }
  }

  /** A column definition starts with the quote of the column's name. */
  lemma AsSQLQuoted(col: ColumnSpec)
    ensures AsSQL(col) != SerialIdColumn
  {
    assert AsSQL(col)[0] == '"' != SerialIdColumn[0];
  }

  // ---------------------------------------------------------------------
  // Generalized tables

  /** The projection list of a generalized table, one per source column. */
  function ProjectionList(cols: seq<ColumnSpec>, toleranceMicros: int): (ps: seq<string>)
    ensures |ps| == |cols|
    ensures forall k :: 0 <= k < |cols| ==> ps[k] == GeneralizeSql(cols[k].colType, cols[k].name, toleranceMicros)
  {
    if |cols| == 0 then []
    else [GeneralizeSql(cols[0].colType, cols[0].name, toleranceMicros)] + ProjectionList(cols[1..], toleranceMicros)
  }

  /** The joined projection list, as both materialization and replay use it. */
  function SelectList(source: TableSpec, gen: GeneralizedTableSpec): string {
    Join(ProjectionList(source.columns, gen.toleranceMicros), ",\n")
  }

  /** `SELECT <projections> FROM `: the part of the statement shared by
      materialization and replay. */
  function Selection(source: TableSpec, gen: GeneralizedTableSpec): string {
    SelectKeyword + SelectList(source, gen) + FromKeyword
  }

  /** `"schema"."table" WHERE "id"`: the row the replay reads, before its
      parameter. */
  function RowKey(schema: string, table: string, id: string): string {
    Qualified(schema, table) + WhereKeyword + Quote(id)
  }

  /** `GeneralizedTableSpec.DeleteSQL`: deletes by the root source's
      identifier column. */
  function GeneralizedDeleteSQL(gen: GeneralizedTableSpec, source: TableSpec): (r: Result<string, PgError>)
    ensures r.Ok? <==> IdColumnName(source.columns).Ok?
    ensures r.Ok? ==> HasPrefix(r.value, DeleteHead + Qualified(gen.schema, gen.fullName))
    ensures r.Ok? ==> HasSuffix(r.value, WhereKeyword + Quote(IdColumnName(source.columns).value) + IdParam)
  {
    var id :- IdColumnName(source.columns);
    Ok((DeleteHead + Qualified(gen.schema, gen.fullName)) + (WhereKeyword + Quote(id) + IdParam))
  }

  /** The replay statement `head (SELECT ... = $1 [AND (where)])`: it
      contains the row selection, and ends with the filter clause exactly
      when the table has a filter (without one it ends with the identifier
      parameter). */
  lemma ReplayShape(head: string, selection: string, where: string)
    ensures var sql := head + (selection + IdParam) + (ReplayFilter(where) + Close);
      && IsInfix(selection + IdParam, sql)
      && (where != "" <==> HasSuffix(sql, AndOpen + where + Close + Close))
  {
    var select := selection + IdParam;
    var tail := ReplayFilter(where) + Close;
    var sql := head + select + tail;
    InfixOfConcat(head, select, tail);
    var suffix := AndOpen + where + Close + Close;
    if where != "" {
      assert tail == suffix;
      assert sql[|sql| - |suffix|..] == suffix;
    } else {
      assert sql[|sql| - 2] == IdParam[|IdParam| - 1];
    }
  }

  /** The filter the replay appends after the identifier parameter. */
  function ReplayFilter(where: string): string {
    if where != "" then AndOpen + where + Close else ""
  }

  /** `GeneralizedTableSpec.InsertSQL`: re-derives one row of the root
      source table, selected by identifier, through the projection list. */
  function GeneralizedInsertSQL(gen: GeneralizedTableSpec, source: TableSpec): (r: Result<string, PgError>)
    ensures r.Ok? <==> IdColumnName(source.columns).Ok?
    ensures r.Ok? ==> IsInfix(
      Selection(source, gen) + RowKey(source.schema, source.fullName, IdColumnName(source.columns).value) + IdParam,
      r.value)
    ensures r.Ok? ==> HasPrefix(r.value, InsertHead + Qualified(gen.schema, gen.fullName) + ListOpen)
    ensures r.Ok? ==> (gen.where != "" <==> HasSuffix(r.value, AndOpen + gen.where + Close + Close))
  {
    var id :- IdColumnName(source.columns);
    var head := InsertHead + Qualified(gen.schema, gen.fullName) + ListOpen;
    var selection := Selection(source, gen) + RowKey(source.schema, source.fullName, id);
    ReplayShape(head, selection, gen.where);
    Ok(head + (selection + IdParam) + (ReplayFilter(gen.where) + Close))
  }

  // ---------------------------------------------------------------------
  // Construction from configuration

  const RelationMemberTable: string := "relation_member"

  /** A configured column is accepted when the mapping layer resolved it,
      its Go type is registered and, for an H3 column, its resolutions
      argument parses. */
  predicate Accepted(types: map<string, ColumnType>, c: ColumnConfig) {
    && c.made.Ok?
    && c.made.value.goType in types
    && (types[c.made.value.goType].H3Geometry? ==> WellShaped(c.resolutions))
  }

  /** The resolutions a configured column adds to the shared H3 list. */
  function Contribution(types: map<string, ColumnType>, c: ColumnConfig): seq<Int8> {
    if c.made.Ok? && c.made.value.goType in types && types[c.made.value.goType].H3Geometry?
    then AppendResolutions([], c.resolutions, c.name).resolutions
    else []
  }

  function Contributions(types: map<string, ColumnType>, cols: seq<ColumnConfig>): seq<Int8> {
    if |cols| == 0 then [] else Contribution(types, cols[0]) + Contributions(types, cols[1..])
  }

  /** Parsing into a non-empty shared list appends exactly what parsing into
      an empty one yields: resolutions of different columns concatenate. */
  lemma {:induction false} AnyListShift(acc: seq<Int8>, items: seq<ArgValue>, column: string)
    ensures AppendAnyList(acc, items, column).resolutions == acc + AppendAnyList([], items, column).resolutions
    ensures AppendAnyList(acc, items, column).error == AppendAnyList([], items, column).error
    decreases |items|
  {
    if |items| > 0 && items[0].IntValue? {
      var x := ToInt8(CheckResolution(items[0].v));
      AnyListUnfold(acc, items, column);
      AnyListUnfold([], items, column);
      assert [] + [x] == [x];
      AnyListShift(acc + [x], items[1..], column);
      AnyListShift([x], items[1..], column);
      ConcatAssoc(acc, [x], AppendAnyList([], items[1..], column).resolutions);
    }
  }

  lemma AnyListUnfold(acc: seq<Int8>, items: seq<ArgValue>, column: string)
    requires |items| > 0 && items[0].IntValue?
    ensures AppendAnyList(acc, items, column)
         == AppendAnyList(acc + [ToInt8(CheckResolution(items[0].v))], items[1..], column)
  {
  }

  lemma ResolutionsShift(acc: seq<Int8>, arg: ResolutionArg, column: string)
    ensures AppendResolutions(acc, arg, column).resolutions == acc + AppendResolutions([], arg, column).resolutions
    ensures AppendResolutions(acc, arg, column).error == AppendResolutions([], arg, column).error
  {
    if arg.AnyList? {
      AnyListShift(acc, arg.items, column);
    }
  }

  datatype BuiltColumn = BuiltColumn(column: Result<ColumnSpec, PgError>, registry: Registry)

  /** One iteration of `NewTableSpec`'s column loop. */
  function BuildColumn(c: ColumnConfig, reg: Registry): BuiltColumn {
    match c.made
    case Err(message) => BuiltColumn(Err(MappingError(c.name, message)), reg)
    case Ok(ft) =>
      if ft.goType !in reg.types then BuiltColumn(Err(UnhandledColumnType(ft.goType)), reg)
      else
        var t := reg.types[ft.goType];
        if t.H3Geometry? then
          var parsed := AppendResolutions(reg.h3Resolutions, c.resolutions, c.name);
          var reg' := reg.(h3Resolutions := parsed.resolutions);
          if parsed.error.Some? then BuiltColumn(Err(parsed.error.value), reg')
          else BuiltColumn(Ok(ColumnSpec(c.name, ft, t)), reg')
        else BuiltColumn(Ok(ColumnSpec(c.name, ft, t)), reg)
  }

  datatype BuiltColumns = BuiltColumns(columns: Result<seq<ColumnSpec>, PgError>, registry: Registry)

  /** The column loop of `NewTableSpec`, stopping at the first error. The
      registry is threaded through: it keeps what H3 columns appended even
      when a later column fails. */
  function BuildColumns(cols: seq<ColumnConfig>, reg: Registry): (r: BuiltColumns)
    ensures r.registry.types == reg.types
    ensures reg.h3Resolutions <= r.registry.h3Resolutions
    ensures r.columns.Ok? ==> |r.columns.value| == |cols|
    decreases |cols|
  {
    if |cols| == 0 then BuiltColumns(Ok([]), reg)
    else
      var first := BuildColumn(cols[0], reg);
      match first.column
      case Err(e) => BuiltColumns(Err(e), first.registry)
      case Ok(col) =>
        var rest := BuildColumns(cols[1..], first.registry);
        match rest.columns
        case Err(e) => BuiltColumns(Err(e), rest.registry)
        case Ok(cs) => BuiltColumns(Ok([col] + cs), rest.registry)
  }

  /** One column is accepted exactly when its configuration is, and it only
      ever touches the registry's resolution list, by its contribution. */
  lemma BuildColumnEffect(c: ColumnConfig, reg: Registry)
    ensures BuildColumn(c, reg).registry.types == reg.types
    ensures BuildColumn(c, reg).column.Ok? <==> Accepted(reg.types, c)
    ensures BuildColumn(c, reg).column.Ok? ==>
      && BuildColumn(c, reg).column.value == ColumnSpec(c.name, c.made.value, reg.types[c.made.value.goType])
      && BuildColumn(c, reg).registry.h3Resolutions == reg.h3Resolutions + Contribution(reg.types, c)
  {
    ResolutionsShift(reg.h3Resolutions, c.resolutions, c.name);
  }

  /** The loop succeeds exactly when every configured column is accepted. */
  lemma {:induction false} BuildColumnsAccepts(cols: seq<ColumnConfig>, reg: Registry)
    ensures BuildColumns(cols, reg).columns.Ok? <==> forall k :: 0 <= k < |cols| ==> Accepted(reg.types, cols[k])
    decreases |cols|
  {
    if |cols| > 0 {
      BuildColumnEffect(cols[0], reg);
      var first := BuildColumn(cols[0], reg);
      BuildColumnsAccepts(cols[1..], first.registry);
      assert forall j :: 0 <= j < |cols| - 1 ==> cols[1..][j] == cols[j + 1];
    }
  }

  /** A successful loop keeps every column, in order, with its registered
      type, ... */
  lemma {:induction false} BuildColumnsContents(cols: seq<ColumnConfig>, reg: Registry)
    requires BuildColumns(cols, reg).columns.Ok?
    ensures forall k :: 0 <= k < |cols| ==>
      && cols[k].made.Ok? && cols[k].made.value.goType in reg.types
      && BuildColumns(cols, reg).columns.value[k]
         == ColumnSpec(cols[k].name, cols[k].made.value, reg.types[cols[k].made.value.goType])
    decreases |cols|
  {
    if |cols| > 0 {
      BuildColumnEffect(cols[0], reg);
      var first := BuildColumn(cols[0], reg);
      BuildColumnsContents(cols[1..], first.registry);
      assert forall j :: 0 <= j < |cols| - 1 ==> cols[1..][j] == cols[j + 1];
    }
  }

  lemma BuildColumnsUnfold(cols: seq<ColumnConfig>, reg: Registry)
    requires |cols| > 0 && BuildColumns(cols, reg).columns.Ok?
    ensures var first := BuildColumn(cols[0], reg);
      && first.column.Ok?
      && BuildColumns(cols[1..], first.registry).columns.Ok?
      && BuildColumns(cols, reg).registry == BuildColumns(cols[1..], first.registry).registry
  {
  }

  /** ... and appends every H3 column's resolutions to the shared list in
      column order. */
  lemma {:induction false} BuildColumnsResolutions(cols: seq<ColumnConfig>, reg: Registry)
    requires BuildColumns(cols, reg).columns.Ok?
    ensures BuildColumns(cols, reg).registry.h3Resolutions == reg.h3Resolutions + Contributions(reg.types, cols)
    decreases |cols|
  {
    if |cols| > 0 {
      BuildColumnEffect(cols[0], reg);
      var first := BuildColumn(cols[0], reg);
      BuildColumnsUnfold(cols, reg);
      BuildColumnsResolutions(cols[1..], first.registry);
      var own, others := Contribution(reg.types, cols[0]), Contributions(reg.types, cols[1..]);
      assert Contributions(reg.types, cols) == own + others;
      assert reg.h3Resolutions + own + others == reg.h3Resolutions + (own + others);
    }
  }

  datatype Built = Built(table: Result<TableSpec, PgError>, registry: Registry)

  /** `NewTableSpec`: builds a base table from its configuration. */
  function NewTableSpec(settings: Settings, config: TableConfig, reg: Registry): (r: Built)
    ensures r.registry.types == reg.types
    ensures reg.h3Resolutions <= r.registry.h3Resolutions
    ensures r.table.Ok? <==> forall k :: 0 <= k < |config.columns| ==> Accepted(reg.types, config.columns[k])
    ensures r.table.Ok? ==> && r.table.value.name == config.name
                            && r.table.value.fullName == settings.prefix + config.name
                            && r.table.value.schema == settings.importSchema
                            && r.table.value.srid == settings.srid
                            && |r.table.value.columns| == |config.columns|
                            && r.table.value.generalizations == []
    ensures r.table.Ok? ==> forall k :: 0 <= k < |config.columns| ==>
      && config.columns[k].made.Ok? && config.columns[k].made.value.goType in reg.types
      && r.table.value.columns[k]
         == ColumnSpec(config.columns[k].name, config.columns[k].made.value, reg.types[config.columns[k].made.value.goType])
    ensures r.table.Ok? && config.tableType != RelationMemberTable ==> r.table.value.geometryType == config.tableType
    ensures r.table.Ok? ==> r.registry.h3Resolutions == reg.h3Resolutions + Contributions(reg.types, config.columns)
    ensures r.table.Ok? ==> (r.table.value.geometryType == "geometry" <==>
      config.tableType == RelationMemberTable || config.tableType == "geometry")
  {
    var geometryType := if config.tableType == RelationMemberTable then "geometry" else config.tableType;
    var built := BuildColumns(config.columns, reg);
    BuildColumnsAccepts(config.columns, reg);
    match built.columns
    case Err(e) => Built(Err(e), built.registry)
    case Ok(cols) =>
      BuildColumnsContents(config.columns, reg);
      BuildColumnsResolutions(config.columns, reg);
      Built(Ok(TableSpec(config.name, settings.prefix + config.name, settings.importSchema, cols,
                         geometryType, settings.srid, [])), built.registry)
  }

  /** Every table's H3 columns append to the same shared list: building two
      tables one after the other leaves the resolutions of both, in order,
      in the list both tables' H3 columns are indexed with. */
  lemma ResolutionsAccumulateAcrossTables(settings: Settings, t1: TableConfig, t2: TableConfig, reg: Registry)
    requires NewTableSpec(settings, t1, reg).table.Ok?
    requires NewTableSpec(settings, t2, NewTableSpec(settings, t1, reg).registry).table.Ok?
    ensures NewTableSpec(settings, t2, NewTableSpec(settings, t1, reg).registry).registry.h3Resolutions
         == reg.h3Resolutions + Contributions(reg.types, t1.columns) + Contributions(reg.types, t2.columns)
  {
  }

  /** `NewGeneralizedTableSpec`: a generalized table starts unresolved and
      not yet materialized. */
  function NewGeneralizedTableSpec(settings: Settings, config: GeneralizedTableConfig): (r: GeneralizedTableSpec)
    ensures r.source.None? && r.sourceGeneralized.None? && !r.created && r.generalizations == []
    ensures r.name == config.name && r.fullName == settings.prefix + config.name
    ensures r.schema == settings.importSchema && r.sourceName == config.sourceTableName
    ensures r.toleranceMicros == config.toleranceMicros && r.where == config.sqlFilter
  {
    GeneralizedTableSpec(config.name, settings.prefix + config.name, settings.importSchema,
      config.sourceTableName, None, None, config.toleranceMicros, config.sqlFilter, false, [])
  }
}

=== FILE: text.dfy ===
/** The pieces of Go's `fmt`, `strconv` and `strings` that the SQL templates
    rely on: quoting, joining, decimal formatting and parsing, the `int8`
    conversion, prefix and whitespace handling. */
module Text {
  import opened Results

  /** `"\"" + name + "\""`: identifiers are interpolated without escaping. */
  function Quote(name: string): string {
    "\"" + name + "\""
  }

  /** `"%s"."%s"`: a schema-qualified, quoted table name. */
  function Qualified(schema: string, table: string): string {
    Quote(schema) + "." + Quote(table)
  }

  /** `strings.Join`. */
  function Join(parts: seq<string>, sep: string): string {
    if |parts| == 0 then ""
    else if |parts| == 1 then parts[0]
    else parts[0] + sep + Join(parts[1..], sep)
  }

  predicate HasPrefix(s: string, prefix: string) {
    prefix <= s
  }

  predicate HasSuffix(s: string, suffix: string) {
    |suffix| <= |s| && s[|s| - |suffix|..] == suffix
  }

  /** `strings.TrimPrefix`. */
  function TrimPrefix(s: string, prefix: string): string {
    if HasPrefix(s, prefix) then s[|prefix|..] else s
  }

  /** `sub` occurs somewhere inside `s`. */
  predicate IsInfix(sub: string, s: string) {
    HasPrefix(s, sub) || (|s| > 0 && IsInfix(sub, s[1..]))
  }

  lemma {:induction false} InfixOfConcat(a: string, m: string, b: string)
    ensures IsInfix(m, a + m + b)
  {
    if |a| == 0 {
      assert a + m + b == m + b;
    } else {
      assert (a + m + b)[1..] == a[1..] + m + b;
      InfixOfConcat(a[1..], m, b);
    }
  }

  /** An infix of an infix is an infix. */
  lemma {:induction false} InfixTransitive(a: string, b: string, c: string)
    requires IsInfix(a, b) && IsInfix(b, c)
    ensures IsInfix(a, c)
  {
    if HasPrefix(c, b) {
      InfixOfPrefix(a, b, c);
    } else {
      InfixTransitive(a, b, c[1..]);
    }
  }

  lemma {:induction false} InfixOfPrefix(a: string, b: string, c: string)
    requires IsInfix(a, b) && HasPrefix(c, b)
    ensures IsInfix(a, c)
  {
    if !HasPrefix(b, a) {
      InfixOfPrefix(a, b[1..], c[1..]);
    }
  }

  // ---------------------------------------------------------------------
  // Decimal formatting (`%d`) and parsing (`strconv.Atoi`)

  predicate IsDigit(c: char) {
    '0' <= c <= '9'
  }

  predicate AllDigits(s: string) {
    forall i :: 0 <= i < |s| ==> IsDigit(s[i])
  }

  function DigitChar(d: nat): (c: char)
    requires d < 10
    ensures IsDigit(c) && c as int - '0' as int == d
  {
    ('0' as int + d) as char
  }

  /** `%d` of a non-negative integer: canonical decimal digits. */
  function NatToString(n: nat): (s: string)
    ensures |s| > 0 && AllDigits(s)
    ensures s[0] == '0' ==> n == 0 && |s| == 1
  {
    if n < 10 then [DigitChar(n)] else NatToString(n / 10) + [DigitChar(n % 10)]
  }

  /** `%d` of any integer. */
  function IntToString(i: int): string {
    if i < 0 then "-" + NatToString(-i) else NatToString(i)
  }

  /** The value of a string of decimal digits (leading zeros allowed). */
  function DigitsValue(s: string): nat
    requires AllDigits(s)
  {
    if |s| == 0 then 0 else DigitsValue(s[..|s| - 1]) * 10 + (s[|s| - 1] as int - '0' as int)
  }

  lemma {:induction false} NatToStringRoundTrip(n: nat)
    ensures DigitsValue(NatToString(n)) == n
  {
    if n >= 10 {
      var s := NatToString(n);
      assert s[..|s| - 1] == NatToString(n / 10);
      NatToStringRoundTrip(n / 10);
    }
  }

  const Int64Min: int := -0x8000_0000_0000_0000
  const Int64Max: int := 0x7FFF_FFFF_FFFF_FFFF

  /** `strconv.Atoi` on a 64-bit platform: an optional sign followed by at
      least one decimal digit, with a value that fits in 64 bits. */
  function Atoi(s: string): (r: Option<int>)
    ensures r.Some? ==> Int64Min <= r.value <= Int64Max
    ensures r.Some? ==> |s| > 0 && (IsDigit(s[0]) || s[0] == '-' || s[0] == '+')
  {
    var signed := |s| > 0 && (s[0] == '-' || s[0] == '+');
    var digits := if signed then s[1..] else s;
    if |digits| == 0 || !AllDigits(digits) then None
    else
      var magnitude: int := DigitsValue(digits);
      var v: int := if signed && s[0] == '-' then -magnitude else magnitude;
      if Int64Min <= v <= Int64Max then Some(v) else None
  }

  /** `%d` and `strconv.Atoi` are inverse on 64-bit integers. */
  lemma AtoiOfIntToString(v: int)
    requires Int64Min <= v <= Int64Max
    ensures Atoi(IntToString(v)) == Some(v)
  {
    var s := IntToString(v);
    if v < 0 {
      assert s[1..] == NatToString(-v);
      NatToStringRoundTrip(-v);
    } else {
      NatToStringRoundTrip(v);
    }
  }

  // ---------------------------------------------------------------------
  // Go's `int8(x)` conversion: two's-complement truncation to 8 bits

  type Int8 = x: int | -128 <= x < 128

  function ToInt8(v: int): (r: Int8)
    ensures (v - r) % 256 == 0
    ensures -128 <= v < 128 ==> r == v
  {
    (v + 128) % 256 - 128
  }

  // ---------------------------------------------------------------------
  // `%f` of a tolerance held as an integer number of millionths

  function PadZeros(s: string, width: nat): (r: string)
    decreases width - |s|
  {
    if |s| >= width then s else PadZeros("0" + s, width)
  }

  /** `%f`: the integer part, a point and exactly six decimals. */
  function FormatMicros(micros: int): string {
    var u := if micros < 0 then -micros else micros;
    (if micros < 0 then "-" else "") + NatToString(u / 1000000) + "." + PadZeros(NatToString(u % 1000000), 6)
  }

  // ---------------------------------------------------------------------
  // Case and whitespace

  function UpperChar(c: char): char {
    if 'a' <= c <= 'z' then (c as int - 32) as char else c
  }

  /** `strings.ToUpper`, on ASCII letters. */
  function ToUpper(s: string): (r: string)
    ensures |r| == |s|
    ensures forall i :: 0 <= i < |s| ==> r[i] == UpperChar(s[i])
  {
    seq(|s|, i requires 0 <= i < |s| => UpperChar(s[i]))
  }

  /** `unicode.IsSpace`. */
  predicate IsSpace(c: char) {
    || c == ' ' || c == '\t' || c == '\n' || c == '\U{000B}' || c == '\U{000C}' || c == '\r'
    || c == '\U{0085}' || c == '\U{00A0}' || c == '\U{1680}'
    || ('\U{2000}' <= c <= '\U{200A}')
    || c == '\U{2028}' || c == '\U{2029}' || c == '\U{202F}' || c == '\U{205F}' || c == '\U{3000}'
  }

  function TrimLeftSpace(s: string): (r: string)
    ensures |r| <= |s| && r == s[|s| - |r|..]
    ensures forall i :: 0 <= i < |s| - |r| ==> IsSpace(s[i])
    ensures |r| > 0 ==> !IsSpace(r[0])
  {
    if |s| > 0 && IsSpace(s[0]) then TrimLeftSpace(s[1..]) else s
  }

  function TrimRightSpace(s: string): (r: string)
    ensures |r| <= |s| && r == s[..|r|]
    ensures forall i :: |r| <= i < |s| ==> IsSpace(s[i])
    ensures |r| > 0 ==> !IsSpace(r[|r| - 1])
  {
    if |s| > 0 && IsSpace(s[|s| - 1]) then TrimRightSpace(s[..|s| - 1]) else s
  }

  /** `strings.TrimSpace`: whitespace removed at both ends. */
  function TrimSpace(s: string): (r: string)
    ensures |r| <= |s|
    ensures |r| > 0 ==> !IsSpace(r[0]) && !IsSpace(r[|r| - 1])
  {
    var left := TrimLeftSpace(s);
    var r := TrimRightSpace(left);
    assert |r| > 0 ==> r[0] == left[0];
    r
  }

  /** What `TrimSpace` keeps is an infix of `s`, starting at `i`... */
  lemma TrimSpaceSlice(s: string) returns (i: nat)
    ensures i == |s| - |TrimLeftSpace(s)|
    ensures i + |TrimSpace(s)| <= |s| && TrimSpace(s) == s[i..i + |TrimSpace(s)|]
  {
    var left := TrimLeftSpace(s);
    var r := TrimRightSpace(left);
    assert TrimSpace(s) == r;
    i := PrefixOfSuffix(s, left, r);
  }

  /** A prefix of a suffix of `s` is a slice of `s`. */
  lemma PrefixOfSuffix(s: string, suffix: string, prefix: string) returns (i: nat)
    requires |suffix| <= |s| && suffix == s[|s| - |suffix|..]
    requires |prefix| <= |suffix| && prefix == suffix[..|prefix|]
    ensures i == |s| - |suffix| && i + |prefix| <= |s| && prefix == s[i..i + |prefix|]
  {
    i := |s| - |suffix|;
    assert forall k :: 0 <= k < |prefix| ==> prefix[k] == s[i + k];
  }

  /** ... and only whitespace surrounds that infix. */
  lemma TrimSpaceRemovesSpace(s: string)
    ensures var i := |s| - |TrimLeftSpace(s)|;
      && (forall k :: 0 <= k < i ==> IsSpace(s[k]))
      && (forall k :: i + |TrimSpace(s)| <= k < |s| ==> IsSpace(s[k]))
  {
    var left := TrimLeftSpace(s);
    var i := |s| - |left|;
    var r := TrimRightSpace(left);
    assert forall k :: i + |r| <= k < |s| ==> s[k] == left[k - i];
  }

  // ---------------------------------------------------------------------
  // Splitting on a one-character separator

  /** `strings.Split(s, string(sep))`. */
  function Split(s: string, sep: char): (parts: seq<string>)
    ensures |parts| > 0
  {
    if |s| == 0 then [""]
    else
      var rest := Split(s[1..], sep);
      if s[0] == sep then [""] + rest else [[s[0]] + rest[0]] + rest[1..]
  }

  lemma {:induction false} SplitFree(a: string, sep: char)
    requires sep !in a
    ensures Split(a, sep) == [a]
  {
    if |a| > 0 {
      SplitFree(a[1..], sep);
      assert [a[0]] + a[1..] == a;
    }
  }

  lemma {:induction false} SplitAt(a: string, sep: char, b: string)
    requires sep !in a
    ensures Split(a + [sep] + b, sep) == [a] + Split(b, sep)
  {
    if |a| == 0 {
      assert (a + [sep] + b)[1..] == b;
    } else {
      var s := a + [sep] + b;
      assert s[0] == a[0] && s[1..] == a[1..] + [sep] + b;
      SplitAt(a[1..], sep, b);
      assert [a[0]] + a[1..] == a;
    }
  }

  /** Splitting undoes joining, as long as no part holds the separator. */
  lemma {:induction false} SplitJoin(parts: seq<string>, sep: char)
    requires |parts| > 0 && forall i :: 0 <= i < |parts| ==> sep !in parts[i]
    ensures Split(Join(parts, [sep]), sep) == parts
  {
    if |parts| == 1 {
      SplitFree(parts[0], sep);
    } else {
      SplitAt(parts[0], sep, Join(parts[1..], [sep]));
      SplitJoin(parts[1..], sep);
    }
  }

  /** `strings.Replace(s, old, new, 1)`. */
  function ReplaceFirst(s: string, target: string, replacement: string): string
    requires |target| > 0
  {
    if |s| < |target| then s
    else if s[..|target|] == target then replacement + s[|target|..]
    else [s[0]] + ReplaceFirst(s[1..], target, replacement)
  }
}

=== FILE: updates.dfy ===
/** The update path of the backend: rows handed to the transaction router,
    and the identifiers recorded so that the generalized tables derived
    from changed rows can be re-derived afterwards. The router is a log of
    calls; which tables it rejects is an input. */
module Updates {
  import opened Results
  import opened Seqs
  import opened Spec
  import opened Graph

  /** A value of a routed row. The values `match.Row` builds are not part
      of this model, apart from the identifier a replay inserts alone. */
  datatype RowValue = Id(id: int) | Field(shown: string)

  type Row = seq<RowValue>

  /** A mapping match: the table it routes to and the row built for it. */
  datatype Match = Match(table: string, row: Row)

  datatype RouterCall = Insert(table: string, row: Row) | Delete(table: string, id: int)

  /** The router's log, whether generalized tables are tracked
      (`EnableGeneralizeUpdates`), and the identifiers recorded per
      generalized table. */
  datatype Backend = Backend(calls: seq<RouterCall>, tracking: bool, updatedIds: map<string, seq<int>>)

  datatype Outcome = Outcome(backend: Backend, error: Option<PgError>)

  function MatchTables(matches: seq<Match>): (names: seq<string>)
    ensures |names| == |matches|
    ensures forall i :: 0 <= i < |matches| ==> names[i] == matches[i].table
  {
    if |matches| == 0 then [] else [matches[0].table] + MatchTables(matches[1..])
  }

  function InsertCalls(matches: seq<Match>): (calls: seq<RouterCall>)
    ensures |calls| == |matches|
    ensures forall i :: 0 <= i < |matches| ==> calls[i] == Insert(matches[i].table, matches[i].row)
  {
    if |matches| == 0 then [] else [Insert(matches[0].table, matches[0].row)] + InsertCalls(matches[1..])
  }

  /** The match at `i` is the first one whose table the router rejects. */
  predicate FirstRejected(matches: seq<Match>, rejected: set<string>, i: int) {
    && 0 <= i < |matches| && matches[i].table in rejected
    && forall j :: 0 <= j < i ==> matches[j].table !in rejected
  }

  /** How far the loop of an `Insert*` method got: the number of rows it
      handed to the router, and the error it returned. */
  datatype Routed = Routed(count: nat, error: Option<PgError>)

  /** The loop of every `Insert*` method: one router insert per match,
      returning at the first one the router rejects, after handing it over. */
  function RouteRows(matches: seq<Match>, rejected: set<string>): (r: Routed)
    ensures r.count <= |matches|
    ensures r.error.None? <==> forall i :: 0 <= i < |matches| ==> matches[i].table !in rejected
    ensures r.error.None? ==> r.count == |matches|
    ensures r.error.Some? ==> (0 < r.count && FirstRejected(matches, rejected, r.count - 1)
      && r.error == Some(RouterFailed(matches[r.count - 1].table)))
    decreases |matches|
  {
    if |matches| == 0 then Routed(0, None)
    else if matches[0].table in rejected then Routed(1, Some(RouterFailed(matches[0].table)))
    else
      var r := RouteRows(matches[1..], rejected);
      RouteRowsStep(matches, rejected, r.count);
      Routed(r.count + 1, r.error)
  }

  /** How one accepted match shifts what the rest of the loop did. */
  lemma RouteRowsStep(matches: seq<Match>, rejected: set<string>, n: nat)
    requires 0 < |matches| && n < |matches| && matches[0].table !in rejected
    ensures (forall i :: 0 <= i < |matches| ==> matches[i].table !in rejected)
      <==> (forall i :: 0 <= i < |matches| - 1 ==> matches[1..][i].table !in rejected)
    ensures 0 < n ==> FirstRejected(matches[1..], rejected, n - 1) ==> FirstRejected(matches, rejected, n)
  {
    assert forall i :: 1 <= i < |matches| ==> matches[i] == matches[1..][i - 1];
  }

  /** The router calls of the `Insert*` loop, the error it returns, and
      the backend with those calls logged. */
  function Route(b: Backend, matches: seq<Match>, rejected: set<string>): (r: Outcome)
    ensures r.backend.tracking == b.tracking && r.backend.updatedIds == b.updatedIds
    ensures r.error == RouteRows(matches, rejected).error
    ensures r.backend.calls == b.calls + InsertCalls(matches[..RouteRows(matches, rejected).count])
  {
    var routed := RouteRows(matches, rejected);
    Outcome(b.(calls := b.calls + InsertCalls(matches[..routed.count])), routed.error)
  }

  /** `InsertPoint` and `InsertRelationMember`: the rows are routed up to
      the first rejected one, and no identifier is recorded. */
  function InsertUntracked(b: Backend, matches: seq<Match>, rejected: set<string>): (r: Outcome)
    ensures r.backend.tracking == b.tracking && r.backend.updatedIds == b.updatedIds
    ensures r.error.None? <==> forall i :: 0 <= i < |matches| ==> matches[i].table !in rejected
    ensures r.error.None? ==> r.backend.calls == b.calls + InsertCalls(matches)
    ensures r.error.Some? ==> exists i :: (
      && FirstRejected(matches, rejected, i) && r.error == Some(RouterFailed(matches[i].table))
      && r.backend.calls == b.calls + InsertCalls(matches[..i + 1]))
  {
    var r := Route(b, matches, rejected);
    assert matches[..|matches|] == matches;
    r
  }

  /** The recorded identifiers of a table, none when it has no entry. */
  function Recorded(ids: map<string, seq<int>>, g: string): seq<int> {
    if g in ids then ids[g] else []
  }

  /** Appends `id` to the entry of every table of `gens`, once per
      occurrence. */
  function Record(ids: map<string, seq<int>>, gens: seq<string>, id: int): (r: map<string, seq<int>>)
    ensures forall g :: g in r <==> g in ids || g in gens
    ensures forall g :: Recorded(r, g) == Recorded(ids, g) + Repeat(id, Occurrences(gens, g))
    decreases |gens|
  {
    if |gens| == 0 then ids
    else
      var g := gens[0];
      var next := ids[g := Recorded(ids, g) + [id]];
      var r := Record(next, gens[1..], id);
      RecordStep(ids, next, r, gens, id);
      r
  }

  lemma RecordStep(ids: map<string, seq<int>>, next: map<string, seq<int>>, r: map<string, seq<int>>, gens: seq<string>, id: int)
    requires |gens| > 0 && next == ids[gens[0] := Recorded(ids, gens[0]) + [id]]
    requires forall g :: g in r <==> g in next || g in gens[1..]
    requires forall g :: Recorded(r, g) == Recorded(next, g) + Repeat(id, Occurrences(gens[1..], g))
    ensures forall g :: g in r <==> g in ids || g in gens
    ensures forall g :: Recorded(r, g) == Recorded(ids, g) + Repeat(id, Occurrences(gens, g))
  {
    assert gens == [gens[0]] + gens[1..];
    forall g ensures Recorded(r, g) == Recorded(ids, g) + Repeat(id, Occurrences(gens, g)) {
      if g == gens[0] {
        RepeatOneMore(Recorded(ids, g), id, Occurrences(gens[1..], g));
      }
    }
  }

  /** Appending `id` and then `n` more copies appends `n + 1` copies. */
  lemma RepeatOneMore(s: seq<int>, id: int, n: nat)
    ensures s + [id] + Repeat(id, n) == s + Repeat(id, n + 1)
  {
    assert Repeat(id, n + 1) == [id] + Repeat(id, n);
    ConcatAssoc(s, [id], Repeat(id, n));
  }

  /** `InsertLineString` and `InsertPolygon`: the rows are routed; when all
      were accepted and tracking is on, the element's identifier is recorded
      for every generalized table of every matched table. */
  function InsertTracked(b: Backend, tables: Tables, id: int, matches: seq<Match>, rejected: set<string>): (r: Outcome)
    requires forall i :: 0 <= i < |matches| ==> matches[i].table in tables
    ensures r.backend.tracking == b.tracking
    ensures var plain := InsertUntracked(b, matches, rejected);
      r.error == plain.error && r.backend.calls == plain.backend.calls
    ensures r.error.Some? || !b.tracking ==> r.backend.updatedIds == b.updatedIds
    ensures r.error.None? && b.tracking ==> var gens := GeneralizedFromMatches(tables, MatchTables(matches));
      forall g :: Recorded(r.backend.updatedIds, g) == Recorded(b.updatedIds, g) + Repeat(id, Occurrences(gens, g))
  {
    var routed := Route(b, matches, rejected);
    if routed.error.Some? || !b.tracking then routed
    else Outcome(routed.backend.(updatedIds := Record(b.updatedIds, GeneralizedFromMatches(tables, MatchTables(matches)), id)), None)
  }

  /** A tracked insert records the identifier for a generalized table
      exactly when one of the matched tables lists it. */
  lemma TrackedInsertRecords(b: Backend, tables: Tables, id: int, matches: seq<Match>, rejected: set<string>, g: string)
    requires forall i :: 0 <= i < |matches| ==> matches[i].table in tables
    requires b.tracking && InsertTracked(b, tables, id, matches, rejected).error.None?
    ensures var after := Recorded(InsertTracked(b, tables, id, matches, rejected).backend.updatedIds, g);
      (|after| > |Recorded(b.updatedIds, g)|) <==> exists i :: 0 <= i < |matches| && g in tables[matches[i].table].generalizations
  {
    var names := MatchTables(matches);
    var gens := GeneralizedFromMatches(tables, names);
    OccurrencesPositive(gens, g);
    if g in gens {
      var i :| 0 <= i < |names| && g in tables[names[i]].generalizations;
    }
  }

  lemma {:induction false} OccurrencesPositive(s: seq<string>, x: string)
    ensures Occurrences(s, x) > 0 <==> x in s
  {
    if |s| > 0 {
      OccurrencesPositive(s[1..], x);
      assert x in s <==> s[0] == x || x in s[1..];
    }
  }

  function DeleteCalls(tables: seq<string>, id: int): (calls: seq<RouterCall>)
    ensures |calls| == |tables|
    ensures forall i :: 0 <= i < |tables| ==> calls[i] == Delete(tables[i], id)
  {
    if |tables| == 0 then [] else [Delete(tables[0], id)] + DeleteCalls(tables[1..], id)
  }

  lemma DeleteCallsHold(tables: seq<string>, id: int)
    ensures forall c :: c in DeleteCalls(tables, id) ==> c.Delete? && c.id == id && c.table in tables
    ensures forall t :: t in tables ==> Delete(t, id) in DeleteCalls(tables, id)
  {
    var calls := DeleteCalls(tables, id);
    forall t | t in tables ensures Delete(t, id) in calls {
      var i :| 0 <= i < |tables| && tables[i] == t;
      assert calls[i] == Delete(t, id);
    }
  }

  /** `Delete`: a router delete per matched table and, with tracking on, per
      generalized table of the matched tables. Router errors are not
      checked, and no identifier is recorded. */
  function DeleteRows(b: Backend, tables: Tables, id: int, matches: seq<Match>): (r: Backend)
    requires forall i :: 0 <= i < |matches| ==> matches[i].table in tables
    ensures r.tracking == b.tracking && r.updatedIds == b.updatedIds
    ensures b.calls <= r.calls
    ensures forall c :: c in r.calls[|b.calls|..] ==> c.Delete? && c.id == id
    ensures forall t :: Delete(t, id) in r.calls[|b.calls|..] <==> (
      || (exists i :: 0 <= i < |matches| && t == matches[i].table)
      || (b.tracking && exists i :: 0 <= i < |matches| && t in tables[matches[i].table].generalizations))
  {
    var names := MatchTables(matches);
    var gens := if b.tracking then GeneralizedFromMatches(tables, names) else [];
    var added := DeleteCalls(names, id) + DeleteCalls(gens, id);
    DeleteRowsAdded(b.calls, tables, id, matches, b.tracking, names, gens, added);
    b.(calls := b.calls + added)
  }

  /** The calls `Delete` appends, in terms of the matches. */
  lemma DeleteRowsAdded(calls: seq<RouterCall>, tables: Tables, id: int, matches: seq<Match>, tracking: bool,
                        names: seq<string>, gens: seq<string>, added: seq<RouterCall>)
    requires forall i :: 0 <= i < |matches| ==> matches[i].table in tables
    requires names == MatchTables(matches)
    requires gens == if tracking then GeneralizedFromMatches(tables, names) else []
    requires added == DeleteCalls(names, id) + DeleteCalls(gens, id)
    ensures calls <= calls + added
    ensures forall c :: c in (calls + added)[|calls|..] ==> c.Delete? && c.id == id
    ensures forall t :: Delete(t, id) in (calls + added)[|calls|..] <==> (
      || (exists i :: 0 <= i < |matches| && t == matches[i].table)
      || (tracking && exists i :: 0 <= i < |matches| && t in tables[matches[i].table].generalizations))
  {
    DeleteCallsHold(names, id);
    DeleteCallsHold(gens, id);
    DeleteRowsTargets(calls, added, names, gens, id);
    MatchedTargets(tables, matches, tracking, names, gens);
  }

  /** The tables `Delete` targets: the matched tables and, with tracking on,
      their generalized tables. */
  lemma MatchedTargets(tables: Tables, matches: seq<Match>, tracking: bool, names: seq<string>, gens: seq<string>)
    requires forall i :: 0 <= i < |matches| ==> matches[i].table in tables
    requires names == MatchTables(matches)
    requires gens == if tracking then GeneralizedFromMatches(tables, names) else []
    ensures forall t :: t in names || t in gens <==> (
      || (exists i :: 0 <= i < |matches| && t == matches[i].table)
      || (tracking && exists i :: 0 <= i < |matches| && t in tables[matches[i].table].generalizations))
  {
    forall t | t in names
      ensures exists i :: 0 <= i < |matches| && t == matches[i].table
    {
      var i :| 0 <= i < |names| && names[i] == t;
      assert t == matches[i].table;
    }
    forall t, i | 0 <= i < |matches| && t == matches[i].table
      ensures t in names
    {
      assert names[i] == t;
    }
    if tracking {
      forall t | t in gens
        ensures exists i :: 0 <= i < |matches| && t in tables[matches[i].table].generalizations
      {
        var i :| 0 <= i < |names| && t in tables[names[i]].generalizations;
        assert names[i] == matches[i].table;
      }
      forall t, i | 0 <= i < |matches| && t in tables[matches[i].table].generalizations
        ensures t in gens
      {
        assert names[i] == matches[i].table;
      }
    }
  }

  lemma DeleteRowsTargets(calls: seq<RouterCall>, added: seq<RouterCall>, names: seq<string>, gens: seq<string>, id: int)
    requires added == DeleteCalls(names, id) + DeleteCalls(gens, id)
    requires forall c :: c in DeleteCalls(names, id) ==> c.Delete? && c.id == id && c.table in names
    requires forall t :: t in names ==> Delete(t, id) in DeleteCalls(names, id)
    requires forall c :: c in DeleteCalls(gens, id) ==> c.Delete? && c.id == id && c.table in gens
    requires forall t :: t in gens ==> Delete(t, id) in DeleteCalls(gens, id)
    ensures (calls + added)[|calls|..] == added
    ensures forall c :: c in added ==> c.Delete? && c.id == id
    ensures forall t :: Delete(t, id) in added <==> t in names || t in gens
  {
    assert (calls + added)[|calls|..] == added;
  }

  function ReplayCalls(table: string, ids: seq<int>): (calls: seq<RouterCall>)
    ensures |calls| == |ids|
    ensures forall k :: 0 <= k < |ids| ==> calls[k] == Insert(table, [Id(ids[k])])
  {
    if |ids| == 0 then [] else [Insert(table, [Id(ids[0])])] + ReplayCalls(table, ids[1..])
  }

  /** The replays of the tables of `sorted`, in that order. */
  function Replays(sorted: seq<string>, ids: map<string, seq<int>>): (calls: seq<RouterCall>)
    ensures forall c :: c in calls <==> (c.Insert? && c.table in sorted && c.table in ids
      && exists k :: 0 <= k < |ids[c.table]| && c.row == [Id(ids[c.table][k])])
  {
    if |sorted| == 0 then []
    else
      var t := sorted[0];
      var first := if t in ids then ReplayCalls(t, ids[t]) else [];
      var rest := Replays(sorted[1..], ids);
      assert forall c :: c in first + rest <==> c in first || c in rest;
      assert forall x :: x in sorted <==> x == t || x in sorted[1..];
      first + rest
  }

  /** The calls of `calls` addressed to table `t`, in order. */
  function CallsTo(calls: seq<RouterCall>, t: string): (r: seq<RouterCall>)
    ensures forall c :: c in r <==> c in calls && c.table == t
  {
    if |calls| == 0 then []
    else (if calls[0].table == t then [calls[0]] else []) + CallsTo(calls[1..], t)
  }

  lemma {:induction false} CallsToConcat(a: seq<RouterCall>, b: seq<RouterCall>, t: string)
    ensures CallsTo(a + b, t) == CallsTo(a, t) + CallsTo(b, t)
    decreases |a|
  {
    if |a| == 0 {
      assert a + b == b;
    } else {
      assert (a + b)[1..] == a[1..] + b;
      CallsToConcat(a[1..], b, t);
    }
  }

  lemma {:induction false} CallsToReplay(table: string, ids: seq<int>, t: string)
    ensures CallsTo(ReplayCalls(table, ids), t) == if t == table then ReplayCalls(table, ids) else []
    decreases |ids|
  {
    if |ids| > 0 {
      CallsToReplay(table, ids[1..], t);
    }
  }

  /** Each table of `sorted` gets the replays of its own records, in
      record order, and a table outside `sorted` gets none. */
  lemma {:induction false} ReplaysPerTable(sorted: seq<string>, ids: map<string, seq<int>>, t: string)
    requires NoDuplicates(sorted)
    ensures CallsTo(Replays(sorted, ids), t) == if t in sorted then ReplayCalls(t, Recorded(ids, t)) else []
    decreases |sorted|
  {
    if |sorted| > 0 {
      var u := sorted[0];
      var first := if u in ids then ReplayCalls(u, ids[u]) else [];
      var rest := Replays(sorted[1..], ids);
      assert Replays(sorted, ids) == first + rest;
      CallsToConcat(first, rest, t);
      if u in ids {
        CallsToReplay(u, ids[u], t);
      }
      assert NoDuplicates(sorted[1..]) by {
        assert forall i :: 0 <= i < |sorted| - 1 ==> sorted[1..][i] == sorted[i + 1];
      }
      ReplaysPerTable(sorted[1..], ids, t);
      assert u !in sorted[1..] by {
        forall k | 0 <= k < |sorted[1..]| ensures sorted[1..][k] != u {
          assert sorted[1..][k] == sorted[k + 1];
        }
      }
      assert t in sorted <==> t == u || t in sorted[1..];
    }
  }

  /** `a` comes before `b` in `order`. */
  predicate Before(order: seq<string>, a: string, b: string) {
    exists p, q :: 0 <= p < q < |order| && order[p] == a && order[q] == b
  }

  /** Calls to tables in an order-respecting sequence. */
  predicate InTableOrder(calls: seq<RouterCall>, order: seq<string>) {
    forall i, j :: 0 <= i < j < |calls| && calls[i].table != calls[j].table ==> Before(order, calls[i].table, calls[j].table)
  }

  /** The replays run table by table in the order of `sorted`. */
  lemma {:induction false} ReplaysInOrder(sorted: seq<string>, ids: map<string, seq<int>>)
    ensures InTableOrder(Replays(sorted, ids), sorted)
    decreases |sorted|
  {
    if |sorted| > 0 {
      var u := sorted[0];
      var first := if u in ids then ReplayCalls(u, ids[u]) else [];
      var rest := Replays(sorted[1..], ids);
      assert Replays(sorted, ids) == first + rest;
      ReplaysInOrder(sorted[1..], ids);
      InTableOrderStep(sorted, first, rest);
    }
  }

  lemma InTableOrderStep(sorted: seq<string>, first: seq<RouterCall>, rest: seq<RouterCall>)
    requires |sorted| > 0
    requires forall k :: 0 <= k < |first| ==> first[k].table == sorted[0]
    requires forall c :: c in rest ==> c.table in sorted[1..]
    requires InTableOrder(rest, sorted[1..])
    ensures InTableOrder(first + rest, sorted)
  {
    var calls := first + rest;
    forall i, j | 0 <= i < j < |calls| && calls[i].table != calls[j].table
      ensures Before(sorted, calls[i].table, calls[j].table)
    {
      assert j >= |first|;
      assert calls[j] == rest[j - |first|];
      if i < |first| {
        HeadBefore(sorted, calls[j].table);
      } else {
        var i', j' := i - |first|, j - |first|;
        assert calls[i] == rest[i'];
        assert Before(sorted[1..], rest[i'].table, rest[j'].table);
        TailBefore(sorted, rest[i'].table, rest[j'].table);
      }
    }
  }

  lemma HeadBefore(sorted: seq<string>, b: string)
    requires |sorted| > 0 && b in sorted[1..]
    ensures Before(sorted, sorted[0], b)
  {
    var q :| 0 <= q < |sorted[1..]| && sorted[1..][q] == b;
    assert sorted[q + 1] == b;
  }

  lemma TailBefore(sorted: seq<string>, a: string, b: string)
    requires |sorted| > 0 && Before(sorted[1..], a, b)
    ensures Before(sorted, a, b)
  {
    var p, q :| 0 <= p < q < |sorted[1..]| && sorted[1..][p] == a && sorted[1..][q] == b;
    assert sorted[p + 1] == a && sorted[q + 1] == b;
  }

  /** `GeneralizeUpdates`: re-derives every recorded row, one router insert
      of the bare identifier per record, table by table in the order of
      `sortedGeneralizedTables`. Router errors are not checked, and the
      records are kept. */
  function GeneralizeUpdates(b: Backend, gens: Generalized, orders: seq<seq<string>>): (r: Backend)
    requires forall n :: n in gens ==> gens[n].source.Some?
    requires forall k :: 0 <= k < |orders| ==> Visits(orders[k], gens.Keys)
    requires |orders| > 0 && NoDuplicates(orders[0])
    ensures r.tracking == b.tracking && r.updatedIds == b.updatedIds
    ensures b.calls <= r.calls
    ensures forall t, x :: Insert(t, [Id(x)]) in r.calls[|b.calls|..] <==> t in gens && x in Recorded(b.updatedIds, t)
    ensures forall c :: c in r.calls[|b.calls|..] ==> c.Insert? && |c.row| == 1 && c.row[0].Id?
    ensures forall t :: CallsTo(r.calls[|b.calls|..], t) == if t in gens then ReplayCalls(t, Recorded(b.updatedIds, t)) else []
    ensures InTableOrder(r.calls[|b.calls|..], orders[0])
  {
    var sorted := SortedGeneralizedTables(gens, orders);
    var added := Replays(sorted, b.updatedIds);
    ReplaysAdded(sorted, b.updatedIds, gens);
    var r := b.(calls := b.calls + added);
    assert r.calls[|b.calls|..] == added;
    r
  }

  /** What the replays of an enumeration of the generalized tables add. */
  lemma ReplaysAdded(sorted: seq<string>, ids: map<string, seq<int>>, gens: Generalized)
    requires Enumerates(sorted, gens.Keys)
    ensures forall t, x :: Insert(t, [Id(x)]) in Replays(sorted, ids) <==> t in gens && x in Recorded(ids, t)
    ensures forall c :: c in Replays(sorted, ids) ==> c.Insert? && |c.row| == 1 && c.row[0].Id?
    ensures forall t :: CallsTo(Replays(sorted, ids), t) == if t in gens then ReplayCalls(t, Recorded(ids, t)) else []
    ensures InTableOrder(Replays(sorted, ids), sorted)
  {
    ReplaysMembers(sorted, ids, gens);
    forall t ensures CallsTo(Replays(sorted, ids), t) == if t in gens then ReplayCalls(t, Recorded(ids, t)) else [] {
      ReplaysPerTable(sorted, ids, t);
    }
    ReplaysInOrder(sorted, ids);
  }

  lemma ReplaysMembers(sorted: seq<string>, ids: map<string, seq<int>>, gens: Generalized)
    requires Visits(sorted, gens.Keys)
    ensures forall t, x :: Insert(t, [Id(x)]) in Replays(sorted, ids) <==> t in gens && x in Recorded(ids, t)
  {
    forall t, x ensures Insert(t, [Id(x)]) in Replays(sorted, ids) <==> t in gens && x in Recorded(ids, t) {
      if t in ids && x in ids[t] {
        var k :| 0 <= k < |ids[t]| && ids[t][k] == x;
        assert [Id(x)] == [Id(ids[t][k])];
      }
    }
  }

  /** Every record is replayed once: a generalized table receives as many
      inserts of an identifier as it holds records of it. */
  lemma ReplayedOncePerRecord(b: Backend, gens: Generalized, orders: seq<seq<string>>, t: string, x: int)
    requires forall n :: n in gens ==> gens[n].source.Some?
    requires forall k :: 0 <= k < |orders| ==> Visits(orders[k], gens.Keys)
    requires |orders| > 0 && NoDuplicates(orders[0])
    requires t in gens
    ensures var r := GeneralizeUpdates(b, gens, orders);
      Occurrences(r.calls[|b.calls|..], Insert(t, [Id(x)])) == Occurrences(Recorded(b.updatedIds, t), x)
  {
    var r := GeneralizeUpdates(b, gens, orders);
    var added := r.calls[|b.calls|..];
    OccurrencesOfCallsTo(added, Insert(t, [Id(x)]));
    ReplayOccurrences(t, Recorded(b.updatedIds, t), x);
  }

  lemma {:induction false} OccurrencesOfCallsTo(calls: seq<RouterCall>, c: RouterCall)
    ensures Occurrences(calls, c) == Occurrences(CallsTo(calls, c.table), c)
    decreases |calls|
  {
    if |calls| > 0 {
      OccurrencesOfCallsTo(calls[1..], c);
      var head := if calls[0].table == c.table then [calls[0]] else [];
      OccurrencesConcat(head, CallsTo(calls[1..], c.table), c);
    }
  }

  lemma {:induction false} OccurrencesConcat(a: seq<RouterCall>, b: seq<RouterCall>, c: RouterCall)
    ensures Occurrences(a + b, c) == Occurrences(a, c) + Occurrences(b, c)
    decreases |a|
  {
    if |a| > 0 {
      assert (a + b)[1..] == a[1..] + b;
      OccurrencesConcat(a[1..], b, c);
    } else {
      assert a + b == b;
    }
  }

  lemma {:induction false} ReplayOccurrences(t: string, ids: seq<int>, x: int)
    ensures Occurrences(ReplayCalls(t, ids), Insert(t, [Id(x)])) == Occurrences(ids, x)
    decreases |ids|
  {
    if |ids| > 0 {
      ReplayOccurrences(t, ids[1..], x);
      assert ReplayCalls(t, ids)[1..] == ReplayCalls(t, ids[1..]);
    }
  }

  /** A row inserted with tracking on is re-derived in every generalized
      table of every matched table by the next `GeneralizeUpdates`. */
  lemma TrackedRowsReplayed(b: Backend, tables: Tables, gens: Generalized, orders: seq<seq<string>>,
                            id: int, matches: seq<Match>, rejected: set<string>, i: nat, g: string)
    requires forall i :: 0 <= i < |matches| ==> matches[i].table in tables
    requires forall t, g :: t in tables && g in tables[t].generalizations ==> g in gens
    requires forall n :: n in gens ==> gens[n].source.Some?
    requires forall k :: 0 <= k < |orders| ==> Visits(orders[k], gens.Keys)
    requires |orders| > 0 && NoDuplicates(orders[0])
    requires b.tracking && InsertTracked(b, tables, id, matches, rejected).error.None?
    requires i < |matches| && g in tables[matches[i].table].generalizations
    ensures var after := InsertTracked(b, tables, id, matches, rejected).backend;
      Insert(g, [Id(id)]) in GeneralizeUpdates(after, gens, orders).calls[|after.calls|..]
  {
    var after := InsertTracked(b, tables, id, matches, rejected).backend;
    var names := MatchTables(matches);
    var fanout := GeneralizedFromMatches(tables, names);
    assert g in fanout by {
      assert names[i] == matches[i].table;
    }
    OccurrencesPositive(fanout, g);
    var n := Occurrences(fanout, g);
    assert Recorded(after.updatedIds, g) == Recorded(b.updatedIds, g) + Repeat(id, n);
    assert Recorded(after.updatedIds, g)[|Recorded(b.updatedIds, g)|] == id;
  }
}
